=== FILE: README.md ===
# Bye Mistakes — a Dafny model of the app's rules

Bye Mistakes is a study companion for school students. On first launch a
scripted chat onboarding collects the student's name, grade, gender and MBTI
type and then shows a five-slide tutorial. After that, the main screen hands
three shared collections to four tabs:

- the mistakes the student recorded;
- the goals (one slot each for long, medium and short term);
- the saved counselling chats.

The tabs are:

- **review**: register a mistake, get a drill and receive feedback on it;
- **practice**: summaries, a weakness analysis and a training mode;
- **motivation**: goals, the completion dialogs and the counselling chat;
- **settings**: the profile, the AI persona and learning preferences.

This project states those rules as immutable datatypes and pure transition
functions, and proves what the app promises about them.

The model is organised like this:

- Every call to the hosted language model is a parameter of type
  `AiReply<T>`, which is `Replied(answer)` or `Failed`. A failed reply covers
  network errors and unparsable JSON alike.
- Clock-derived ids and timestamps are parameters.
- `window.alert` messages are part of a transition's result, and
  `window.confirm` answers are boolean inputs. The one exception is the
  refused-microphone alert (tabs/MotivationTab.tsx:119), which belongs to the
  browser I/O listed under "Left out".

| module | file | models |
|---|---|---|
| `Wrappers` | wrappers.dfy | `Option`, the AI reply and an accepted/refused result |
| `Text` | text.dfy | JavaScript `trim`, `includes`, `split` and `toLowerCase` on strings |
| `Types` | types.dfy | the records of `types.ts` |
| `Seqs` | seqs.dfy | `find`, `findIndex` and `filter` over sequences |
| `Constants` | constants.dfy | the tables of `constants.ts` |
| `SharedState` | shared_state.dfy | the five collection operations of `MainApp.tsx` |
| `ChatInput` | chat_input.dfy | `components/ChatInput.tsx` |
| `Tutorial` | tutorial.dfy | `components/Tutorial.tsx` |
| `Onboarding` | onboarding.dfy | the onboarding machine of `App.tsx` together with its input box and tutorial |
| `Persona` | persona.dfy | `getAIPersonalityPrompt` as written out in three tabs |
| `Motivation` | motivation.dfy | `tabs/MotivationTab.tsx` |
| `Practice` | practice.dfy | `tabs/PracticeTab.tsx` |
| `Review` | review.dfy | `tabs/ReviewTab.tsx`, including the data-URI split |
| `Settings` | settings.dfy | `tabs/SettingsTab.tsx` |

## Behaviour of the code worth knowing

- **Goal upsert.** `addOrUpdateGoal` matches a new goal on type alone
  (MainApp.tsx:45-51), so a new goal also overwrites a *completed* goal of
  that type. That goal then drops out of the 過去の頑張り history
  (`SharedState.NewGoalReplacesCompletedOfSameType`,
  `Motivation.NewGoalEvictsCompleted`). Goal types stay pairwise distinct,
  so the history shows at most one completed goal per type.
- **Reflection rating.** Answering yes sets the rating to 0
  (tabs/MotivationTab.tsx:341-344), and the star buttons set 1 to 5
  (tabs/MotivationTab.tsx:181-184). The reflection can be saved without a
  click, so a stored rating lies in 0..5
  (`Motivation.FlowStepPreservesValid`).
- **Closing the completion dialogs.** Only the pep-talk and celebration
  dialogs have a button that closes them (tabs/MotivationTab.tsx:490,
  tabs/MotivationTab.tsx:513). The confirm and reflect dialogs can only be
  left by answering or by saving.
- **Order of completion.** `handleSaveReflectionAndCelebrate` stores the
  completed goal once the celebration call returns, and then opens the
  celebration dialog. It does this whether the call succeeds or fails
  (tabs/MotivationTab.tsx:359-376).
- **Personality fallback.** For an unknown personality key, the motivation
  and review tabs fall back to the first personality's prompt
  (tabs/MotivationTab.tsx:256, tabs/ReviewTab.tsx:28). The practice tab's
  grading prompt falls back to the empty string (tabs/PracticeTab.tsx:186).
- **Summary requests.** A practice entry asks for its summary while
  `summary` is still empty (tabs/PracticeTab.tsx:21, tabs/PracticeTab.tsx:38).
  Collapsing and re-expanding before the first reply therefore starts a
  second request (`Practice.PendingSummaryAskedAgain`).

## Model

| member | source | states |
|---|---|---|
| SharedState.AddOrUpdateMistake | MainApp.tsx:25-35 | an id that occurs replaces the first entry with that id, with the length and every other position unchanged; an unseen id is appended |
| SharedState.MistakeLookupAfterUpsert | MainApp.tsx:25-35 | read-your-write: finding by the saved id afterwards returns exactly the saved mistake |
| SharedState.MistakeIdsStayDistinct | MainApp.tsx:25-35 | unique ids stay unique, and the id set gains exactly the saved id |
| SharedState.MistakeUpsertIdempotent | MainApp.tsx:25-35 | saving the same mistake twice equals saving it once |
| SharedState.AddOrUpdateGoal | MainApp.tsx:37-54 | an id match replaces that slot even if another goal has the type; otherwise the first same-type goal, completed or not, is replaced in place; otherwise the goal is appended |
| SharedState.GoalTypesStayDistinct | MainApp.tsx:37-54 | pairwise distinct goal types stay distinct when an id-matched update keeps the stored type |
| SharedState.AtMostThreeGoals | MainApp.tsx:37-54 | distinct types bound the goal list to three entries |
| SharedState.GoalUpsertKeeps | MainApp.tsx:37-54 | an upsert adds at most one goal, and every goal afterwards is the saved one or was stored before |
| SharedState.GoalSavesKeepBound | MainApp.tsx:37-54 | starting from distinct types, any run of saves in which each id-matched update keeps its stored type leaves the types distinct and at most three goals |
| SharedState.NewGoalReplacesCompletedOfSameType | MainApp.tsx:45-51 | in any goal list with distinct types, a goal with an unused id whose type belongs to a completed goal replaces that completed goal in place |
| SharedState.ResetGoalByType | MainApp.tsx:56-58 | the result holds exactly the goals of other types |
| SharedState.ResetKeepsOrder | MainApp.tsx:56-58 | reset distributes over concatenation (relative order kept), leaves a list without the type unchanged, and is idempotent |
| SharedState.AddSavedChat | MainApp.tsx:60-62 | the new chat is at index 0 and the old ones follow in order |
| SharedState.DeleteSavedChat | MainApp.tsx:64-66 | the result holds exactly the chats with another id |
| SharedState.DeleteRemovesExactlyOne | MainApp.tsx:64-66 | with unique ids, deleting one chat's id removes exactly that position |
| SharedState.DeleteKeepsOrder | MainApp.tsx:64-66 | deletion distributes over concatenation, so survivors keep their relative order |
| SharedState.DeleteUndoesAdd | MainApp.tsx:60-66 | adding a chat with a fresh id and deleting that id restores the list |
| ChatInput.Submit | components/ChatInput.tsx:19-25 | the text is sent, verbatim, iff it is not all whitespace and the box is neither loading nor disabled; after a send the box is empty, otherwise unchanged |
| ChatInput.KeyDown | components/ChatInput.tsx:27-32 | Enter without Shift sends under the same guard; any other key sends nothing and keeps the text |
| ChatInput.OnDisabled | components/ChatInput.tsx:13-17 | becoming disabled empties the box; otherwise the text is kept |
| ChatInput.NoDoubleSend | components/ChatInput.tsx:19-25 | a second submit right after a send sends nothing |
| ChatInput.DisabledNeverSends | components/ChatInput.tsx:13-25 | a disabled box never sends, and after being disabled holds nothing to send once re-enabled |
| ChatInput.ShiftEnterNeverSends | components/ChatInput.tsx:27-32 | Shift+Enter never sends and keeps the text |
| Tutorial.HandleNext | components/Tutorial.tsx:36-44 | the slide stays within the five slides; before the last it advances by one without completing; on the last it completes and stays |
| Tutorial.ButtonLabel | components/Tutorial.tsx:73 | the label is 完了 exactly on the last slide and 次へ exactly before it |
| Tutorial.LabelMatchesPress | components/Tutorial.tsx:38-44 | the label reads 完了 exactly when pressing completes, and 次へ exactly when pressing moves to the next slide |
| Tutorial.Presses | components/Tutorial.tsx:38-44 | any number of presses keeps the slide in range, and zero presses never complete |
| Tutorial.CompletesOnFifthPress | components/Tutorial.tsx:7-44 | from slide 0, presses 1 to 4 only advance and the 5th press first completes, on the last slide |
| Tutorial.PressesBeforeEnd | components/Tutorial.tsx:38-44 | presses that stay short of the end advance one slide each; the press on the last slide completes |
| Onboarding.StartOnboarding | App.tsx:49-62 | the conversation becomes exactly one bot message and the step becomes name |
| Onboarding.HandleNameStep | App.tsx:64-68 | the name is stored verbatim, the grade question with the grade buttons is appended, and the step becomes grade |
| Onboarding.HandleUserInput | App.tsx:97-105 | outside the name step nothing changes; in it, exactly two messages are appended, the user's input and then the grade question with the grade buttons, and the name is stored verbatim |
| Onboarding.HandleOptionSelect | App.tsx:70-91 | in the grade, gender and MBTI steps exactly two messages are appended, the echoed value and then the next question (or the closing message), the value is stored in that step's field only, and the step advances; other steps only append the echo |
| Onboarding.HandleTutorialComplete | App.tsx:93-95 | the step becomes main_app and the profile is kept |
| Onboarding.Dispatch | App.tsx:116-143 | on the main screen no event has an effect, and no event changes the AI settings |
| Onboarding.Offers | components/ChatMessage.tsx:37-48 | a value can be clicked iff some bot message on screen carries a button with it |
| Onboarding.StartIsValid | App.tsx:13-17 | the initial state satisfies the screen invariant |
| Onboarding.DispatchPreservesValid | App.tsx:49-143 | every event keeps the invariant: a disabled box is empty and the slide index is a slide |
| Onboarding.DispatchAdvancesAtMostOne | App.tsx:49-105 | each event stays in its step or moves exactly one step forward, and main_app is final |
| Onboarding.InputIgnoredOutsideNameStep | App.tsx:97-105 | typing or submitting outside the name step changes nothing |
| Onboarding.BlankNameRefused | components/ChatInput.tsx:21 | a blank name is not accepted |
| Onboarding.NameAccepted | App.tsx:64-104 | a non-blank name is stored as typed, echoed, followed by the grade question, and the box is emptied |
| Onboarding.OptionDependsOnlyOnStep | App.tsx:70-90 | the field an option fills depends only on the step, not on the conversation |
| Onboarding.MainAppIsFinal | App.tsx:116-125 | once on the main screen, no sequence of events has any effect |
| Onboarding.TutorialPresses | App.tsx:93-130 | presses in the tutorial step follow the tutorial counter, and the main screen is reached exactly when it completes |
| Onboarding.PickLatest | App.tsx:70-91 | a button of the latest question reaches handleOptionSelect with its value |
| Onboarding.OnboardFillsProfile | App.tsx:49-91 | mounting, a name and three button answers reach the tutorial with exactly that profile |
| Onboarding.OnboardThenTutorial | App.tsx:49-130 | the full happy path with five presses reaches main_app with the answers given, and four presses do not |
| Onboarding.TaroScenario | App.tsx:49-130 | the profile Taro / 中学1年生 / 男性 / わからない is collected as given |
| Onboarding.StaleButtonFillsCurrentField | App.tsx:70-90 | a grade button clicked while the gender question is pending is stored as the gender |
| Constants.OptionCounts | constants.ts:3-53 | 14 grade options, 4 gender options, 18 MBTI options |
| Constants.LabelsAreValues | constants.ts:3-53 | every onboarding option's label equals its value |
| Constants.MbtiCodesShape | constants.ts:27-44 | sixteen distinct four-letter Myers-Briggs codes |
| Constants.MbtiOptionsShape | constants.ts:46-53 | sixteen `CODE (name)` options in table order, then わからない and 回答しない |
| Constants.PersonalityKeysDistinct | constants.ts:55-63 | no two personality entries share a key |
| Constants.PersonalityTableShape | constants.ts:55-63 | the first entry is gyaru with a prompt, and exactly the custom entry has an empty prompt |
| Constants.ProfanityListShape | constants.ts:108-111 | the list holds 19 words, none empty, each already lower case |
| Constants.PreferenceKeysDistinct | constants.ts:86-106 | the 13 preference keys are distinct across the three categories |
| Persona.Lookup | tabs/MotivationTab.tsx:255-256 | in a table with distinct keys, the entry with the key supplies its prompt, and a key no entry has gives the fallback |
| Persona.ResolvePrompt | tabs/MotivationTab.tsx:251-257 | custom with a non-empty prompt gives that prompt; else a key match gives its entry's prompt; else the fallback |
| Persona.CustomWithoutPromptIsEmpty | tabs/MotivationTab.tsx:251-257 | custom with an empty prompt gives the custom entry's empty prompt, not the fallback |
| Persona.EmptyOnlyForBlankCustom | tabs/MotivationTab.tsx:251-257 | with a non-empty fallback the result is empty exactly for custom with an empty prompt |
| Persona.FallbackMattersOnlyForUnknownKeys | tabs/PracticeTab.tsx:183-187 | two fallbacks give different results exactly for an unknown key |
| Motivation.PersonalityPrompt | tabs/MotivationTab.tsx:251-257 | this tab's prompt is empty exactly for custom with an empty prompt |
| Motivation.GoalSlot | tabs/MotivationTab.tsx:446-448 | a slot shows the first stored uncompleted goal of its type, and is empty iff there is none |
| Motivation.CompletedGoals | tabs/MotivationTab.tsx:463 | the history holds exactly the completed goals |
| Motivation.Existing | tabs/MotivationTab.tsx:460 | the form edits a goal iff it was opened from one with a non-empty id |
| Motivation.OpenForm | tabs/MotivationTab.tsx:81-101 | the form starts empty on white, or with every field of the goal edited |
| Motivation.SaveForm | tabs/MotivationTab.tsx:128-137 | refused iff title or deadline is empty; otherwise the fields and the slot type are used, keeping the edited goal's id, completion and reflection, or a fresh id with no completion and no reflection |
| Motivation.SaveGoal | tabs/MotivationTab.tsx:128-137 | a refused save changes nothing and keeps the form open; an accepted one upserts the goal and closes it |
| Motivation.EditUnchangedIsNoOp | tabs/MotivationTab.tsx:92-137 | editing a goal and saving unchanged leaves the goals exactly as they were |
| Motivation.NewGoalFillsEmptySlot | tabs/MotivationTab.tsx:446-452 | a new goal for an empty slot is appended and then shown in that slot |
| Motivation.NewGoalEvictsCompleted | MainApp.tsx:45-51 | in any goal list with distinct types, a new goal of a completed goal's type overwrites it in place, and that completed goal leaves the history |
| Motivation.OpenChat | tabs/MotivationTab.tsx:259-272 | a fresh chat holds only the greeting and is not loading |
| Motivation.Send | tabs/MotivationTab.tsx:276-281 | blank input or a pending send changes nothing; otherwise one user message with the text is appended and a reply is awaited |
| Motivation.Receive | tabs/MotivationTab.tsx:282-294 | exactly one bot message is appended, holding the reply or エラーが発生しました。, and loading ends |
| Motivation.SendThenReceive | tabs/MotivationTab.tsx:276-294 | an accepted send and its answer add exactly the user's text and then one bot message |
| Motivation.SaveChat | tabs/MotivationTab.tsx:301-318 | refused iff the title is blank or there is at most one message, with the matching alert; otherwise exactly one chat with the current messages is prepended |
| Motivation.SaveChatFromDialog | tabs/MotivationTab.tsx:301-318 | an accepted save clears the title and closes the dialog; a refused one only alerts |
| Motivation.GreetingOnlyCannotBeSaved | tabs/MotivationTab.tsx:301-318 | a chat holding only the greeting cannot be saved |
| Motivation.DeleteChat | tabs/MotivationTab.tsx:587-591 | deletion happens only when confirmed |
| Motivation.SaveThenDeleteRestores | tabs/MotivationTab.tsx:301-318 | saving a chat and deleting it again restores the list |
| Motivation.ReceiveCheer | tabs/MotivationTab.tsx:320-333 | the cheer is attached to the goal asked about, holding the reply or the fixed fallback |
| Motivation.CheerShown | tabs/MotivationTab.tsx:429-431 | a card shows the cheer exactly when the cheer carries that goal's id |
| Motivation.CheerOnAskedCardOnly | tabs/MotivationTab.tsx:320-333 | the cheer appears on the card asked about, holding the reply or the fallback, and on no card with another id |
| Motivation.FlowStep | tabs/MotivationTab.tsx:335-376 | each event's effect exactly: 終了！ on a goal in its slot asks for confirmation, ほんと！ opens the reflection with rating 0 and empty text, まだ！ waits for the pep talk, which shows the reply or 諦めるな！君ならできる！, a star 1..5 sets the rating, typing sets the text, saving stores the completed goal and celebrates with the reply or the fixed fallback, OK and 閉じる close the dialog; an event the page does not offer changes nothing |
| Motivation.NoThenPepTalk | tabs/MotivationTab.tsx:346-356 | まだ！ then the reply shows the pep talk (reply or fallback) for the same goal, and OK closes it with the goals untouched |
| Motivation.ReflectClickTypeSave | tabs/MotivationTab.tsx:358-376 | clicking star k, typing t and saving stores the goal completed with exactly rating k and text t, then celebrates |
| Motivation.Completed | tabs/MotivationTab.tsx:366 | the stored goal is completed with the given reflection and otherwise unchanged |
| Motivation.OnlyReflectionTouchesGoals | tabs/MotivationTab.tsx:340-376 | only saving a reflection in the reflect step changes the goals |
| Motivation.YesStartsBlankReflection | tabs/MotivationTab.tsx:340-345 | answering yes opens the reflection with rating 0 and empty text |
| Motivation.ReflectionStoredVerbatim | tabs/MotivationTab.tsx:359-376 | saving upserts the goal completed with rating and text verbatim, the same on success and failure, and ends in celebrate |
| Motivation.FlowStepPreservesValid | tabs/MotivationTab.tsx:340-376 | the rating and every stored reflection rating stay in 0..5, and the dialog's goal is a stored one |
| Motivation.NoNeverCompletes | tabs/MotivationTab.tsx:346-356 | after answering no, the goals stay unchanged until 終了！ is pressed again |
| Motivation.CompletingEmptiesSlot | tabs/MotivationTab.tsx:359-376 | completing a slot's goal empties the slot and puts the goal in the history |
| Practice.OpenItem | tabs/PracticeTab.tsx:14-16 | an entry starts collapsed, with the stored memo and no summary |
| Practice.Toggle | tabs/PracticeTab.tsx:35-41 | expansion flips, and a summary request is started iff expanding a mistake with feedback while no summary is held |
| Practice.ReceiveSummary | tabs/PracticeTab.tsx:20-33 | the summary becomes the reply or the failure text, and loading ends |
| Practice.SummaryFetchedOnce | tabs/PracticeTab.tsx:20-41 | once a summary is held, toggling never asks again |
| Practice.PendingSummaryAskedAgain | tabs/PracticeTab.tsx:20-41 | before a reply arrives, expanding asks, collapsing does not, and expanding again asks a second time |
| Practice.NoFeedbackNoSummary | tabs/PracticeTab.tsx:38 | without feedback no summary is ever requested |
| Practice.MemoSaved | tabs/PracticeTab.tsx:43-46 | the saved mistake differs from the original in its memo only, and the alert メモを保存しました。 follows |
| Practice.SaveMemoInPlace | tabs/PracticeTab.tsx:43-46 | saving a memo replaces that entry in place |
| Practice.Analyze | tabs/PracticeTab.tsx:112-119 | with no mistakes the analysis is refused with the alert; otherwise it clears the result and starts loading |
| Practice.ReceiveAnalysis | tabs/PracticeTab.tsx:120-130 | the result is the reply or the error text, and loading ends |
| Practice.NoMistakesNoAnalysis | tabs/PracticeTab.tsx:112-116 | with no mistakes no run of clicks and replies ever starts an analysis or changes the result |
| Practice.ClickThenReplyShows | tabs/PracticeTab.tsx:112-130 | with mistakes, a click and its reply show the reply or the error text and end loading |
| Practice.TrainingStep | tabs/PracticeTab.tsx:132-197 | start from idle alerts without mistakes and otherwise generates from no problems; problems arrive as solving with one empty answer each, a failure returns to idle with the alert; typing sets one answer; submit alerts on a blank answer and otherwise grades; feedback finishes, a grading failure returns to solving with the alert; the end button returns to idle; an event the phase has no control for changes nothing |
| Practice.TrainingStepPreservesValid | tabs/PracticeTab.tsx:132-197 | there is one answer per problem while solving, grading or finished, and graded answers are all filled in |
| Practice.ProblemsStartUnanswered | tabs/PracticeTab.tsx:165-168 | fresh problems reach solving with one empty answer each |
| Practice.SubmitNeedsEveryAnswer | tabs/PracticeTab.tsx:176-181 | submitting reaches grading iff no answer is blank |
| Practice.FailedGradingKeepsAnswers | tabs/PracticeTab.tsx:192-196 | a failed grading returns to solving with problems and answers kept, and alerts |
| Practice.NoMistakesNoTraining | tabs/PracticeTab.tsx:133-136 | with no mistakes the training never leaves idle |
| Practice.RunTrainingValid | tabs/PracticeTab.tsx:132-247 | every reachable training state satisfies the invariant |
| Practice.GradingPersonality | tabs/PracticeTab.tsx:183-187 | the grading prompt's personality is empty iff custom with an empty prompt or an unknown key |
| Practice.EmptyFallbackEmptiness | tabs/PracticeTab.tsx:183-187 | an empty fallback gives an empty text exactly for a blank custom prompt or an unknown key |
| Review.ImagePart | tabs/ReviewTab.tsx:63-67 | the two splits always build an inline-image part |
| Review.ImagePartOfDataUri | tabs/ReviewTab.tsx:63-67 | for `data:m;base64,d` (section 3 of RFC 2397), with no colon in m and no marker in either part, the split gives exactly m and d |
| Review.NoMarkerNoPayload | tabs/ReviewTab.tsx:66 | a URI without `;base64,` gives no payload |
| Review.ViewOf | tabs/ReviewTab.tsx:195-227 | feedback gives the feedback view, else a drill gives the drill view, else the form |
| Review.NewMistake | tabs/ReviewTab.tsx:97-103 | the new mistake has the fresh id, the form's problem, cause and image, the drill, and no answers, feedback or memo |
| Review.DrillRequest | tabs/ReviewTab.tsx:52-70 | with a picture the image part comes first and the prompt second; otherwise only the prompt |
| Review.GradingRequest | tabs/ReviewTab.tsx:156-167 | with a picture the image part comes first, then the notice and the prompt; otherwise only the prompt |
| Review.GenerateDrill | tabs/ReviewTab.tsx:43-114 | an incomplete form sets the error and records nothing; a failure sets the error; a drill records the new mistake, makes it current, with one empty answer per question |
| Review.ChangeAnswer | tabs/ReviewTab.tsx:116-120 | only the answer at the index changes |
| Review.SubmitAnswers | tabs/ReviewTab.tsx:122-184 | nothing without a drill; refused with any blank answer; on feedback the mistake keeps its id and fields, gains answers and feedback, and is upserted |
| Review.ResetForm | tabs/ReviewTab.tsx:186-193 | everything is emptied and the form view is shown |
| Review.ResetFormRefusesGenerate | tabs/ReviewTab.tsx:186-193 | generating from a reset form is refused with the message and records nothing |
| Review.Step | tabs/ReviewTab.tsx:195-274 | each view's controls exactly: the form's fields take the typed problem and cause and the loaded or removed picture verbatim, generating is `GenerateDrill`, the drill's boxes are `ChangeAnswer`, submitting is `SubmitAnswers`, 新しいミスを登録する is `ResetForm`; a control the view does not show changes nothing; views change only form→drill→feedback→form, and only generating or submitting changes the mistakes |
| Review.GuardRefusesIncompleteForms | tabs/ReviewTab.tsx:44-47 | the required-fields error appears iff the form lacks a problem (text or picture) or a cause, and then nothing is recorded |
| Review.StepKeepsLinked | tabs/ReviewTab.tsx:104-176 | in the drill and feedback views the current mistake stays the last listed one, with one answer per question |
| Review.FormStepKeepsLinked | tabs/ReviewTab.tsx:43-114 | from the form view, a generated drill links the tab to the entry it appends |
| Review.DrillStepKeepsLinked | tabs/ReviewTab.tsx:116-184 | from the drill view, typing keeps the link and grading replaces the last entry in place |
| Review.GenerateKeepsLinked | tabs/ReviewTab.tsx:43-114 | generating from the form view either stays in the form or links the tab to the appended entry with one answer per question |
| Review.TypingKeepsLinked | tabs/ReviewTab.tsx:116-120 | typing an answer keeps the current mistake and the number of answers, hence the link |
| Review.FeedbackStepKeepsLinked | tabs/ReviewTab.tsx:186-193 | from the feedback view only the reset leaves, back to the unlinked form |
| Review.SubmitReplacesLast | tabs/ReviewTab.tsx:174-176 | grading replaces the current mistake's entry rather than appending |
| Review.GradedInPlace | tabs/ReviewTab.tsx:174-176 | feedback on a complete linked drill overwrites the last entry with the graded mistake, keeping the rest of the list |
| Review.GenerateAppends | tabs/ReviewTab.tsx:97-106 | a drill under a fresh id is appended and becomes current |
| Review.GradeReplacesLast | tabs/ReviewTab.tsx:174-176 | feedback on the last-appended mistake replaces that last entry |
| Review.RegisterAndGrade | tabs/ReviewTab.tsx:43-184 | registering and grading a drill adds exactly one entry holding the form, drill, answers and feedback |
| Settings.AnyWordIn | tabs/SettingsTab.tsx:41 | true iff some listed word, lower-cased, occurs in the text |
| Settings.CheckProfanity | tabs/SettingsTab.tsx:41 | flagged iff the text is non-empty and its lower case contains a listed word's lower case |
| Settings.ProfanityIgnoresCase | tabs/SettingsTab.tsx:41 | lower-casing the text does not change the verdict |
| Settings.ListedWordsFlagged | tabs/SettingsTab.tsx:41 | every listed word is itself flagged |
| Settings.ProfanityInContext | tabs/SettingsTab.tsx:41 | text around a flagged text stays flagged |
| Settings.SetUserField | tabs/SettingsTab.tsx:26-28 | only the named profile field changes |
| Settings.SetAiField | tabs/SettingsTab.tsx:36-38 | only the named AI field changes |
| Settings.UserFieldGetSet | tabs/SettingsTab.tsx:26-28 | a set profile field reads back the value, every other field is kept, and the profile changes exactly when the field held something else |
| Settings.AiFieldGetSet | tabs/SettingsTab.tsx:36-38 | the same three facts for the AI fields |
| Settings.EditEnablesSave | tabs/SettingsTab.tsx:68 | editing one field of a freshly opened tab enables the save button exactly when the value differs from the stored one |
| Settings.TogglePreference | tabs/SettingsTab.tsx:30-34 | the key is chosen afterwards iff it was not before; an absent key is appended at the end, a present one is filtered out with the other keys kept in order; every other key and every other field is unaffected |
| Settings.ToggleTwiceRestores | tabs/SettingsTab.tsx:30-34 | toggling an absent key twice restores the list |
| Settings.ToggleKeepsDistinct | tabs/SettingsTab.tsx:30-34 | toggling keeps the chosen keys free of duplicates |
| Settings.Open | tabs/SettingsTab.tsx:13-24 | the tab opens with the stored values, idle and without a message |
| Settings.Save | tabs/SettingsTab.tsx:40-66 | nothing unless idle and changed; a flagged name commits nothing and shows the error; otherwise both local records are committed and status is success |
| Settings.TimerFired | tabs/SettingsTab.tsx:46-57 | the status returns to idle, the message is cleared after an error, and the records are kept |
| Settings.RefusedSaveRefusesAgain | tabs/SettingsTab.tsx:43-66 | after a refusal the timer restores idle with the copies kept and no message, so the same save is refused again in the same way |
| Settings.CommittedNamesAreClean | tabs/SettingsTab.tsx:43-57 | a committed nickname, AI name and first person are never flagged |
| Settings.SavedThenNothingChanged | tabs/SettingsTab.tsx:18-24 | after a save nothing is left to save |
| Settings.ListedWordBlocksSave | tabs/SettingsTab.tsx:41-51 | a listed word anywhere in the nickname blocks the save |

## Left out

- Calls to the language model (client creation, chat sessions, content
  generation), the prompt texts and `JSON.parse` of replies. Each call is an
  `AiReply` parameter; a parse error is a `Failed` reply.
- Timing.
  - The 1000 ms typing delay in onboarding: the bot's reply is appended
    together with the user's message, so the input is never loading there.
  - The 3000 ms settings timers: `TimerFired` is an explicit event.
  - The loading flags of the review tab and of the reflection save: each
    handler is one atomic step. In the motivation tab one `isLoading` serves
    both the chat and the reflection save (tabs/MotivationTab.tsx:225, 277,
    360, 501), so while a chat reply is pending 振り返りを保存 is disabled
    until the reply arrives. The model lets the save happen at any time in
    the reflect step.
- Clock-derived values: `Date.now()` ids and `toLocaleString` timestamps are
  parameters. The deadline countdown and the sort of completed goals by
  deadline are left out: they need time zones and floating-point dates.
  `CompletedGoals` is the unsorted filter.
- Browser I/O: audio recording and microphone permission (with its alert), file reading for
  the goal background and the review picture, object URLs. An audio
  recording is an opaque `AudioHandle`; a picture is its data URI.
- Presentation:
  - confetti, styles, scrolling, and the expansion of goal cards;
  - the loading indicators of the cheer, the sub-tabs, and the view-chat modal;
  - the header, the tab bar, the typing indicator, and the main screen's tab switch.
- The settings save's `catch` branch. The two commit callbacks only set
  state, so the branch is unreachable in the model.
- `isChanged` compares `JSON.stringify` output. The model uses structural
  equality.
- `toLowerCase` is modelled for ASCII and fullwidth Latin letters only.
  Other characters are left as they are; full Unicode case folding is not
  modelled.
- `resetGoalByType` is modelled in `SharedState` but has no caller: the
  motivation tab receives it and never calls it.
- `handleAnswerChange` past the end of the answers array is not modelled.
  JavaScript would grow the array, but the screen only shows one field per
  answer, so the case cannot arise. `Review.ChangeAnswer` ignores such
  indexes.
- Overlapping summary requests: `Practice.Toggle` reports each request it
  starts, and the order in which replies arrive is the order of the
  `ReceiveSummary` calls. The loading flag is one boolean, so the first reply
  clears it while a second request is still pending, as the source's
  `finally` does.
- ChatInput.Change: no contract, because the textarea is disabled while
  loading or disabled, so typing then cannot reach the buffer.

=== FILE: chat_input.dfy ===
/** The text box with a send button shared by onboarding and the motivation
    chat (`components/ChatInput.tsx`). Its only state is the text typed so
    far; the parent supplies `isLoading` and `disabled`. */
module ChatInput {
  import opened Wrappers
  import opened Text

  /** What a submit did: the text handed to the parent's `onSendMessage`,
      if any, and the text left in the box. */
  datatype SubmitResult = SubmitResult(sent: Option<string>, buffer: string)

  /** `handleSubmit`: hand the text over verbatim (untrimmed) and clear the
      box, unless it is blank or the box is loading or disabled. */
  function Submit(buffer: string, isLoading: bool, disabled: bool): (r: SubmitResult)
    ensures r.sent.Some? <==> !AllWhitespace(buffer) && !isLoading && !disabled
    ensures r.sent.Some? ==> r.sent.value == buffer && r.buffer == []
    ensures r.sent.None? ==> r.buffer == buffer
  {
    BlankIffAllWhitespace(buffer);
    if !IsBlank(buffer) && !isLoading && !disabled then SubmitResult(Some(buffer), [])
    else SubmitResult(None, buffer)
  }

  /** `handleKeyDown`: Enter without Shift submits; every other key,
      Shift+Enter included, leaves submitting to the browser's own text
      editing (a newline for Shift+Enter). */
  function KeyDown(key: string, shiftKey: bool, buffer: string, isLoading: bool, disabled: bool): (r: SubmitResult)
    ensures r.sent.Some? <==> key == "Enter" && !shiftKey && !AllWhitespace(buffer) && !isLoading && !disabled
    ensures r.sent.Some? ==> r.sent.value == buffer && r.buffer == []
    ensures r.sent.None? ==> r.buffer == buffer
  {
    if key == "Enter" && !shiftKey then Submit(buffer, isLoading, disabled)
    else SubmitResult(None, buffer)
  }

  /** `onChange`: the textarea is disabled while loading or disabled, so
      typing reaches the buffer only when it is enabled. */
  function Change(buffer: string, value: string, isLoading: bool, disabled: bool): string {
    if isLoading || disabled then buffer else value
  }

  /** The effect on `disabled`: becoming disabled empties the box. */
  function OnDisabled(buffer: string, disabled: bool): (r: string)
    ensures disabled ==> r == []
    ensures !disabled ==> r == buffer
  {
    if disabled then [] else buffer
  }

  /** After a send the box is empty, so pressing send again at once sends
      nothing: one submission per typed message. */
  lemma NoDoubleSend(buffer: string, isLoading: bool, disabled: bool)
    requires Submit(buffer, isLoading, disabled).sent.Some?
    ensures Submit(Submit(buffer, isLoading, disabled).buffer, isLoading, disabled).sent.None?
  {
  }

  /** A disabled box never sends, and once it has been disabled it holds
      nothing to send even after it is enabled again. */
  lemma DisabledNeverSends(buffer: string, isLoading: bool)
    ensures Submit(buffer, isLoading, true).sent.None?
    ensures Submit(OnDisabled(buffer, true), isLoading, false).sent.None?
  {
  }

  /** Shift+Enter never sends, whatever is typed. */
  lemma ShiftEnterNeverSends(buffer: string, isLoading: bool, disabled: bool)
    ensures KeyDown("Enter", true, buffer, isLoading, disabled).sent.None?
    ensures KeyDown("Enter", true, buffer, isLoading, disabled).buffer == buffer
  {
  }
}

=== FILE: constants.dfy ===
/** The option lists, the AI personality table, the learning-preference
    catalogue and the word list the components read (`constants.ts`). The
    personalities' descriptions, the goal background colours and the preset
    pictures are display-only and are not part of the model. */
module Constants {
  import opened Types
  import opened Seqs
  import opened Text

  datatype MbtiType = MbtiType(code: string, name: string)

  /** An entry of the personality table; `prompt` is the character sheet
      handed to the language model. */
  datatype Personality = Personality(key: string, labelText: string, prompt: string)

  datatype PreferenceOption = PreferenceOption(key: string, labelText: string)

  /** One titled group of learning preferences, in display order. */
  datatype PreferenceCategory = PreferenceCategory(title: string, options: seq<PreferenceOption>)

  const GradeOptions: seq<MessageOption> := [
    MessageOption("小学1年生", "小学1年生"),
    MessageOption("小学2年生", "小学2年生"),
    MessageOption("小学3年生", "小学3年生"),
    MessageOption("小学4年生", "小学4年生"),
    MessageOption("小学5年生", "小学5年生"),
    MessageOption("小学6年生", "小学6年生"),
    MessageOption("中学1年生", "中学1年生"),
    MessageOption("中学2年生", "中学2年生"),
    MessageOption("中学3年生", "中学3年生"),
    MessageOption("高校1年生", "高校1年生"),
    MessageOption("高校2年生", "高校2年生"),
    MessageOption("高校3年生", "高校3年生"),
    MessageOption("高専生", "高専生"),
    MessageOption("その他", "その他")
  ]

  const GenderOptions: seq<MessageOption> := [
    MessageOption("男性", "男性"),
    MessageOption("女性", "女性"),
    MessageOption("その他", "その他"),
    MessageOption("回答しない", "回答しない")
  ]

  const MbtiTypes: seq<MbtiType> := [
    MbtiType("ISTJ", "管理者"),
    MbtiType("ISFJ", "擁護者"),
    MbtiType("INFJ", "提唱者"),
    MbtiType("INTJ", "建築家"),
    MbtiType("ISTP", "巨匠"),
    MbtiType("ISFP", "冒険家"),
    MbtiType("INFP", "仲介者"),
    MbtiType("INTP", "論理学者"),
    MbtiType("ESTP", "起業家"),
    MbtiType("ESFP", "エンターテイナー"),
    MbtiType("ENFP", "運動家"),
    MbtiType("ENTP", "討論者"),
    MbtiType("ESTJ", "幹部"),
    MbtiType("ESFJ", "領事"),
    MbtiType("ENFJ", "主人公"),
    MbtiType("ENTJ", "指揮官")
  ]

  const AiPersonalities: seq<Personality> := [
    Personality("gyaru", "陽気なギャル",
      "あなたはいつも明るくポジティブな「陽気なギャル」です。友達感覚で、テンション高めに楽しく会話を盛り上げてください。流行りの言葉を使っても面白いかもしれません。"),
    Personality("teacher", "優しい先生",
      "あなたはユーザーを生徒として導く、面倒見の良い「優しい先生」です。常に親身に、丁寧で分かりやすい言葉で励ましてください。"),
    Personality("nekketsu", "熱血教師",
      "あなたは生徒の限界を突破させる「熱血教師」です。根性論や熱い言葉を使い、時には「〜しろ！」「〜だ！」といった命令口調で、ユーザーを全力で応援し、鼓舞してください。常に情熱的で、少し大げさなくらいが丁度良いです。"),
    Personality("cool_senior", "クールな先輩",
      "あなたは普段は冷静沈着で少し口数は少ないけれど、的確なアドバイスをくれる「クールな先輩」です。たまに見せる優しさが魅力です。"),
    Personality("robot", "端的ロボット",
      "あなたは感情を持たず、常に論理的で正確な情報を提供する「AI ロボット」です。データに基づいた分析的な話し方をしてください。いかなる場合でも、応答は必ず要点をまとめた箇条書き、または非常に短い段落で、情報を簡潔に提示してください。感情的な表現や余計な装飾は一切不要です。"),
    Personality("hakase", "博士",
      "あなたはその分野の専門家である「博士」です。豊富な知識と探求心に基づき、少し専門的な言葉も交えながら、物事を深く分析して解説します。口調は「〜じゃ」「〜かね？」など、博士らしいものにしてください。"),
    Personality("custom", "カスタム",
      "")
  ]

  const LearningPreferences: seq<PreferenceCategory> := [
    PreferenceCategory("学習スタイル", [
      PreferenceOption("visual", "図やグラフで視覚的に学びたい"),
      PreferenceOption("logical", "論理的な説明で納得したい"),
      PreferenceOption("practical", "実践的な問題をたくさん解きたい"),
      PreferenceOption("summary", "最初に要点をまとめてほしい"),
      PreferenceOption("step_by_step", "一歩一歩、段階的に進めたい")
    ]),
    PreferenceCategory("暗記の仕方", [
      PreferenceOption("repetition", "繰り返し書いて覚える"),
      PreferenceOption("association", "語呂合わせや関連付けで覚える"),
      PreferenceOption("read_aloud", "声に出して覚える"),
      PreferenceOption("mnemonics", "記憶術（マインドマップなど）を使う")
    ]),
    PreferenceCategory("勉強への意識", [
      PreferenceOption("like_studying", "勉強は好きな方だ"),
      PreferenceOption("dislike_studying", "勉強は苦手・嫌いだ"),
      PreferenceOption("praise_driven", "褒められて伸びるタイプだ"),
      PreferenceOption("competitive", "競争が好きで、負けず嫌いだ")
    ])
  ]

  const ProfanityList: seq<string> := [
    "sex", "fuck", "shit", "bitch", "cunt", "asshole", "dick", "pussy", "nigger", "faggot", "ちんちん", "まんこ", "うんこ", "セックス", "死ね", "殺す", "キチガイ", "馬鹿", "アホ"
  ]

  /** The sixteen personality types as `"CODE (name)"`, then the two ways of
      not answering. */
  const MbtiOptions: seq<MessageOption> := [
    MessageOption("ISTJ (管理者)", "ISTJ (管理者)"),
    MessageOption("ISFJ (擁護者)", "ISFJ (擁護者)"),
    MessageOption("INFJ (提唱者)", "INFJ (提唱者)"),
    MessageOption("INTJ (建築家)", "INTJ (建築家)"),
    MessageOption("ISTP (巨匠)", "ISTP (巨匠)"),
    MessageOption("ISFP (冒険家)", "ISFP (冒険家)"),
    MessageOption("INFP (仲介者)", "INFP (仲介者)"),
    MessageOption("INTP (論理学者)", "INTP (論理学者)"),
    MessageOption("ESTP (起業家)", "ESTP (起業家)"),
    MessageOption("ESFP (エンターテイナー)", "ESFP (エンターテイナー)"),
    MessageOption("ENFP (運動家)", "ENFP (運動家)"),
    MessageOption("ENTP (討論者)", "ENTP (討論者)"),
    MessageOption("ESTJ (幹部)", "ESTJ (幹部)"),
    MessageOption("ESFJ (領事)", "ESFJ (領事)"),
    MessageOption("ENFJ (主人公)", "ENFJ (主人公)"),
    MessageOption("ENTJ (指揮官)", "ENTJ (指揮官)"),
    MessageOption("わからない", "わからない"),
    MessageOption("回答しない", "回答しない")
  ]

  /** How an MBTI type is shown and stored: `"CODE (name)"`. */
  function MbtiOption(t: MbtiType): MessageOption {
    MessageOption(t.code + " (" + t.name + ")", t.code + " (" + t.name + ")")
  }

  /** Every preference key of every category, in display order. */
  function PreferenceKeys(categories: seq<PreferenceCategory>): seq<string> {
    if |categories| == 0 then []
    else OptionKeys(categories[0].options) + PreferenceKeys(categories[1..])
  }

  function OptionKeys(options: seq<PreferenceOption>): (r: seq<string>)
    ensures |r| == |options|
    ensures forall i :: 0 <= i < |options| ==> r[i] == options[i].key
  {
    if |options| == 0 then [] else [options[0].key] + OptionKeys(options[1..])
  }

  // ---------------------------------------------------------------------
  // Facts about the tables

  /** The onboarding lists have 14, 4 and 18 entries. */
  lemma OptionCounts()
    ensures |GradeOptions| == 14 && |GenderOptions| == 4 && |MbtiOptions| == 18
  {
  }

  /** An option list whose buttons show exactly the value they store. */
  predicate LabelsMatch(options: seq<MessageOption>) {
    forall i :: 0 <= i < |options| ==> options[i].labelText == options[i].value
  }

  /** Every option the onboarding offers shows exactly the value it stores,
      so the user message echoing a choice reads as the button did. */
  lemma LabelsAreValues()
    ensures LabelsMatch(GradeOptions) && LabelsMatch(GenderOptions) && LabelsMatch(MbtiOptions)
  {
  }

  /** A Myers-Briggs code: one letter from each of the four dichotomies. */
  predicate IsMbtiCode(c: string) {
    |c| == 4 && c[0] in "EI" && c[1] in "SN" && c[2] in "TF" && c[3] in "JP"
  }

  /** The sixteen codes are the sixteen distinct Myers-Briggs types. */
  lemma MbtiCodesShape()
    ensures |MbtiTypes| == 16
    ensures forall i :: 0 <= i < 16 ==> IsMbtiCode(MbtiTypes[i].code)
    ensures forall i, j :: 0 <= i < j < 16 ==> MbtiTypes[i].code != MbtiTypes[j].code
  {
  }

  /** The first sixteen MBTI options are the types written `"CODE (name)"`
      in table order; the last two are 'わからない' and '回答しない'. */
  lemma MbtiOptionsShape()
    ensures |MbtiOptions| == |MbtiTypes| + 2
    ensures forall i :: 0 <= i < |MbtiTypes| ==> MbtiOptions[i] == MbtiOption(MbtiTypes[i])
    ensures MbtiOptions[16].value == "わからない" && MbtiOptions[17].value == "回答しない"
  {
    MbtiRowsIJ();
    MbtiRowsIP();
    MbtiRowsEP();
    MbtiRowsEJ();
  }

  /** Options 0 to 3, the introverted judging types. */
  lemma MbtiRowsIJ()
    ensures forall i :: 0 <= i < 4 ==> MbtiOptions[i] == MbtiOption(MbtiTypes[i])
  {
    assert MbtiOptions[0] == MbtiOption(MbtiTypes[0]);
    assert MbtiOptions[1] == MbtiOption(MbtiTypes[1]);
    assert MbtiOptions[2] == MbtiOption(MbtiTypes[2]);
    assert MbtiOptions[3] == MbtiOption(MbtiTypes[3]);
  }

  /** Options 4 to 7, the introverted perceiving types. */
  lemma MbtiRowsIP()
    ensures forall i :: 4 <= i < 8 ==> MbtiOptions[i] == MbtiOption(MbtiTypes[i])
  {
    assert MbtiOptions[4] == MbtiOption(MbtiTypes[4]);
    assert MbtiOptions[5] == MbtiOption(MbtiTypes[5]);
    assert MbtiOptions[6] == MbtiOption(MbtiTypes[6]);
    assert MbtiOptions[7] == MbtiOption(MbtiTypes[7]);
  }

  /** Options 8 to 11, the extraverted perceiving types. */
  lemma MbtiRowsEP()
    ensures forall i :: 8 <= i < 12 ==> MbtiOptions[i] == MbtiOption(MbtiTypes[i])
  {
    assert MbtiOptions[8] == MbtiOption(MbtiTypes[8]);
    assert MbtiOptions[9] == MbtiOption(MbtiTypes[9]);
    assert MbtiOptions[10] == MbtiOption(MbtiTypes[10]);
    assert MbtiOptions[11] == MbtiOption(MbtiTypes[11]);
  }

  /** Options 12 to 15, the extraverted judging types. */
  lemma MbtiRowsEJ()
    ensures forall i :: 12 <= i < 16 ==> MbtiOptions[i] == MbtiOption(MbtiTypes[i])
  {
    assert MbtiOptions[12] == MbtiOption(MbtiTypes[12]);
    assert MbtiOptions[13] == MbtiOption(MbtiTypes[13]);
    assert MbtiOptions[14] == MbtiOption(MbtiTypes[14]);
    assert MbtiOptions[15] == MbtiOption(MbtiTypes[15]);
  }

  /** Personality keys identify entries. */
  lemma PersonalityKeysDistinct()
    ensures forall i, j :: 0 <= i < j < |AiPersonalities| ==> AiPersonalities[i].key != AiPersonalities[j].key
  {
  }

  /** The default personality is the first one, 'gyaru'; the 'custom'
      entry, and only it, carries no prompt of its own. */
  lemma PersonalityTableShape()
    ensures AiPersonalities[0].key == "gyaru" && AiPersonalities[0].prompt != ""
    ensures exists i :: 0 <= i < |AiPersonalities| && AiPersonalities[i].key == "custom" && AiPersonalities[i].prompt == ""
    ensures forall i :: 0 <= i < |AiPersonalities| ==> (AiPersonalities[i].prompt == "" <==> AiPersonalities[i].key == "custom")
  {
    assert AiPersonalities[6].key == "custom";
  }

  /** The word list is non-empty, has no empty word (an empty word would flag
      every non-empty text), and is already in lower case. */
  lemma ProfanityListShape()
    ensures |ProfanityList| == 19
    ensures forall i :: 0 <= i < |ProfanityList| ==> ProfanityList[i] != "" && Lower(ProfanityList[i]) == ProfanityList[i]
  {
    LatinWordsLower();
    JapaneseWordsLower();
  }

  /** The ten words in Latin letters. */
  lemma LatinWordsLower()
    ensures forall i :: 0 <= i < 10 ==> ProfanityList[i] != "" && Lower(ProfanityList[i]) == ProfanityList[i]
  {
  }

  /** The nine words in Japanese script, which has no case. */
  lemma JapaneseWordsLower()
    ensures forall i :: 10 <= i < 19 ==> ProfanityList[i] != "" && Lower(ProfanityList[i]) == ProfanityList[i]
  {
  }

  /** A preference key picks out one option across all three categories. */
  lemma PreferenceKeysDistinct()
    ensures |PreferenceKeys(LearningPreferences)| == 13
    ensures Distinct(PreferenceKeys(LearningPreferences))
  {
    PreferenceKeysSpelledOut();
    KeyNamesDistinct();
  }

  /** The preference keys, category by category. */
  const PreferenceKeyNames: seq<string> :=
    ["visual", "logical", "practical", "summary", "step_by_step",
     "repetition", "association", "read_aloud", "mnemonics",
     "like_studying", "dislike_studying", "praise_driven", "competitive"]

  lemma PreferenceKeysSpelledOut()
    ensures PreferenceKeys(LearningPreferences) == PreferenceKeyNames
  {
    StyleKeys();
    MemoryKeys();
    AttitudeKeys();
    KeysOfThree(LearningPreferences);
    var n := PreferenceKeyNames;
    assert n == n[..5] + n[5..9] + n[9..];
  }

  /** The keys of three categories, one category after the other. */
  lemma KeysOfThree(cs: seq<PreferenceCategory>)
    requires |cs| == 3
    ensures PreferenceKeys(cs) == OptionKeys(cs[0].options) + OptionKeys(cs[1].options) + OptionKeys(cs[2].options)
  {
    assert cs[1..][0] == cs[1] && cs[1..][1..] == cs[2..];
    assert cs[2..][0] == cs[2] && cs[2..][1..] == [];
    assert PreferenceKeys(cs[2..]) == OptionKeys(cs[2].options);
    assert PreferenceKeys(cs[1..]) == OptionKeys(cs[1].options) + OptionKeys(cs[2].options);
  }

  lemma StyleKeys()
    ensures OptionKeys(LearningPreferences[0].options) == PreferenceKeyNames[..5]
  {
  }

  lemma MemoryKeys()
    ensures OptionKeys(LearningPreferences[1].options) == PreferenceKeyNames[5..9]
  {
  }

  lemma AttitudeKeys()
    ensures OptionKeys(LearningPreferences[2].options) == PreferenceKeyNames[9..]
  {
  }

  lemma KeyNamesDistinct()
    ensures |PreferenceKeyNames| == 13 && Distinct(PreferenceKeyNames)
  {
  }
}

=== FILE: motivation.dfy ===
/** The motivation tab (`tabs/MotivationTab.tsx`): the three goal slots with
    their form and completion flow, the counselling chat, and the saved
    chats. Every AI call is an `AiReply` handed in by the caller; ids and
    timestamps are parameters. */
module Motivation {
  import opened Wrappers
  import opened Types
  import opened Seqs
  import opened Text
  import opened Constants
  import opened SharedState
  import Persona

  /** `getAIPersonalityPrompt` of this tab: unknown keys fall back to the
      first personality. */
  function PersonalityPrompt(ai: AiSettings): (r: string)
    ensures r == "" <==> ai.personality == "custom" && ai.customPrompt == ""
  {
    PersonalityTableShape();
    Persona.EmptyOnlyForBlankCustom(ai, AiPersonalities[0].prompt);
    Persona.ResolvePrompt(ai, AiPersonalities[0].prompt)
  }

  // ---------------------------------------------------------------------
  // Goal slots

  /** `GoalSlot`: the first goal of the type that is not completed. */
  function GoalSlot(goals: seq<Goal>, t: GoalType): (r: Option<Goal>)
    ensures r.Some? ==> r.value in goals && r.value.goalType == t && !r.value.isCompleted
    ensures r.Some? ==> exists i :: 0 <= i < |goals| && goals[i] == r.value &&
                          forall j :: 0 <= j < i ==> !(goals[j].goalType == t && !goals[j].isCompleted)
    ensures r.None? <==> forall i :: 0 <= i < |goals| ==> goals[i].goalType != t || goals[i].isCompleted
  {
    Find(goals, (g: Goal) => g.goalType == t && !g.isCompleted)
  }

  /** The goals listed under 過去の頑張り, before sorting by deadline. */
  function CompletedGoals(goals: seq<Goal>): (r: seq<Goal>)
    ensures forall g :: g in r <==> g in goals && g.isCompleted
  {
    var done := (g: Goal) => g.isCompleted;
    FilterMembers(goals, done);
    Filter(goals, done)
  }

  // ---------------------------------------------------------------------
  // The goal form

  /** What the form is opened for: an empty slot's 設定する button opens it
      for a new goal of that type, a card's 編集 button for that goal. */
  datatype EditTarget = NewGoal(newType: GoalType) | EditGoal(goal: Goal)

  function TargetType(t: EditTarget): GoalType {
    match t
    case NewGoal(ty) => ty
    case EditGoal(g) => g.goalType
  }

  /** `existingGoal`: the edited goal, but only when its id is non-empty. */
  function Existing(t: EditTarget): (r: Option<Goal>)
    ensures r.Some? <==> t.EditGoal? && t.goal.id != ""
    ensures r.Some? ==> r.value == t.goal
  {
    if t.EditGoal? && t.goal.id != "" then Some(t.goal) else None
  }

  /** The form's fields. */
  datatype GoalForm = GoalForm(
    title: string,
    deadline: string,
    reward: string,
    background: GoalBackground,
    audioUrl: Option<string>,
    audioBlob: Option<AudioHandle>)

  const WhiteBackground: GoalBackground := GoalBackground(Color, "#FFFFFF")

  const GoalFieldsRequired: string := "目標と期日は必須です。"

  /** The form as first shown: the existing goal's fields, or empty fields on
      a white background. */
  function OpenForm(t: EditTarget): (f: GoalForm)
    ensures Existing(t).None? ==> f == GoalForm("", "", "", WhiteBackground, None, None)
    ensures Existing(t).Some? ==>
              && f.title == t.goal.title && f.deadline == t.goal.deadline && f.reward == t.goal.reward
              && f.background == t.goal.background && f.audioUrl == t.goal.audioUrl && f.audioBlob == t.goal.audioBlob
  {
    match Existing(t)
    case None => GoalForm("", "", "", WhiteBackground, None, None)
    case Some(g) => GoalForm(g.title, g.deadline, g.reward, g.background, g.audioUrl, g.audioBlob)
  }

  /** The form's `handleSave`: refuse without a title or a deadline (the
      check is for emptiness, so a title of spaces passes); otherwise build
      the goal from the fields, keeping the edited goal's id, completion and
      reflection, or using `newId` for a new goal. */
  function SaveForm(t: EditTarget, f: GoalForm, newId: string): (r: Checked<Goal>)
    ensures r.Refused? <==> f.title == "" || f.deadline == ""
    ensures r.Refused? ==> r.message == GoalFieldsRequired
    ensures r.Accepted? ==>
              && r.value.goalType == TargetType(t)
              && r.value.title == f.title && r.value.deadline == f.deadline && r.value.reward == f.reward
              && r.value.background == f.background && r.value.audioUrl == f.audioUrl && r.value.audioBlob == f.audioBlob
    ensures r.Accepted? && Existing(t).Some? ==>
              && r.value.id == t.goal.id && r.value.isCompleted == t.goal.isCompleted
              && r.value.reflection == t.goal.reflection
    ensures r.Accepted? && Existing(t).None? ==>
              r.value.id == newId && !r.value.isCompleted && r.value.reflection.None?
  {
    if f.title == "" || f.deadline == "" then Refused(GoalFieldsRequired)
    else
      match Existing(t)
      case Some(g) =>
        Accepted(Goal(g.id, TargetType(t), f.title, f.deadline, f.reward, f.background,
                      f.audioUrl, f.audioBlob, g.isCompleted, g.reflection))
      case None =>
        Accepted(Goal(newId, TargetType(t), f.title, f.deadline, f.reward, f.background,
                      f.audioUrl, f.audioBlob, false, None))
  }

  /** `handleSaveGoal` behind the form: an accepted goal is upserted and the
      form closes; a refused one leaves goals and form as they were. */
  function SaveGoal(goals: seq<Goal>, t: EditTarget, f: GoalForm, newId: string): (r: (seq<Goal>, Option<EditTarget>))
    ensures SaveForm(t, f, newId).Refused? ==> r == (goals, Some(t))
    ensures SaveForm(t, f, newId).Accepted? ==> r == (AddOrUpdateGoal(goals, SaveForm(t, f, newId).value), None)
  {
    match SaveForm(t, f, newId)
    case Refused(_) => (goals, Some(t))
    case Accepted(g) => (AddOrUpdateGoal(goals, g), None)
  }

  /** Opening a stored goal for editing and saving without touching a field
      leaves the goals exactly as they were. */
  lemma EditUnchangedIsNoOp(goals: seq<Goal>, k: nat, newId: string)
    requires k < |goals| && goals[k].id != "" && goals[k].title != "" && goals[k].deadline != ""
    requires forall j :: 0 <= j < k ==> goals[j].id != goals[k].id
    ensures SaveGoal(goals, EditGoal(goals[k]), OpenForm(EditGoal(goals[k])), newId) == (goals, None)
  {
    var t := EditGoal(goals[k]);
    assert Existing(t) == Some(goals[k]);
    var r := SaveForm(t, OpenForm(t), newId);
    assert r.Accepted?;
    assert r.value == goals[k];
    assert AddOrUpdateGoal(goals, goals[k]) == goals[k := goals[k]];
    assert goals[k := goals[k]] == goals;
  }

  /** A new goal for an empty slot, with a fresh id, is appended and then
      fills that slot. */
  lemma NewGoalFillsEmptySlot(goals: seq<Goal>, t: GoalType, f: GoalForm, newId: string)
    requires f.title != "" && f.deadline != ""
    requires forall i :: 0 <= i < |goals| ==> goals[i].id != newId && goals[i].goalType != t
    ensures SaveGoal(goals, NewGoal(t), f, newId).0 == goals + [SaveForm(NewGoal(t), f, newId).value]
    ensures GoalSlot(SaveGoal(goals, NewGoal(t), f, newId).0, t) == Some(SaveForm(NewGoal(t), f, newId).value)
  {
    var g := SaveForm(NewGoal(t), f, newId).value;
    var r := goals + [g];
    assert r[|goals|] == g;
    assert forall i :: 0 <= i < |goals| ==> r[i].goalType != t;
  }

  /** A new goal set for a type whose goal is completed overwrites that
      completed goal in place, and the completed goal drops out of the
      過去の頑張り list: the history keeps at most one goal per type. */
  lemma NewGoalEvictsCompleted(goals: seq<Goal>, k: nat, f: GoalForm, newId: string)
    requires TypesDistinct(goals) && k < |goals| && goals[k].isCompleted
    requires forall i :: 0 <= i < |goals| ==> goals[i].id != newId
    requires f.title != "" && f.deadline != ""
    ensures SaveGoal(goals, NewGoal(goals[k].goalType), f, newId).0 ==
            goals[k := SaveForm(NewGoal(goals[k].goalType), f, newId).value]
    ensures goals[k] !in CompletedGoals(SaveGoal(goals, NewGoal(goals[k].goalType), f, newId).0)
  {
    var g := SaveForm(NewGoal(goals[k].goalType), f, newId).value;
    NewGoalReplacesCompletedOfSameType(goals, k, g);
    var r := goals[k := g];
    forall i | 0 <= i < |r|
      ensures r[i] != goals[k]
    {
      if i != k {
        assert r[i].goalType != goals[k].goalType;
      }
    }
  }

  // ---------------------------------------------------------------------
  // The counselling chat

  /** The conversation and whether a reply is awaited. */
  datatype Chat = Chat(messages: seq<Message>, isLoading: bool)

  const SendFailed: string := "エラーが発生しました。"

  function Greeting(user: UserInfo, ai: AiSettings): string {
    "こんにちは、" + user.name + "さん！" + ai.firstPerson + "は" + ai.name + "だよ。学習の悩みや計画など、なんでも気軽に話してね。"
  }

  /** `initializeChat`: a fresh conversation holding only the greeting. */
  function OpenChat(user: UserInfo, ai: AiSettings): (c: Chat)
    ensures |c.messages| == 1 && c.messages[0].sender == Bot && c.messages[0].text == Greeting(user, ai)
    ensures !c.isLoading
  {
    Chat([Plain("motivation-start", Greeting(user, ai), Bot)], false)
  }

  /** The first half of `handleSendMessage`: refuse blank input or a second
      send while one is awaited; otherwise show the user's text and wait. */
  function Send(c: Chat, input: string, userId: string): (r: Chat)
    ensures IsBlank(input) || c.isLoading ==> r == c
    ensures !IsBlank(input) && !c.isLoading ==> r == Chat(c.messages + [Plain(userId, input, User)], true)
  {
    if IsBlank(input) || c.isLoading then c
    else Chat(c.messages + [Plain(userId, input, User)], true)
  }

  /** The second half: the reply, or the error text, as one bot message. */
  function Receive(c: Chat, reply: AiReply<string>, botId: string): (r: Chat)
    requires c.isLoading
    ensures !r.isLoading && |r.messages| == |c.messages| + 1 && r.messages[..|c.messages|] == c.messages
    ensures r.messages[|c.messages|].sender == Bot
    ensures reply.Replied? ==> r.messages[|c.messages|].text == reply.answer
    ensures reply.Failed? ==> r.messages[|c.messages|].text == SendFailed
  {
    var text := match reply
      case Replied(answer) => answer
      case Failed => SendFailed;
    Chat(c.messages + [Plain(botId, text, Bot)], false)
  }

  /** An accepted send followed by its answer adds exactly two messages: the
      user's text verbatim, then the reply or the error text. */
  lemma SendThenReceive(c: Chat, input: string, userId: string, reply: AiReply<string>, botId: string)
    requires !c.isLoading && !IsBlank(input)
    ensures var r := Receive(Send(c, input, userId), reply, botId);
            && r.messages[..|c.messages|] == c.messages && |r.messages| == |c.messages| + 2
            && r.messages[|c.messages|] == Plain(userId, input, User)
            && r.messages[|c.messages| + 1].sender == Bot
            && !r.isLoading
  {
    var s := Send(c, input, userId);
    var r := Receive(s, reply, botId);
    assert r.messages[..|s.messages|] == s.messages;
    assert r.messages[..|c.messages|] == s.messages[..|c.messages|];
  }

  // ---------------------------------------------------------------------
  // Saved chats

  const TitleRequired: string := "タイトルを入力してください。"
  const NothingToSave: string := "保存する会話がありません。"

  /** `handleSaveChat`: refuse a blank title, then a conversation holding no
      more than the greeting; otherwise add one chat carrying the title as
      typed and the whole conversation. */
  function SaveChat(chats: seq<SavedChat>, title: string, messages: seq<Message>, newId: string, savedAt: string)
    : (r: Checked<seq<SavedChat>>)
    ensures r.Refused? <==> IsBlank(title) || |messages| <= 1
    ensures IsBlank(title) ==> r == Refused(TitleRequired)
    ensures !IsBlank(title) && |messages| <= 1 ==> r == Refused(NothingToSave)
    ensures r.Accepted? ==>
              && |r.value| == |chats| + 1 && r.value[1..] == chats
              && r.value[0] == SavedChat(newId, title, messages, savedAt)
  {
    if IsBlank(title) then Refused(TitleRequired)
    else if |messages| <= 1 then Refused(NothingToSave)
    else Accepted(AddSavedChat(chats, SavedChat(newId, title, messages, savedAt)))
  }

  /** The save dialog: its title field and whether it is open. */
  datatype SaveDialog = SaveDialog(open: bool, title: string)

  /** The save button in the dialog: on success the chats grow, the title is
      cleared and the dialog closes; on refusal an alert is shown and
      nothing else changes. */
  function SaveChatFromDialog(chats: seq<SavedChat>, d: SaveDialog, messages: seq<Message>, newId: string, savedAt: string)
    : (r: (seq<SavedChat>, SaveDialog, Option<string>))
    ensures SaveChat(chats, d.title, messages, newId, savedAt).Accepted? ==>
              r == (SaveChat(chats, d.title, messages, newId, savedAt).value, SaveDialog(false, ""), None)
    ensures SaveChat(chats, d.title, messages, newId, savedAt).Refused? ==>
              r == (chats, d, Some(SaveChat(chats, d.title, messages, newId, savedAt).message))
  {
    match SaveChat(chats, d.title, messages, newId, savedAt)
    case Accepted(saved) => (saved, SaveDialog(false, ""), None)
    case Refused(message) => (chats, d, Some(message))
  }

  /** A conversation that holds only the greeting cannot be saved. */
  lemma GreetingOnlyCannotBeSaved(chats: seq<SavedChat>, title: string, user: UserInfo, ai: AiSettings, newId: string, savedAt: string)
    ensures SaveChat(chats, title, OpenChat(user, ai).messages, newId, savedAt).Refused?
  {
  }

  /** The delete button asks `window.confirm` first; `confirmed` is the answer. */
  function DeleteChat(chats: seq<SavedChat>, chat: SavedChat, confirmed: bool): (r: seq<SavedChat>)
    ensures !confirmed ==> r == chats
    ensures confirmed ==> r == DeleteSavedChat(chats, chat.id)
  {
    if confirmed then DeleteSavedChat(chats, chat.id) else chats
  }

  /** Saving a chat under a fresh id and deleting it again, confirmed,
      restores the list. */
  lemma SaveThenDeleteRestores(chats: seq<SavedChat>, title: string, messages: seq<Message>, newId: string, savedAt: string)
    requires !IsBlank(title) && |messages| > 1
    requires forall i :: 0 <= i < |chats| ==> chats[i].id != newId
    ensures var saved := SaveChat(chats, title, messages, newId, savedAt).value;
            DeleteChat(saved, saved[0], true) == chats
  {
    DeleteUndoesAdd(chats, SavedChat(newId, title, messages, savedAt));
  }

  // ---------------------------------------------------------------------
  // Cheering

  const CheerFallback: string := "頑張って！応援してるよ！"

  /** A cheer message shown on one goal's card. */
  datatype Cheer = Cheer(goalId: string, message: string)

  /** `handleGetCheer` once the reply is in: the message is attached to the
      goal asked about, with a fixed text when the call failed. */
  function ReceiveCheer(goal: Goal, reply: AiReply<string>): (r: Cheer)
    ensures r.goalId == goal.id
    ensures reply.Replied? ==> r.message == reply.answer
    ensures reply.Failed? ==> r.message == CheerFallback
  {
    match reply
    case Replied(answer) => Cheer(goal.id, answer)
    case Failed => Cheer(goal.id, CheerFallback)
  }

  /** The cheer line on a goal's card: shown only when the cheer is for
      that goal's id; the card's 閉じる button clears it. */
  function CheerShown(cheer: Option<Cheer>, goal: Goal): (r: Option<string>)
    ensures r.Some? <==> cheer.Some? && cheer.value.goalId == goal.id
    ensures r.Some? ==> r.value == cheer.value.message
  {
    if cheer.Some? && cheer.value.goalId == goal.id then Some(cheer.value.message) else None
  }

  /** A cheer appears on the card it was asked for, holding the reply or the
      fallback, and on no card of a goal with another id. */
  lemma CheerOnAskedCardOnly(asked: Goal, other: Goal, reply: AiReply<string>)
    ensures CheerShown(Some(ReceiveCheer(asked, reply)), asked) == Some(MessageOr(reply, CheerFallback))
    ensures other.id != asked.id ==> CheerShown(Some(ReceiveCheer(asked, reply)), other).None?
  {
  }

  // ---------------------------------------------------------------------
  // The completion flow

  /** The dialog steps of finishing a goal. */
  datatype Step = Confirm | PepTalkLoading | PepTalk | Reflect | Celebrate

  datatype Completion = Completion(step: Step, goal: Goal, message: Option<string>)

  /** The part of the tab the completion flow reads and writes. */
  datatype Flow = Flow(
    goals: seq<Goal>,
    completion: Option<Completion>,
    rating: int,
    reflectionText: string)

  const PepTalkFallback: string := "諦めるな！君ならできる！"
  const CelebrationFallback: string := "目標達成おめでとうございます！本当に素晴らしいです！"

  /** What the user can do, and the replies that arrive. */
  datatype FlowEvent =
    | FinishClicked(goal: Goal)
    | Answered(confirmed: bool)
    | PepTalkArrived(reply: AiReply<string>)
    | StarClicked(star: int)
    | ReflectionTyped(text: string)
    | SaveReflectionClicked(reply: AiReply<string>)
    | DialogClosed

  predicate InStep(f: Flow, step: Step) {
    f.completion.Some? && f.completion.value.step == step
  }

  function MessageOr(reply: AiReply<string>, fallback: string): string {
    match reply
    case Replied(answer) => answer
    case Failed => fallback
  }

  /** The goal as `handleSaveReflectionAndCelebrate` stores it. */
  function Completed(goal: Goal, rating: int, text: string): (g: Goal)
    ensures g.isCompleted && g.reflection == Some(Reflection(rating, text))
    ensures g.(isCompleted := goal.isCompleted, reflection := goal.reflection) == goal
  {
    goal.(isCompleted := true, reflection := Some(Reflection(rating, text)))
  }

  /** Whether the page offers the control (or awaits the reply) the event
      stands for: 終了！ only on the card of a goal in its slot while no
      dialog covers the page, each dialog only its own buttons, and stars
      1 to 5 only. */
  predicate Handles(f: Flow, e: FlowEvent) {
    match e
    case FinishClicked(goal) => f.completion.None? && GoalSlot(f.goals, goal.goalType) == Some(goal)
    case Answered(_) => InStep(f, Confirm)
    case PepTalkArrived(_) => InStep(f, PepTalkLoading)
    case StarClicked(star) => InStep(f, Reflect) && 1 <= star <= 5
    case ReflectionTyped(_) => InStep(f, Reflect)
    case SaveReflectionClicked(_) => InStep(f, Reflect)
    case DialogClosed => InStep(f, PepTalk) || InStep(f, Celebrate)
  }

  /** One event: 終了！ asks for confirmation; yes opens a blank reflection,
      no waits for the pep talk, which arrives as the reply or the fallback;
      a star sets the rating and typing sets the text, both verbatim; saving
      stores the completed goal and shows the celebration (reply or
      fallback); OK and 閉じる close the dialog. Anything the page does not
      offer changes nothing. */
  function FlowStep(f: Flow, e: FlowEvent): (r: Flow)
    ensures !Handles(f, e) ==> r == f
    ensures e.FinishClicked? && Handles(f, e) ==> r == f.(completion := Some(Completion(Confirm, e.goal, None)))
    ensures e == Answered(true) && InStep(f, Confirm) ==>
              r == Flow(f.goals, Some(Completion(Reflect, f.completion.value.goal, None)), 0, "")
    ensures e == Answered(false) && InStep(f, Confirm) ==>
              r == f.(completion := Some(Completion(PepTalkLoading, f.completion.value.goal, None)))
    ensures e.PepTalkArrived? && InStep(f, PepTalkLoading) ==>
              r == f.(completion := Some(Completion(PepTalk, f.completion.value.goal, Some(MessageOr(e.reply, PepTalkFallback)))))
    ensures e.StarClicked? && Handles(f, e) ==> r == f.(rating := e.star)
    ensures e.ReflectionTyped? && InStep(f, Reflect) ==> r == f.(reflectionText := e.text)
    ensures e.SaveReflectionClicked? && InStep(f, Reflect) ==>
              var goal := f.completion.value.goal;
              r == f.(goals := AddOrUpdateGoal(f.goals, Completed(goal, f.rating, f.reflectionText)),
                      completion := Some(Completion(Celebrate, goal, Some(MessageOr(e.reply, CelebrationFallback)))))
    ensures e.DialogClosed? && Handles(f, e) ==> r == f.(completion := None)
  {
    match e
    case FinishClicked(goal) =>
      if f.completion.None? && GoalSlot(f.goals, goal.goalType) == Some(goal)
      then f.(completion := Some(Completion(Confirm, goal, None)))
      else f
    case Answered(confirmed) =>
      if !InStep(f, Confirm) then f
      else if confirmed then f.(completion := Some(Completion(Reflect, f.completion.value.goal, None)), rating := 0, reflectionText := "")
      else f.(completion := Some(Completion(PepTalkLoading, f.completion.value.goal, None)))
    case PepTalkArrived(reply) =>
      if InStep(f, PepTalkLoading)
      then f.(completion := Some(Completion(PepTalk, f.completion.value.goal, Some(MessageOr(reply, PepTalkFallback)))))
      else f
    case StarClicked(star) =>
      if InStep(f, Reflect) && 1 <= star <= 5 then f.(rating := star) else f
    case ReflectionTyped(text) =>
      if InStep(f, Reflect) then f.(reflectionText := text) else f
    case SaveReflectionClicked(reply) =>
      if InStep(f, Reflect) then
        var goal := f.completion.value.goal;
        f.(goals := AddOrUpdateGoal(f.goals, Completed(goal, f.rating, f.reflectionText)),
           completion := Some(Completion(Celebrate, goal, Some(MessageOr(reply, CelebrationFallback)))))
      else f
    case DialogClosed =>
      if InStep(f, PepTalk) || InStep(f, Celebrate) then f.(completion := None) else f
  }

  function RunFlow(f: Flow, events: seq<FlowEvent>): Flow
    decreases |events|
  {
    if |events| == 0 then f else RunFlow(FlowStep(f, events[0]), events[1..])
  }

  /** The flow's invariant: the rating is 0 or a star count, every stored
      reflection's rating is too, and the goal in a dialog is a stored one. */
  ghost predicate FlowValid(f: Flow) {
    && 0 <= f.rating <= 5
    && (forall i :: 0 <= i < |f.goals| && f.goals[i].reflection.Some? ==> 0 <= f.goals[i].reflection.value.rating <= 5)
    && (f.completion.Some? && f.completion.value.step != Celebrate ==> f.completion.value.goal in f.goals)
  }

  /** Only saving a reflection changes the goals. */
  lemma OnlyReflectionTouchesGoals(f: Flow, e: FlowEvent)
    ensures FlowStep(f, e).goals != f.goals ==> e.SaveReflectionClicked? && InStep(f, Reflect)
  {
  }

  /** Saying yes opens the reflection with no stars and no text. */
  lemma YesStartsBlankReflection(f: Flow, goal: Goal)
    requires f.completion == Some(Completion(Confirm, goal, None))
    ensures FlowStep(f, Answered(true)) == Flow(f.goals, Some(Completion(Reflect, goal, None)), 0, "")
  {
  }

  /** Saving a reflection stores the goal completed with exactly the rating
      and text on screen, and the outcome of the celebration call makes no
      difference to what is stored. */
  lemma ReflectionStoredVerbatim(f: Flow, a: AiReply<string>, b: AiReply<string>)
    requires InStep(f, Reflect)
    ensures FlowStep(f, SaveReflectionClicked(a)).goals ==
            AddOrUpdateGoal(f.goals, Completed(f.completion.value.goal, f.rating, f.reflectionText))
    ensures FlowStep(f, SaveReflectionClicked(a)).goals == FlowStep(f, SaveReflectionClicked(b)).goals
    ensures InStep(FlowStep(f, SaveReflectionClicked(a)), Celebrate)
  {
  }

  /** Saying no shows the pep talk (the reply, or the fallback when the call
      fails) for the same goal, and OK closes it with the goals untouched. */
  lemma NoThenPepTalk(f: Flow, reply: AiReply<string>)
    requires InStep(f, Confirm)
    ensures var p := RunFlow(f, [Answered(false), PepTalkArrived(reply)]);
            p == f.(completion := Some(Completion(PepTalk, f.completion.value.goal, Some(MessageOr(reply, PepTalkFallback)))))
    ensures RunFlow(f, [Answered(false), PepTalkArrived(reply), DialogClosed]) == f.(completion := None)
  {
    var goal := f.completion.value.goal;
    var f1 := FlowStep(f, Answered(false));
    var f2 := FlowStep(f1, PepTalkArrived(reply));
    var f3 := FlowStep(f2, DialogClosed);
    assert f2 == f.(completion := Some(Completion(PepTalk, goal, Some(MessageOr(reply, PepTalkFallback)))));
    assert RunFlow(f2, []) == f2;
    assert RunFlow(f1, [PepTalkArrived(reply)]) == f2 by {
      assert [PepTalkArrived(reply)][1..] == [];
    }
    assert [Answered(false), PepTalkArrived(reply)][1..] == [PepTalkArrived(reply)];
    assert RunFlow(f2, [DialogClosed]) == f3 by {
      assert [DialogClosed][1..] == [];
    }
    assert RunFlow(f1, [PepTalkArrived(reply), DialogClosed]) == f3 by {
      assert [PepTalkArrived(reply), DialogClosed][1..] == [DialogClosed];
    }
    assert [Answered(false), PepTalkArrived(reply), DialogClosed][1..] == [PepTalkArrived(reply), DialogClosed];
  }

  /** In the reflection, the star clicked and the text typed are what the
      save stores: the goal completed with exactly that rating and text,
      followed by the celebration. */
  lemma ReflectClickTypeSave(f: Flow, k: int, t: string, reply: AiReply<string>)
    requires InStep(f, Reflect) && 1 <= k <= 5
    ensures var r := RunFlow(f, [StarClicked(k), ReflectionTyped(t), SaveReflectionClicked(reply)]);
            && r.goals == AddOrUpdateGoal(f.goals, Completed(f.completion.value.goal, k, t))
            && r.completion == Some(Completion(Celebrate, f.completion.value.goal, Some(MessageOr(reply, CelebrationFallback))))
  {
    var goal := f.completion.value.goal;
    var f1 := FlowStep(f, StarClicked(k));
    var f2 := FlowStep(f1, ReflectionTyped(t));
    var f3 := FlowStep(f2, SaveReflectionClicked(reply));
    assert f2 == f.(rating := k, reflectionText := t);
    assert f3.goals == AddOrUpdateGoal(f.goals, Completed(goal, k, t));
    assert RunFlow(f3, []) == f3;
    assert RunFlow(f2, [SaveReflectionClicked(reply)]) == f3 by {
      assert [SaveReflectionClicked(reply)][1..] == [];
    }
    assert RunFlow(f1, [ReflectionTyped(t), SaveReflectionClicked(reply)]) == f3 by {
      assert [ReflectionTyped(t), SaveReflectionClicked(reply)][1..] == [SaveReflectionClicked(reply)];
    }
    assert [StarClicked(k), ReflectionTyped(t), SaveReflectionClicked(reply)][1..] ==
           [ReflectionTyped(t), SaveReflectionClicked(reply)];
  }

  /** Every event keeps the flow valid. */
  lemma FlowStepPreservesValid(f: Flow, e: FlowEvent)
    requires FlowValid(f)
    ensures FlowValid(FlowStep(f, e))
  {
    if e.SaveReflectionClicked? && InStep(f, Reflect) {
      var goal := f.completion.value.goal;
      var g := Completed(goal, f.rating, f.reflectionText);
      var r := FlowStep(f, e).goals;
      GoalUpsertKeeps(f.goals, g);
    }
  }

  /** A flow that is not on its way to a reflection: no dialog, or the pep
      talk branch. */
  predicate OffReflectPath(f: Flow) {
    f.completion.None? || f.completion.value.step in {PepTalkLoading, PepTalk}
  }

  /** Answering "no" never completes the goal: after it, whatever arrives or
      is clicked, the goals stay as they were until 終了！ is pressed again. */
  lemma {:induction false} NoNeverCompletes(f: Flow, events: seq<FlowEvent>)
    requires InStep(f, Confirm)
    requires forall i :: 0 <= i < |events| ==> !events[i].FinishClicked?
    ensures RunFlow(f, [Answered(false)] + events).goals == f.goals
  {
    var g := FlowStep(f, Answered(false));
    assert ([Answered(false)] + events)[0] == Answered(false);
    assert ([Answered(false)] + events)[1..] == events;
    StaysOffReflectPath(g, events);
  }

  lemma {:induction false} StaysOffReflectPath(f: Flow, events: seq<FlowEvent>)
    requires OffReflectPath(f)
    requires forall i :: 0 <= i < |events| ==> !events[i].FinishClicked?
    ensures RunFlow(f, events).goals == f.goals
    decreases |events|
  {
    if |events| > 0 {
      var g := FlowStep(f, events[0]);
      assert g.goals == f.goals && OffReflectPath(g);
      StaysOffReflectPath(g, events[1..]);
    }
  }

  /** With at most one goal per type, completing the goal shown in a slot
      empties that slot and lists the goal, now completed, in the history. */
  lemma CompletingEmptiesSlot(goals: seq<Goal>, k: nat, rating: int, text: string)
    requires TypesDistinct(goals) && k < |goals| && !goals[k].isCompleted
    requires KeepsStoredType(goals, goals[k])
    ensures GoalSlot(AddOrUpdateGoal(goals, Completed(goals[k], rating, text)), goals[k].goalType).None?
    ensures Completed(goals[k], rating, text) in CompletedGoals(AddOrUpdateGoal(goals, Completed(goals[k], rating, text)))
  {
    var g := Completed(goals[k], rating, text);
    var j :| 0 <= j <= k && goals[j].id == g.id && forall i :: 0 <= i < j ==> goals[i].id != g.id by {
      FirstIdMatch(goals, k);
    }
    var r := AddOrUpdateGoal(goals, g);
    assert r == goals[j := g];
    assert j == k by {
      assert goals[j].goalType == goals[k].goalType;
    }
    assert r[j] == g;
  }

  lemma FirstIdMatch(goals: seq<Goal>, k: nat)
    requires k < |goals|
    ensures exists j :: 0 <= j <= k && goals[j].id == goals[k].id && forall i :: 0 <= i < j ==> goals[i].id != goals[k].id
  {
    var o := FirstIndex(goals, (x: Goal) => x.id == goals[k].id);
    assert o.Some?;
  }
}

=== FILE: onboarding.dfy ===
/** The onboarding conversation (`App.tsx`), with the chat input and the
    tutorial it renders folded into one state. The bot's scripted reply,
    which the source appends after a one-second "typing" pause, is appended
    together with the user's message, so the input is never loading between
    events. */
module Onboarding {
  import opened Wrappers
  import opened Types
  import opened Constants
  import ChatInput
  import Tutorial
  import Seqs
  import Text

  /** Everything the onboarding screen holds: the step, the conversation,
      the profile being collected, the AI settings (fixed here, edited later
      in the settings tab), the text in the input box and the tutorial slide
      on screen. */
  datatype AppState = AppState(
    step: OnboardingStep,
    messages: seq<Message>,
    userInfo: UserInfo,
    aiSettings: AiSettings,
    input: string,
    slide: nat)

  /** What the user can do. Message ids, which the source takes from the
      clock, arrive with the event. */
  datatype Event =
    | Mounted
    | Typed(value: string)
    | Submitted(userId: string, botId: string)
    | OptionChosen(value: string, userId: string, botId: string)
    | NextPressed

  const EmptyUserInfo: UserInfo := UserInfo("", "", "", "", None, None)
  const DefaultAiSettings: AiSettings := AiSettings("AI", "私", "gyaru", "")

  const Start: AppState := AppState(Initial, [], EmptyUserInfo, DefaultAiSettings, "", 0)

  const InitialGreeting: string := "こんにちは！\nあなたの学習をサポートするAIです。まず、あなたの名前を教えてください。"
  const GenderQuestion: string := "性別を教えてください。"
  const MbtiQuestion: string := "最後に、あなたのMBTIタイプを教えてください。\nもし分からなければ「わからない」を選択してください。"
  const RegistrationDone: string := "ありがとうございます！\n登録が完了しました。簡単なチュートリアルを始めます。"

  function GradeQuestion(name: string): string {
    name + "さん、こんにちは！\n次にあなたの学年を教えてください。"
  }

  /** The order of the steps, for stating progress. */
  function Rank(step: OnboardingStep): nat {
    match step
    case Initial => 0
    case Name => 1
    case Grade => 2
    case Gender => 3
    case Mbti => 4
    case Tutorial => 5
    case MainApp => 6
  }

  function BotSays(id: string, text: string, options: Option<seq<MessageOption>>): Message {
    Message(id, text, Bot, options)
  }

  // ---------------------------------------------------------------------
  // The handlers of App.tsx

  /** `startOnboarding`: a single greeting replaces the conversation and the
      name is asked for. */
  function StartOnboarding(s: AppState): (r: AppState)
    ensures r.step == Name && |r.messages| == 1 && r.messages[0].sender == Bot
    ensures r.userInfo == s.userInfo && r.input == s.input && r.slide == s.slide
  {
    s.(messages := [Message("initial-bot-message", InitialGreeting, Bot, None)], step := Name)
  }

  /** `handleNameStep`: store the name as typed and ask for the grade. */
  function HandleNameStep(s: AppState, name: string, botId: string): (r: AppState)
    ensures r.userInfo == s.userInfo.(name := name) && r.step == Grade
    ensures r.messages == s.messages + [BotSays(botId, GradeQuestion(name), Some(GradeOptions))]
  {
    s.(userInfo := s.userInfo.(name := name),
       messages := s.messages + [BotSays(botId, GradeQuestion(name), Some(GradeOptions))],
       step := Grade)
  }

  /** `handleUserInput`: only the name step accepts typed text; there it is
      echoed as a user message and stored verbatim as the name. */
  function HandleUserInput(s: AppState, input: string, userId: string, botId: string): (r: AppState)
    ensures s.step != Name ==> r == s
    ensures s.step == Name ==> r.step == Grade && r.userInfo == s.userInfo.(name := input)
    ensures s.step == Name ==>
              r.messages == s.messages + [Message(userId, input, User, None), BotSays(botId, GradeQuestion(input), Some(GradeOptions))]
  {
    if s.step == Name then
      HandleNameStep(s.(messages := s.messages + [Message(userId, input, User, None)]), input, botId)
    else s
  }

  /** `handleOptionSelect`: echo the choice as a user message in every step;
      in the grade, gender and MBTI steps also store it in that step's field
      and ask the next question. */
  function HandleOptionSelect(s: AppState, value: string, userId: string, botId: string): (r: AppState)
    ensures |r.messages| >= |s.messages| + 1 && r.messages[..|s.messages|] == s.messages
    ensures r.messages[|s.messages|] == Message(userId, value, User, None)
    ensures s.step == Grade ==> r.step == Gender && r.userInfo == s.userInfo.(grade := value)
    ensures s.step == Gender ==> r.step == Mbti && r.userInfo == s.userInfo.(gender := value)
    ensures s.step == Mbti ==> r.step == Tutorial && r.userInfo == s.userInfo.(mbti := value)
    ensures s.step == Grade ==>
              r.messages == s.messages + [Message(userId, value, User, None), BotSays(botId, GenderQuestion, Some(GenderOptions))]
    ensures s.step == Gender ==>
              r.messages == s.messages + [Message(userId, value, User, None), BotSays(botId, MbtiQuestion, Some(MbtiOptions))]
    ensures s.step == Mbti ==>
              r.messages == s.messages + [Message(userId, value, User, None), BotSays(botId, RegistrationDone, None)]
    ensures s.step !in {Grade, Gender, Mbti} ==>
              r == s.(messages := s.messages + [Message(userId, value, User, None)])
    ensures r.input == s.input && r.slide == s.slide && r.aiSettings == s.aiSettings
  {
    Ask(Record(Echo(s, value, userId), value), botId)
  }

  /** The user's choice, echoed as a message of its own. */
  function Echo(s: AppState, value: string, userId: string): AppState {
    s.(messages := s.messages + [Message(userId, value, User, None)])
  }

  /** The profile field the current step collects, set to the choice. */
  function Record(s: AppState, value: string): AppState {
    match s.step
    case Grade => s.(userInfo := s.userInfo.(grade := value))
    case Gender => s.(userInfo := s.userInfo.(gender := value))
    case Mbti => s.(userInfo := s.userInfo.(mbti := value))
    case _ => s
  }

  /** The next question (or the closing message) and the next step. */
  function Ask(s: AppState, botId: string): AppState {
    match s.step
    case Grade => s.(messages := s.messages + [BotSays(botId, GenderQuestion, Some(GenderOptions))], step := Gender)
    case Gender => s.(messages := s.messages + [BotSays(botId, MbtiQuestion, Some(MbtiOptions))], step := Mbti)
    case Mbti => s.(messages := s.messages + [BotSays(botId, RegistrationDone, None)], step := Tutorial)
    case _ => s
  }

  /** `handleTutorialComplete`. */
  function HandleTutorialComplete(s: AppState): (r: AppState)
    ensures r.step == MainApp && r.userInfo == s.userInfo
  {
    s.(step := MainApp)
  }

  // ---------------------------------------------------------------------
  // The screen: which handler an event reaches

  /** The input box is disabled in every step but the name step. */
  predicate InputDisabled(step: OnboardingStep) {
    step != Name
  }

  /** One user event. On the main screen only `MainApp` is rendered, so no
      onboarding handler is reachable; the tutorial button exists only in
      the tutorial step; the input box reaches `handleUserInput` through its
      submit guard, and is emptied whenever the step disables it. */
  function Dispatch(s: AppState, e: Event): (r: AppState)
    ensures s.step == MainApp ==> r == s
    ensures r.aiSettings == s.aiSettings
  {
    if s.step == MainApp then s else Settle(Handle(s, e))
  }

  /** The handler an event reaches on the onboarding screen. */
  function Handle(s: AppState, e: Event): AppState {
    match e
    case Mounted => if s.step == Initial then StartOnboarding(s) else s
    case Typed(v) => s.(input := ChatInput.Change(s.input, v, false, InputDisabled(s.step)))
    case Submitted(userId, botId) => SubmitName(s, ChatInput.Submit(s.input, false, InputDisabled(s.step)), userId, botId)
    case OptionChosen(v, userId, botId) => if Offers(s.messages, v) then HandleOptionSelect(s, v, userId, botId) else s
    case NextPressed => PressNext(s)
  }

  /** Whether some bot message on screen shows a button for `value`. Every
      bot message keeps its buttons, so earlier questions' buttons stay
      clickable. */
  function Offers(messages: seq<Message>, value: string): (b: bool)
    ensures b <==> exists i, j :: 0 <= i < |messages| && messages[i].sender == Bot && messages[i].options.Some?
                                 && 0 <= j < |messages[i].options.value| && messages[i].options.value[j].value == value
  {
    if |messages| == 0 then false
    else OffersIn(messages[0], value) || Offers(messages[1..], value)
  }

  predicate OffersIn(m: Message, value: string) {
    m.sender == Bot && m.options.Some? && exists j :: 0 <= j < |m.options.value| && m.options.value[j].value == value
  }

  /** The input box's submit, passed on to `handleUserInput` when it sends. */
  function SubmitName(s: AppState, sub: ChatInput.SubmitResult, userId: string, botId: string): AppState {
    if sub.sent.Some? then HandleUserInput(s.(input := sub.buffer), sub.sent.value, userId, botId) else s
  }

  /** The tutorial's button, shown only in the tutorial step. */
  function PressNext(s: AppState): AppState {
    if s.step == Tutorial && s.slide < Tutorial.SlideCount then
      if Tutorial.HandleNext(s.slide).completed then HandleTutorialComplete(s)
      else s.(slide := Tutorial.HandleNext(s.slide).slide)
    else s
  }

  /** The input box's effect on `disabled` after the step has changed. */
  function Settle(s: AppState): AppState {
    s.(input := ChatInput.OnDisabled(s.input, InputDisabled(s.step)))
  }

  /** The state after a whole run of events. */
  function Run(s: AppState, events: seq<Event>): AppState
    decreases |events|
  {
    if |events| == 0 then s else Run(Dispatch(s, events[0]), events[1..])
  }

  // ---------------------------------------------------------------------
  // Properties

  /** The states the screen can be in: the box is empty whenever it is
      disabled, the slide index is a slide, and it stays on the first slide
      until the tutorial. */
  ghost predicate Valid(s: AppState) {
    && (InputDisabled(s.step) ==> s.input == [])
    && s.slide < Tutorial.SlideCount
    && (Rank(s.step) < Rank(Tutorial) ==> s.slide == 0)
    && (s.step == Initial ==> s.messages == [])
    && (s.step != Initial ==> |s.messages| >= 1)
  }

  lemma StartIsValid()
    ensures Valid(Start)
  {
  }

  /** Every event keeps the screen in a valid state. */
  lemma DispatchPreservesValid(s: AppState, e: Event)
    requires Valid(s)
    ensures Valid(Dispatch(s, e))
  {
  }

  /** Onboarding never skips or revisits a step: each event stays put or
      moves exactly one step forward, and the main screen is final. */
  lemma DispatchAdvancesAtMostOne(s: AppState, e: Event)
    ensures Rank(Dispatch(s, e).step) == Rank(s.step) || Rank(Dispatch(s, e).step) == Rank(s.step) + 1
    ensures s.step == MainApp ==> Dispatch(s, e).step == MainApp
  {
  }

  /** Typing or submitting in any step but the name step changes nothing. */
  lemma InputIgnoredOutsideNameStep(s: AppState, v: string, userId: string, botId: string)
    requires Valid(s) && s.step != Name
    ensures Dispatch(s, Typed(v)) == s
    ensures Dispatch(s, Submitted(userId, botId)) == s
  {
  }

  /** A blank name (empty or only whitespace) is refused: nothing changes. */
  lemma BlankNameRefused(s: AppState, userId: string, botId: string)
    requires Valid(s) && s.step == Name && Text.AllWhitespace(s.input)
    ensures Dispatch(s, Submitted(userId, botId)) == s
  {
  }

  /** A non-blank name is stored exactly as typed, echoed as one user
      message followed by the grade question, and the step becomes grade. */
  lemma NameAccepted(s: AppState, userId: string, botId: string)
    requires Valid(s) && s.step == Name && !Text.AllWhitespace(s.input)
    ensures Dispatch(s, Submitted(userId, botId)).step == Grade
    ensures Dispatch(s, Submitted(userId, botId)).userInfo == s.userInfo.(name := s.input)
    ensures Dispatch(s, Submitted(userId, botId)).messages ==
            s.messages + [Message(userId, s.input, User, None),
                          BotSays(botId, GradeQuestion(s.input), Some(GradeOptions))]
    ensures Dispatch(s, Submitted(userId, botId)).input == []
  {
  }

  /** The field an option fills depends only on the step and the value, not
      on which message's option list was clicked nor on the rest of the
      conversation. */
  lemma OptionDependsOnlyOnStep(s: AppState, t: AppState, v: string, userId: string, botId: string)
    requires s.step == t.step && s.userInfo == t.userInfo
    ensures HandleOptionSelect(s, v, userId, botId).step == HandleOptionSelect(t, v, userId, botId).step
    ensures HandleOptionSelect(s, v, userId, botId).userInfo == HandleOptionSelect(t, v, userId, botId).userInfo
  {
  }

  /** Running two batches of events is running them one after the other. */
  lemma {:induction false} RunConcat(s: AppState, a: seq<Event>, b: seq<Event>)
    ensures Run(s, a + b) == Run(Run(s, a), b)
    decreases |a|
  {
    if |a| == 0 {
      assert a + b == b;
    } else {
      assert (a + b)[0] == a[0];
      assert (a + b)[1..] == a[1..] + b;
      RunConcat(Dispatch(s, a[0]), a[1..], b);
    }
  }

  /** Once on the main screen, no sequence of onboarding events has any
      effect. */
  lemma {:induction false} MainAppIsFinal(s: AppState, events: seq<Event>)
    requires s.step == MainApp
    ensures Run(s, events) == s
    decreases |events|
  {
    if |events| > 0 {
      MainAppIsFinal(Dispatch(s, events[0]), events[1..]);
    }
  }

  /** Pressing the tutorial button `n` times from a tutorial slide does what
      the tutorial's own counter says: the profile and conversation are
      untouched, the main screen is reached exactly when `onComplete` has
      been called, and otherwise the counter's slide is on screen. */
  lemma {:induction false} TutorialPresses(s: AppState, n: nat)
    requires Valid(s) && s.step == Tutorial
    ensures Run(s, Seqs.Fill(n, NextPressed)).userInfo == s.userInfo
    ensures Run(s, Seqs.Fill(n, NextPressed)).messages == s.messages
    ensures Run(s, Seqs.Fill(n, NextPressed)).step == MainApp <==> Tutorial.Presses(s.slide, n).completed
    ensures !Tutorial.Presses(s.slide, n).completed ==>
              Run(s, Seqs.Fill(n, NextPressed)) == s.(slide := Tutorial.Presses(s.slide, n).slide)
    decreases n
  {
    if n > 0 {
      var presses := Seqs.Fill(n, NextPressed);
      assert presses[0] == NextPressed;
      assert presses[1..] == Seqs.Fill(n - 1, NextPressed);
      var next := Dispatch(s, NextPressed);
      if s.slide < Tutorial.LastSlide {
        assert next == s.(slide := s.slide + 1);
        TutorialPresses(next, n - 1);
      } else {
        assert next.step == MainApp;
        MainAppIsFinal(next, presses[1..]);
      }
    }
  }

  /** The events of a complete onboarding: open the app, type and send a
      name, then pick a grade, a gender and an MBTI answer. */
  function Onboard(name: string, grade: string, gender: string, mbti: string): seq<Event> {
    NameEvents(name) + [OptionChosen(grade, "u2", "b2"), OptionChosen(gender, "u3", "b3"), OptionChosen(mbti, "u4", "b4")]
  }

  function NameEvents(name: string): seq<Event> {
    [Mounted, Typed(name), Submitted("u1", "b1")]
  }

  /** Opening the app shows the greeting and asks for the name. */
  lemma MountStage()
    ensures var r := Dispatch(Start, Mounted);
            Valid(r) && r.step == Name && r.slide == 0 && r.userInfo == EmptyUserInfo && r.input == []
  {
    StartIsValid();
    DispatchPreservesValid(Start, Mounted);
  }

  /** Then typing a non-blank name and sending it asks for the grade with the
      grade buttons, the name stored. */
  lemma NameStage(name: string)
    requires !Text.AllWhitespace(name)
    ensures var r := Run(Start, NameEvents(name));
            && Valid(r) && r.step == Grade && r.slide == 0
            && r.userInfo == EmptyUserInfo.(name := name)
            && r.messages[|r.messages| - 1] == BotSays("b1", GradeQuestion(name), Some(GradeOptions))
  {
    var events := NameEvents(name);
    MountStage();
    var s1 := Dispatch(Start, events[0]);
    var s2 := Dispatch(s1, events[1]);
    assert s2 == s1.(input := name);
    DispatchPreservesValid(s1, events[1]);
    NameAccepted(s2, "u1", "b1");
    var s3 := Dispatch(s2, events[2]);
    DispatchPreservesValid(s2, events[2]);
    RunThree(Start, events);
  }

  /** Three events, one after the other. */
  lemma RunThree(s: AppState, events: seq<Event>)
    requires |events| == 3
    ensures Run(s, events) == Dispatch(Dispatch(Dispatch(s, events[0]), events[1]), events[2])
  {
    var s1 := Dispatch(s, events[0]);
    var s2 := Dispatch(s1, events[1]);
    assert Run(s, events) == Run(s1, events[1..]);
    assert Run(s1, events[1..]) == Run(s2, events[2..]);
    assert events[2..][1..] == [];
  }

  /** Clicking a button of the latest question in the grade, gender or MBTI
      step reaches `handleOptionSelect` with the button's value. */
  lemma PickLatest(s: AppState, options: seq<MessageOption>, i: nat, userId: string, botId: string)
    requires Valid(s) && s.step in {Grade, Gender, Mbti}
    requires |s.messages| > 0 && s.messages[|s.messages| - 1].sender == Bot
    requires s.messages[|s.messages| - 1].options == Some(options) && i < |options|
    ensures Dispatch(s, OptionChosen(options[i].value, userId, botId)) ==
            HandleOptionSelect(s, options[i].value, userId, botId)
    ensures Valid(Dispatch(s, OptionChosen(options[i].value, userId, botId)))
  {
    assert OffersIn(s.messages[|s.messages| - 1], options[i].value);
    DispatchPreservesValid(s, OptionChosen(options[i].value, userId, botId));
  }

  /** The conversation part of the happy path ends on the tutorial's first
      slide with the profile filled in from the answers. */
  lemma OnboardFillsProfile(name: string, g: nat, d: nat, m: nat)
    requires !Text.AllWhitespace(name)
    requires g < |GradeOptions| && d < |GenderOptions| && m < |MbtiOptions|
    ensures var r := Run(Start, Onboard(name, GradeOptions[g].value, GenderOptions[d].value, MbtiOptions[m].value));
            && Valid(r) && r.step == Tutorial && r.slide == 0
            && r.userInfo == UserInfo(name, GradeOptions[g].value, GenderOptions[d].value, MbtiOptions[m].value, None, None)
  {
    var answers := [OptionChosen(GradeOptions[g].value, "u2", "b2"), OptionChosen(GenderOptions[d].value, "u3", "b3"),
                    OptionChosen(MbtiOptions[m].value, "u4", "b4")];
    NameStage(name);
    var s3 := Run(Start, NameEvents(name));
    PickLatest(s3, GradeOptions, g, "u2", "b2");
    var s4 := Dispatch(s3, answers[0]);
    PickLatest(s4, GenderOptions, d, "u3", "b3");
    var s5 := Dispatch(s4, answers[1]);
    PickLatest(s5, MbtiOptions, m, "u4", "b4");
    var s6 := Dispatch(s5, answers[2]);
    RunConcat(Start, NameEvents(name), answers);
    RunThree(s3, answers);
  }

  /** The whole happy path: after a complete onboarding, five presses through
      the tutorial show the main screen with exactly the answers given, and
      four presses are not enough. */
  lemma OnboardThenTutorial(name: string, g: nat, d: nat, m: nat)
    requires !Text.AllWhitespace(name)
    requires g < |GradeOptions| && d < |GenderOptions| && m < |MbtiOptions|
    ensures var events := Onboard(name, GradeOptions[g].value, GenderOptions[d].value, MbtiOptions[m].value);
            && Run(Start, events + Seqs.Fill(5, NextPressed)).step == MainApp
            && Run(Start, events + Seqs.Fill(5, NextPressed)).userInfo ==
               UserInfo(name, GradeOptions[g].value, GenderOptions[d].value, MbtiOptions[m].value, None, None)
            && Run(Start, events + Seqs.Fill(4, NextPressed)).step == Tutorial
  {
    var events := Onboard(name, GradeOptions[g].value, GenderOptions[d].value, MbtiOptions[m].value);
    OnboardFillsProfile(name, g, d, m);
    var s6 := Run(Start, events);
    Tutorial.CompletesOnFifthPress(5);
    Tutorial.CompletesOnFifthPress(4);
    TutorialPresses(s6, 5);
    TutorialPresses(s6, 4);
    RunConcat(Start, events, Seqs.Fill(5, NextPressed));
    RunConcat(Start, events, Seqs.Fill(4, NextPressed));
  }

  /** The profile "Taro", 中学1年生, 男性, わからない is collected as given. */
  lemma TaroScenario()
    ensures Run(Start, Onboard("Taro", "中学1年生", "男性", "わからない") + Seqs.Fill(5, NextPressed)).userInfo ==
            UserInfo("Taro", "中学1年生", "男性", "わからない", None, None)
  {
    assert !Text.IsWhitespace("Taro"[0]);
    OnboardThenTutorial("Taro", 6, 0, 16);
  }

  /** Earlier questions' buttons stay live: a grade button clicked while the
      gender question is pending is stored as the gender, and the
      conversation moves on to the MBTI question. */
  lemma StaleButtonFillsCurrentField(s: AppState, i: nat, j: nat, userId: string, botId: string)
    requires Valid(s) && s.step == Gender
    requires i < |s.messages| && s.messages[i] == BotSays(s.messages[i].id, s.messages[i].text, Some(GradeOptions))
    requires j < |GradeOptions|
    ensures Dispatch(s, OptionChosen(GradeOptions[j].value, userId, botId)).userInfo.gender == GradeOptions[j].value
    ensures Dispatch(s, OptionChosen(GradeOptions[j].value, userId, botId)).step == Mbti
  {
    assert OffersIn(s.messages[i], GradeOptions[j].value);
  }
}

=== FILE: persona.dfy ===
/** How a tab turns the AI settings into the personality text of its prompts
    (`getAIPersonalityPrompt`, written out separately in the motivation,
    review and practice tabs). The tabs differ only in what they fall back
    to for an unknown personality key. */
module Persona {
  import opened Wrappers
  import opened Types
  import opened Seqs
  import opened Constants

  /** Whether the key names an entry of the personality table. */
  predicate Known(key: string) {
    exists i :: 0 <= i < |AiPersonalities| && AiPersonalities[i].key == key
  }

  /** A custom personality that carries a non-empty prompt of its own. */
  predicate OwnPrompt(ai: AiSettings) {
    ai.personality == "custom" && ai.customPrompt != ""
  }

  /** Table keys that identify their entries. */
  predicate KeysDistinct(table: seq<Personality>) {
    forall i, j :: 0 <= i < j < |table| ==> table[i].key != table[j].key
  }

  /** The prompt of the entry with the given key, or `fallback` when no
      entry has it. */
  function Lookup(table: seq<Personality>, key: string, fallback: string): (r: string)
    requires KeysDistinct(table)
    ensures forall i :: 0 <= i < |table| && table[i].key == key ==> r == table[i].prompt
    ensures (forall i :: 0 <= i < |table| ==> table[i].key != key) ==> r == fallback
  {
    match FirstIndex(table, (p: Personality) => p.key == key)
    case Some(k) => table[k].prompt
    case None => fallback
  }

  /** A custom personality with a non-empty prompt of its own uses that
      prompt; otherwise the table entry with the chosen key supplies it;
      otherwise `fallback`. */
  function ResolvePrompt(ai: AiSettings, fallback: string): (r: string)
    ensures OwnPrompt(ai) ==> r == ai.customPrompt
    ensures forall i :: 0 <= i < |AiPersonalities| && AiPersonalities[i].key == ai.personality && !OwnPrompt(ai) ==>
                          r == AiPersonalities[i].prompt
    ensures !OwnPrompt(ai) && !Known(ai.personality) ==> r == fallback
  {
    PersonalityKeysDistinct();
    if OwnPrompt(ai) then ai.customPrompt
    else Lookup(AiPersonalities, ai.personality, fallback)
  }

  /** Choosing the custom personality but leaving its prompt empty yields the
      custom table entry's empty prompt, not the fallback. */
  lemma CustomWithoutPromptIsEmpty(ai: AiSettings, fallback: string)
    requires ai.personality == "custom" && ai.customPrompt == ""
    ensures ResolvePrompt(ai, fallback) == ""
  {
    PersonalityTableShape();
    assert AiPersonalities[6].key == "custom";
  }

  /** The result is empty exactly for a custom personality without a prompt,
      whenever the fallback is not empty. */
  lemma EmptyOnlyForBlankCustom(ai: AiSettings, fallback: string)
    requires fallback != ""
    ensures ResolvePrompt(ai, fallback) == "" <==> ai.personality == "custom" && ai.customPrompt == ""
  {
    PersonalityTableShape();
    if ai.personality == "custom" && ai.customPrompt == "" {
      CustomWithoutPromptIsEmpty(ai, fallback);
    } else if Known(ai.personality) && ai.personality != "custom" {
      var i :| 0 <= i < |AiPersonalities| && AiPersonalities[i].key == ai.personality;
      assert AiPersonalities[i].prompt != "";
    }
  }

  /** Two tabs with different fallbacks agree on every setting except an
      unknown key. */
  lemma FallbackMattersOnlyForUnknownKeys(ai: AiSettings, a: string, b: string)
    requires a != b
    ensures ResolvePrompt(ai, a) != ResolvePrompt(ai, b) <==>
            !Known(ai.personality) && !OwnPrompt(ai)
  {
    if Known(ai.personality) {
      var i :| 0 <= i < |AiPersonalities| && AiPersonalities[i].key == ai.personality;
    }
  }
}

=== FILE: practice.dfy ===
/** The practice tab (`tabs/PracticeTab.tsx`): the list of recorded mistakes
    with a memo and a lazily fetched feedback summary per mistake, the
    weakness analysis, and the five-state personalised training. Every AI
    call is an `AiReply` parameter. */
module Practice {
  import opened Wrappers
  import opened Types
  import opened Seqs
  import opened Text
  import opened Constants
  import opened SharedState
  import Persona

  // ---------------------------------------------------------------------
  // One mistake in the list

  /** The local state of one list entry. */
  datatype Item = Item(expanded: bool, memo: string, summary: string, summaryLoading: bool)

  /** A fresh entry: collapsed, the stored memo (or nothing), no summary. */
  function OpenItem(m: Mistake): (it: Item)
    ensures !it.expanded && it.summary == "" && !it.summaryLoading
    ensures m.memo.Some? ==> it.memo == m.memo.value
    ensures m.memo.None? ==> it.memo == ""
  {
    Item(false, m.memo.GetOr(""), "", false)
  }

  /** Whether a toggle asks for a summary: only when it expands the entry,
      the mistake has feedback, and no summary is held yet. */
  predicate AsksForSummary(m: Mistake, it: Item) {
    !it.expanded && Truthy(m.feedback) && it.summary == ""
  }

  const SummaryFailed: string := "要約の生成に失敗しました。"

  /** `handleToggle`: flip the entry, and report whether `getSummary` is
      started. The guard reads only `summary`, which stays empty until a
      reply arrives, so collapsing and re-expanding while a request is
      pending starts a second one. */
  function Toggle(m: Mistake, it: Item): (r: (Item, bool))
    ensures r.1 <==> AsksForSummary(m, it)
    ensures r.0.expanded == !it.expanded && r.0.memo == it.memo && r.0.summary == it.summary
    ensures r.0.summaryLoading <==> it.summaryLoading || r.1
  {
    var asks := AsksForSummary(m, it);
    (it.(expanded := !it.expanded, summaryLoading := it.summaryLoading || asks), asks)
  }

  /** The end of `getSummary`: the reply, or a fixed text on failure. */
  function ReceiveSummary(it: Item, reply: AiReply<string>): (r: Item)
    ensures !r.summaryLoading && r.expanded == it.expanded && r.memo == it.memo
    ensures reply.Replied? ==> r.summary == reply.answer
    ensures reply.Failed? ==> r.summary == SummaryFailed
  {
    match reply
    case Replied(answer) => it.(summary := answer, summaryLoading := false)
    case Failed => it.(summary := SummaryFailed, summaryLoading := false)
  }

  /** Once a summary is held (a non-empty reply or the failure text),
      toggling never asks again. */
  lemma SummaryFetchedOnce(m: Mistake, it: Item, reply: AiReply<string>)
    requires reply.Replied? ==> reply.answer != ""
    ensures var held := ReceiveSummary(it, reply);
            !AsksForSummary(m, held) && !Toggle(m, held).1 && !Toggle(m, Toggle(m, held).0).1
  {
  }

  /** Before any reply, expanding asks, collapsing does not, and expanding
      again asks a second time. */
  lemma PendingSummaryAskedAgain(m: Mistake, it: Item)
    requires Truthy(m.feedback) && it.summary == "" && !it.expanded
    ensures var open := Toggle(m, it);
            var closed := Toggle(m, open.0);
            open.1 && !closed.1 && Toggle(m, closed.0).1
  {
  }

  /** No feedback, no summary request, however often the entry is toggled. */
  lemma NoFeedbackNoSummary(m: Mistake, it: Item)
    requires !Truthy(m.feedback)
    ensures !Toggle(m, it).1 && Toggle(m, it).0.summaryLoading == it.summaryLoading
  {
  }

  const MemoSavedNotice: string := "メモを保存しました。"

  /** `handleSaveMemo`: the mistake with only its memo replaced, to be
      upserted, and the alert shown after the upsert. */
  function MemoSaved(m: Mistake, it: Item): (r: (Mistake, string))
    ensures r.0.memo == Some(it.memo)
    ensures r.0.(memo := m.memo) == m
    ensures r.1 == MemoSavedNotice
  {
    (m.(memo := Some(it.memo)), MemoSavedNotice)
  }

  /** Saving a memo on a listed mistake (ids unique) changes that entry's
      memo in place and nothing else. */
  lemma SaveMemoInPlace(mistakes: seq<Mistake>, k: nat, it: Item)
    requires k < |mistakes|
    requires forall i, j :: 0 <= i < j < |mistakes| ==> mistakes[i].id != mistakes[j].id
    ensures AddOrUpdateMistake(mistakes, MemoSaved(mistakes[k], it).0) == mistakes[k := MemoSaved(mistakes[k], it).0]
  {
  }

  // ---------------------------------------------------------------------
  // Weakness analysis

  const NeedMistakesToAnalyze: string := "分析するには、少なくとも1つのミスを「復習」タブから登録する必要があります。"
  const AnalysisFailed: string := "分析中にエラーが発生しました。"

  datatype Analysis = Analysis(loading: bool, result: string)

  /** The analyse button, disabled while an analysis runs: with no mistakes
      it alerts; otherwise the old result is cleared and loading starts. */
  function Analyze(mistakes: seq<Mistake>, a: Analysis): (r: Checked<Analysis>)
    ensures a.loading ==> r == Accepted(a)
    ensures !a.loading && |mistakes| == 0 ==> r == Refused(NeedMistakesToAnalyze)
    ensures !a.loading && |mistakes| > 0 ==> r == Accepted(Analysis(true, ""))
  {
    if a.loading then Accepted(a)
    else if |mistakes| == 0 then Refused(NeedMistakesToAnalyze)
    else Accepted(Analysis(true, ""))
  }

  /** The end of `handleAnalyze`. */
  function ReceiveAnalysis(reply: AiReply<string>): (r: Analysis)
    ensures !r.loading
    ensures r.result == (if reply.Replied? then reply.answer else AnalysisFailed)
  {
    match reply
    case Replied(answer) => Analysis(false, answer)
    case Failed => Analysis(false, AnalysisFailed)
  }

  /** The analyse button, and the reply to a running analysis. */
  datatype AnalysisEvent = AnalyzeClicked | AnalysisArrived(reply: AiReply<string>)

  /** One event of the analysis panel; a refused click changes nothing. */
  function AnalysisStep(mistakes: seq<Mistake>, a: Analysis, e: AnalysisEvent): Analysis {
    match e
    case AnalyzeClicked =>
      (match Analyze(mistakes, a)
       case Accepted(b) => b
       case Refused(_) => a)
    case AnalysisArrived(reply) => if a.loading then ReceiveAnalysis(reply) else a
  }

  function RunAnalysis(mistakes: seq<Mistake>, a: Analysis, events: seq<AnalysisEvent>): Analysis
    decreases |events|
  {
    if |events| == 0 then a else RunAnalysis(mistakes, AnalysisStep(mistakes, a, events[0]), events[1..])
  }

  /** With no mistakes recorded, no run of clicks and replies ever starts an
      analysis or shows a result. */
  lemma {:induction false} NoMistakesNoAnalysis(a: Analysis, events: seq<AnalysisEvent>)
    requires !a.loading
    ensures RunAnalysis([], a, events) == a
    decreases |events|
  {
    if |events| > 0 {
      assert AnalysisStep([], a, events[0]) == a;
      NoMistakesNoAnalysis(a, events[1..]);
    }
  }

  /** With mistakes recorded, a click and its reply show the reply (or the
      error text) and end loading, whatever was shown before. */
  lemma ClickThenReplyShows(mistakes: seq<Mistake>, a: Analysis, reply: AiReply<string>)
    requires |mistakes| > 0 && !a.loading
    ensures RunAnalysis(mistakes, a, [AnalyzeClicked, AnalysisArrived(reply)]) == ReceiveAnalysis(reply)
  {
    var events := [AnalyzeClicked, AnalysisArrived(reply)];
    var b := AnalysisStep(mistakes, a, AnalyzeClicked);
    assert b == Analysis(true, "");
    assert events[1..] == [AnalysisArrived(reply)];
    assert RunAnalysis(mistakes, a, events) == RunAnalysis(mistakes, b, [AnalysisArrived(reply)]);
    assert RunAnalysis(mistakes, b, [AnalysisArrived(reply)]) == RunAnalysis(mistakes, ReceiveAnalysis(reply), []);
  }

  // ---------------------------------------------------------------------
  // Personalised training

  datatype Phase = Idle | Generating | Solving | Grading | Finished

  datatype Training = Training(phase: Phase, problems: seq<DrillProblem>, answers: seq<string>, feedback: string)

  const InitialTraining: Training := Training(Idle, [], [], "")

  const NeedMistakesToTrain: string := "トレーニングを開始するには、少なくとも1つのミスを「復習」タブから登録する必要があります。"
  const GenerationFailed: string := "トレーニング問題の生成に失敗しました。"
  const AnswerEverything: string := "すべての問題に回答してください。"
  const GradingFailed: string := "フィードバックの生成に失敗しました。"

  /** What the user does and the replies that arrive. The start button is
      enabled only when idle; the answer fields and the submit button exist
      only while solving; the end button only when finished. */
  datatype TrainingEvent =
    | StartClicked
    | ProblemsArrived(problems: AiReply<seq<DrillProblem>>)
    | AnswerTyped(index: nat, value: string)
    | SubmitClicked
    | GradeArrived(feedback: AiReply<string>)
    | EndClicked

  /** The training after one event, and the alert it shows, if any. */
  datatype Outcome = Outcome(training: Training, alert: Option<string>)

  /** Whether the current phase has a control (or a pending call) that
      reacts to the event. */
  predicate Handles(t: Training, e: TrainingEvent) {
    match e
    case StartClicked => t.phase == Idle
    case ProblemsArrived(_) => t.phase == Generating
    case AnswerTyped(i, _) => t.phase == Solving && i < |t.answers|
    case SubmitClicked => t.phase == Solving
    case GradeArrived(_) => t.phase == Grading
    case EndClicked => t.phase == Finished
  }

  /** One event of the training: start (with the no-mistakes alert), the
      generated problems or the generation alert, typing an answer, submit
      (with the blank-answer alert), the feedback or the grading alert, and
      the end button. */
  function TrainingStep(mistakes: seq<Mistake>, t: Training, e: TrainingEvent): (r: Outcome)
    ensures !Handles(t, e) ==> r == Outcome(t, None)
    ensures t.phase == Idle && e.StartClicked? && |mistakes| == 0 ==> r == Outcome(t, Some(NeedMistakesToTrain))
    ensures t.phase == Idle && e.StartClicked? && |mistakes| > 0 ==> r == Outcome(Training(Generating, [], t.answers, ""), None)
    ensures t.phase == Generating && e.ProblemsArrived? && e.problems.Replied? ==>
              r == Outcome(Training(Solving, e.problems.answer, Fill(|e.problems.answer|, ""), t.feedback), None)
    ensures t.phase == Generating && e == ProblemsArrived(Failed) ==> r == Outcome(t.(phase := Idle), Some(GenerationFailed))
    ensures t.phase == Solving && e.AnswerTyped? && e.index < |t.answers| ==>
              r == Outcome(t.(answers := t.answers[e.index := e.value]), None)
    ensures t.phase == Solving && e.SubmitClicked? && SomeBlank(t.answers) ==> r == Outcome(t, Some(AnswerEverything))
    ensures t.phase == Solving && e.SubmitClicked? && !SomeBlank(t.answers) ==> r == Outcome(t.(phase := Grading), None)
    ensures t.phase == Grading && e.GradeArrived? && e.feedback.Replied? ==>
              r == Outcome(t.(phase := Finished, feedback := e.feedback.answer), None)
    ensures t.phase == Grading && e == GradeArrived(Failed) ==> r == Outcome(t.(phase := Solving), Some(GradingFailed))
    ensures t.phase == Finished && e.EndClicked? ==> r == Outcome(t.(phase := Idle), None)
    ensures r.training.phase != t.phase ==>
              (t.phase, r.training.phase) in
                {(Idle, Generating), (Generating, Solving), (Generating, Idle),
                 (Solving, Grading), (Grading, Finished), (Grading, Solving), (Finished, Idle)}
    ensures r.alert.Some? ==> r.training.phase == t.phase || (t.phase, r.training.phase) in {(Generating, Idle), (Grading, Solving)}
  {
    match e
    case StartClicked =>
      if t.phase != Idle then Outcome(t, None)
      else if |mistakes| == 0 then Outcome(t, Some(NeedMistakesToTrain))
      else Outcome(Training(Generating, [], t.answers, ""), None)
    case ProblemsArrived(reply) =>
      if t.phase != Generating then Outcome(t, None)
      else (match reply
        case Replied(ps) => Outcome(Training(Solving, ps, Fill(|ps|, ""), t.feedback), None)
        case Failed => Outcome(t.(phase := Idle), Some(GenerationFailed)))
    case AnswerTyped(i, v) =>
      if t.phase == Solving && i < |t.answers| then Outcome(t.(answers := t.answers[i := v]), None)
      else Outcome(t, None)
    case SubmitClicked =>
      if t.phase != Solving then Outcome(t, None)
      else if SomeBlank(t.answers) then Outcome(t, Some(AnswerEverything))
      else Outcome(t.(phase := Grading), None)
    case GradeArrived(reply) =>
      if t.phase != Grading then Outcome(t, None)
      else (match reply
        case Replied(fb) => Outcome(t.(phase := Finished, feedback := fb), None)
        case Failed => Outcome(t.(phase := Solving), Some(GradingFailed)))
    case EndClicked =>
      if t.phase == Finished then Outcome(t.(phase := Idle), None) else Outcome(t, None)
  }

  /** The training's invariant: while problems are on screen there is one
      answer per problem, a generation starts from no problems, and the
      answers being graded or graded are all filled in. */
  ghost predicate TrainingValid(t: Training) {
    && (t.phase == Generating ==> t.problems == [])
    && (t.phase in {Solving, Grading, Finished} ==> |t.answers| == |t.problems|)
    && (t.phase in {Grading, Finished} ==> !SomeBlank(t.answers))
  }

  lemma TrainingStepPreservesValid(mistakes: seq<Mistake>, t: Training, e: TrainingEvent)
    requires TrainingValid(t)
    ensures TrainingValid(TrainingStep(mistakes, t, e).training)
  {
    match e
    case ProblemsArrived(reply) =>
    case AnswerTyped(i, v) =>
    case SubmitClicked =>
    case GradeArrived(reply) =>
    case _ =>
  }

  /** Fresh problems come with one empty answer each. */
  lemma ProblemsStartUnanswered(mistakes: seq<Mistake>, t: Training, ps: seq<DrillProblem>)
    requires t.phase == Generating
    ensures var r := TrainingStep(mistakes, t, ProblemsArrived(Replied(ps))).training;
            r.phase == Solving && r.problems == ps && |r.answers| == |ps| &&
            forall i :: 0 <= i < |ps| ==> r.answers[i] == ""
  {
  }

  /** Submitting goes to grading exactly when every answer is filled in. */
  lemma SubmitNeedsEveryAnswer(mistakes: seq<Mistake>, t: Training)
    requires t.phase == Solving
    ensures TrainingStep(mistakes, t, SubmitClicked).training.phase == Grading <==>
            forall i :: 0 <= i < |t.answers| ==> !IsBlank(t.answers[i])
  {
    if SomeBlank(t.answers) {
      assert TrainingStep(mistakes, t, SubmitClicked) == Outcome(t, Some(AnswerEverything));
    } else {
      assert TrainingStep(mistakes, t, SubmitClicked) == Outcome(t.(phase := Grading), None);
    }
  }

  /** A failed grading returns to solving with every problem and answer as
      it was, so nothing typed is lost. */
  lemma FailedGradingKeepsAnswers(mistakes: seq<Mistake>, t: Training)
    requires t.phase == Grading
    ensures TrainingStep(mistakes, t, GradeArrived(Failed)) == Outcome(t.(phase := Solving), Some(GradingFailed))
  {
  }

  /** With no mistakes recorded the training never leaves the idle state. */
  lemma {:induction false} NoMistakesNoTraining(t: Training, events: seq<TrainingEvent>)
    requires t.phase == Idle
    ensures RunTraining([], t, events).phase == Idle
    decreases |events|
  {
    if |events| > 0 {
      var next := TrainingStep([], t, events[0]).training;
      assert next.phase == Idle;
      NoMistakesNoTraining(next, events[1..]);
    }
  }

  function RunTraining(mistakes: seq<Mistake>, t: Training, events: seq<TrainingEvent>): Training
    decreases |events|
  {
    if |events| == 0 then t else RunTraining(mistakes, TrainingStep(mistakes, t, events[0]).training, events[1..])
  }

  /** Every state reached from the initial one is valid. */
  lemma {:induction false} RunTrainingValid(mistakes: seq<Mistake>, t: Training, events: seq<TrainingEvent>)
    requires TrainingValid(t)
    ensures TrainingValid(RunTraining(mistakes, t, events))
    decreases |events|
  {
    if |events| > 0 {
      TrainingStepPreservesValid(mistakes, t, events[0]);
      RunTrainingValid(mistakes, TrainingStep(mistakes, t, events[0]).training, events[1..]);
    }
  }

  /** The personality text of the grading prompt: unknown keys give nothing. */
  function GradingPersonality(ai: AiSettings): (r: string)
    ensures r == "" <==> (ai.personality == "custom" && ai.customPrompt == "") || !Persona.Known(ai.personality)
  {
    EmptyFallbackEmptiness(ai);
    Persona.ResolvePrompt(ai, "")
  }

  /** With an empty fallback the text is empty for a blank custom prompt and
      for every unknown key. */
  lemma EmptyFallbackEmptiness(ai: AiSettings)
    ensures Persona.ResolvePrompt(ai, "") == "" <==>
            (ai.personality == "custom" && ai.customPrompt == "") || !Persona.Known(ai.personality)
  {
    PersonalityTableShape();
    if ai.personality == "custom" && ai.customPrompt == "" {
      Persona.CustomWithoutPromptIsEmpty(ai, "");
    } else if Persona.Known(ai.personality) {
      Persona.EmptyOnlyForBlankCustom(ai, AiPersonalities[0].prompt);
      Persona.FallbackMattersOnlyForUnknownKeys(ai, "", AiPersonalities[0].prompt);
    }
  }
}

=== FILE: review.dfy ===
/** The review tab (`tabs/ReviewTab.tsx`): register a mistake (text and/or
    an image, plus its cause), receive a five-question drill, answer it and
    receive feedback. The tab shows one of three views, chosen from the
    mistake being worked on. Both AI calls are `AiReply` parameters and
    each handler is one atomic step. */
module Review {
  import opened Wrappers
  import opened Types
  import opened Seqs
  import opened Text
  import opened SharedState

  // ---------------------------------------------------------------------
  // The data URI of an uploaded picture

  /** The picture part of a request, as the tab builds it from a data URI. */
  datatype Part = InlineData(mimeType: Option<string>, data: Option<string>) | TextPart(text: string)

  const Base64Marker: string := ";base64,"

  /** Element `i` of a JavaScript array: `undefined` past the end. */
  function At(parts: seq<string>, i: nat): (r: Option<string>)
    ensures r.Some? <==> i < |parts|
    ensures r.Some? ==> r.value == parts[i]
  {
    if i < |parts| then Some(parts[i]) else None
  }

  /** The two `split`s of the tab: the text before `;base64,` is split at
      `:` and its second piece is the media type; the text after it is the
      payload. */
  function ImagePart(uri: string): (r: Part)
    ensures r.InlineData?
  {
    var halves := Split(uri, Base64Marker);
    InlineData(At(Split(halves[0], ":"), 1), At(halves, 1))
  }

  /** For a base64 data URI (`data:` media type `;base64,` payload, section
      3 of RFC 2397), the two splits recover the media type and the payload
      exactly, provided the media type has no colon and neither part
      contains the marker. */
  lemma ImagePartOfDataUri(mime: string, payload: string)
    requires !Contains(mime, ":") && !Contains(mime, Base64Marker) && !Contains(payload, Base64Marker)
    ensures ImagePart("data:" + mime + Base64Marker + payload) == InlineData(Some(mime), Some(payload))
  {
    var head := "data:" + mime;
    NotContainedAfterPrefix("data:", mime, Base64Marker);
    SplitAtFirst(head, Base64Marker, payload);
    SplitWithout(payload, Base64Marker);
    assert Split(head + Base64Marker + payload, Base64Marker) == [head, payload];
    assert !Contains("data", ":") by {
      ContainsIffOccurs("data", ":");
      forall i: nat ensures !OccursAt("data", ":", i) {
        if i < 4 {
          assert "data"[i..i + 1] == ["data"[i]];
        }
      }
    }
    assert head == "data" + ":" + mime;
    SplitAtFirst("data", ":", mime);
    SplitWithout(mime, ":");
    assert Split(head, ":") == ["data", mime];
  }

  /** A URI without the marker yields no payload: the request then carries
      an undefined `data` field. */
  lemma NoMarkerNoPayload(uri: string)
    requires !Contains(uri, Base64Marker)
    ensures ImagePart(uri).data.None?
  {
    SplitWithout(uri, Base64Marker);
  }

  /** A prefix none of whose characters starts `w` adds no occurrence of `w`. */
  lemma NotContainedAfterPrefix(p: string, s: string, w: string)
    requires |w| > 0 && !Contains(s, w)
    requires forall i :: 0 <= i < |p| ==> p[i] != w[0]
    ensures !Contains(p + s, w)
  {
    var t := p + s;
    ContainsIffOccurs(t, w);
    ContainsIffOccurs(s, w);
    forall i: nat | OccursAt(t, w, i)
      ensures false
    {
      assert t[i..i + |w|][0] == t[i];
      if i >= |p| {
        assert t[i..i + |w|] == s[i - |p|..i - |p| + |w|];
        assert OccursAt(s, w, i - |p|);
      }
    }
  }

  // ---------------------------------------------------------------------
  // The tab's state and views

  /** The registration form's fields; `image` holds the picture's data URI. */
  datatype Form = Form(problem: string, cause: string, image: Option<string>)

  /** The tab: the form, the mistake being worked on, the typed answers and
      the error line. */
  datatype ReviewState = ReviewState(form: Form, current: Option<Mistake>, answers: seq<string>, error: string)

  const EmptyForm: Form := Form("", "", None)
  const InitialReview: ReviewState := ReviewState(EmptyForm, None, [], "")

  datatype View = FormView | DrillView | FeedbackView

  /** The view on screen: the feedback once the mistake has (non-empty)
      feedback, else its drill, else the form. */
  function ViewOf(r: ReviewState): (v: View)
    ensures v == FeedbackView <==> r.current.Some? && Truthy(r.current.value.feedback)
    ensures v == DrillView <==> r.current.Some? && !Truthy(r.current.value.feedback) && r.current.value.drill.Some?
  {
    if r.current.Some? && Truthy(r.current.value.feedback) then FeedbackView
    else if r.current.Some? && r.current.value.drill.Some? then DrillView
    else FormView
  }

  const BothRequired: string := "問題(テキストまたは画像)と原因の両方を入力してください。"
  const DrillFailed: string := "ドリルの生成中にエラーが発生しました。もう一度お試しください。"
  const AnswerEverything: string := "すべての回答を入力してください。"
  const FeedbackFailed: string := "フィードバックの生成中にエラーが発生しました。"
  const ImageNotice: string := "ユーザーは添付の画像の問題で間違いをしました。\n\n"

  /** The drill button's guard: a problem (text that is not blank, or a
      picture) and a cause that is not blank. */
  predicate CanGenerate(f: Form) {
    (!IsBlank(f.problem) || Truthy(f.image)) && !IsBlank(f.cause)
  }

  /** The mistake recorded when the drill arrives: the form's text and
      cause as typed, the picture only when there is one, no answers,
      feedback or memo yet. */
  function NewMistake(f: Form, drill: seq<DrillProblem>, newId: string): (m: Mistake)
    ensures m.id == newId && m.problem == f.problem && m.cause == f.cause && m.drill == Some(drill)
    ensures m.problemImage.Some? <==> Truthy(f.image)
    ensures m.problemImage.Some? ==> m.problemImage == f.image
    ensures m.answers.None? && m.feedback.None? && m.memo.None?
  {
    Mistake(newId, f.problem, if Truthy(f.image) then f.image else None, f.cause, Some(drill), None, None, None)
  }

  /** The parts of the drill request: the picture first when there is one,
      then the prompt. */
  function DrillRequest(f: Form, prompt: string): (parts: seq<Part>)
    ensures |parts| >= 1 && parts[|parts| - 1] == TextPart(prompt)
    ensures |parts| == 2 <==> Truthy(f.image)
    ensures Truthy(f.image) ==> parts == [ImagePart(f.image.value), TextPart(prompt)]
    ensures !Truthy(f.image) ==> parts == [TextPart(prompt)]
  {
    if Truthy(f.image) then [ImagePart(f.image.value), TextPart(prompt)] else [TextPart(prompt)]
  }

  /** The parts of the grading request: with a picture, the picture first
      and the prompt behind a notice that the problem is in the picture. */
  function GradingRequest(m: Mistake, prompt: string): (parts: seq<Part>)
    ensures |parts| == 2 <==> Truthy(m.problemImage)
    ensures |parts| == 1 <==> !Truthy(m.problemImage)
    ensures Truthy(m.problemImage) ==> parts == [ImagePart(m.problemImage.value), TextPart(ImageNotice + prompt)]
    ensures !Truthy(m.problemImage) ==> parts == [TextPart(prompt)]
  {
    if Truthy(m.problemImage) then [ImagePart(m.problemImage.value), TextPart(ImageNotice + prompt)]
    else [TextPart(prompt)]
  }

  // ---------------------------------------------------------------------
  // Handlers

  /** The tab's state with the shared mistake list. */
  datatype Outcome = Outcome(review: ReviewState, mistakes: seq<Mistake>)

  /** `handleGenerateDrill`: refuse an incomplete form; on a drill, record a
      new mistake, make it current with one empty answer per question; on a
      failure, show the error and keep the form. */
  function GenerateDrill(r: ReviewState, mistakes: seq<Mistake>, reply: AiReply<seq<DrillProblem>>, newId: string)
    : (o: Outcome)
    ensures !CanGenerate(r.form) ==> o == Outcome(r.(error := BothRequired), mistakes)
    ensures CanGenerate(r.form) && reply.Failed? ==> o == Outcome(r.(error := DrillFailed), mistakes)
    ensures CanGenerate(r.form) && reply.Replied? ==>
              var m := NewMistake(r.form, reply.answer, newId);
              && o.review.current == Some(m) && o.review.form == r.form && o.review.error == ""
              && o.review.answers == Fill(|reply.answer|, "")
              && o.mistakes == AddOrUpdateMistake(mistakes, m)
  {
    if !CanGenerate(r.form) then Outcome(r.(error := BothRequired), mistakes)
    else match reply
      case Failed => Outcome(r.(error := DrillFailed), mistakes)
      case Replied(drill) =>
        var m := NewMistake(r.form, drill, newId);
        Outcome(r.(current := Some(m), answers := Fill(|drill|, ""), error := ""), AddOrUpdateMistake(mistakes, m))
  }

  /** `handleAnswerChange` for one of the answer fields on screen. */
  function ChangeAnswer(r: ReviewState, i: nat, value: string): (s: ReviewState)
    ensures i < |r.answers| ==> s == r.(answers := r.answers[i := value])
    ensures i >= |r.answers| ==> s == r
  {
    if i < |r.answers| then r.(answers := r.answers[i := value]) else r
  }

  /** `handleSubmitAnswers`: nothing without a current drill; refuse while
      an answer is blank; on feedback, store the answers and the feedback in
      the current mistake and upsert it under its own id. */
  function SubmitAnswers(r: ReviewState, mistakes: seq<Mistake>, reply: AiReply<string>): (o: Outcome)
    ensures r.current.None? || r.current.value.drill.None? ==> o == Outcome(r, mistakes)
    ensures r.current.Some? && r.current.value.drill.Some? && SomeBlank(r.answers) ==>
              o == Outcome(r.(error := AnswerEverything), mistakes)
    ensures r.current.Some? && r.current.value.drill.Some? && !SomeBlank(r.answers) ==>
              && (reply.Failed? ==> o == Outcome(r.(error := FeedbackFailed), mistakes))
              && (reply.Replied? ==>
                    var m := r.current.value.(answers := Some(r.answers), feedback := Some(reply.answer));
                    o == Outcome(r.(current := Some(m), error := ""), AddOrUpdateMistake(mistakes, m)))
  {
    if r.current.None? || r.current.value.drill.None? then Outcome(r, mistakes)
    else if SomeBlank(r.answers) then Outcome(r.(error := AnswerEverything), mistakes)
    else match reply
      case Failed => Outcome(r.(error := FeedbackFailed), mistakes)
      case Replied(feedback) =>
        var m := r.current.value.(answers := Some(r.answers), feedback := Some(feedback));
        Outcome(r.(current := Some(m), error := ""), AddOrUpdateMistake(mistakes, m))
  }

  /** `resetForm`: everything back to the empty form. */
  function ResetForm(r: ReviewState): (s: ReviewState)
    ensures s == InitialReview && ViewOf(s) == FormView
  {
    InitialReview
  }

  /** A reset form asks for both fields again: generating from it is refused
      with the message and records nothing. */
  lemma ResetFormRefusesGenerate(r: ReviewState, mistakes: seq<Mistake>, reply: AiReply<seq<DrillProblem>>, newId: string)
    ensures GenerateDrill(ResetForm(r), mistakes, reply, newId) == Outcome(InitialReview.(error := BothRequired), mistakes)
  {
  }

  /** What the user does. Each view offers only its own controls. */
  datatype ReviewEvent =
    | ProblemTyped(problem: string)
    | CauseTyped(cause: string)
    | ImageLoaded(dataUri: string)
    | ImageRemoved
    | GenerateClicked(drill: AiReply<seq<DrillProblem>>, newId: string)
    | AnswerTyped(index: nat, value: string)
    | SubmitClicked(feedback: AiReply<string>)
    | NewMistakeClicked

  /** Whether the view on screen has the control the event stands for: the
      form its fields and パーソナルドリルを生成, the drill its answer boxes
      and 答え合わせをする, the feedback its 新しいミスを登録する button. */
  predicate Handles(r: ReviewState, e: ReviewEvent) {
    match ViewOf(r)
    case FormView => e.ProblemTyped? || e.CauseTyped? || e.ImageLoaded? || e.ImageRemoved? || e.GenerateClicked?
    case DrillView => e.AnswerTyped? || e.SubmitClicked?
    case FeedbackView => e.NewMistakeClicked?
  }

  /** One event: the form's fields take what is typed or loaded verbatim,
      the generate button asks for the drill, the drill's boxes take answers,
      答え合わせをする asks for the grading, and 新しいミスを登録する empties
      the form. A control the view does not show changes nothing. */
  function Step(r: ReviewState, mistakes: seq<Mistake>, e: ReviewEvent): (o: Outcome)
    ensures ViewOf(o.review) != ViewOf(r) ==>
              (ViewOf(r), ViewOf(o.review)) in {(FormView, DrillView), (DrillView, FeedbackView), (FeedbackView, FormView)}
    ensures o.mistakes != mistakes ==> e.GenerateClicked? || e.SubmitClicked?
    ensures !Handles(r, e) ==> o == Outcome(r, mistakes)
    ensures ViewOf(r) == FormView && e.ProblemTyped? ==> o == Outcome(r.(form := r.form.(problem := e.problem)), mistakes)
    ensures ViewOf(r) == FormView && e.CauseTyped? ==> o == Outcome(r.(form := r.form.(cause := e.cause)), mistakes)
    ensures ViewOf(r) == FormView && e.ImageLoaded? ==> o == Outcome(r.(form := r.form.(image := Some(e.dataUri))), mistakes)
    ensures ViewOf(r) == FormView && e.ImageRemoved? ==> o == Outcome(r.(form := r.form.(image := None)), mistakes)
    ensures ViewOf(r) == FormView && e.GenerateClicked? ==> o == GenerateDrill(r, mistakes, e.drill, e.newId)
    ensures ViewOf(r) == DrillView && e.AnswerTyped? ==> o == Outcome(ChangeAnswer(r, e.index, e.value), mistakes)
    ensures ViewOf(r) == DrillView && e.SubmitClicked? ==> o == SubmitAnswers(r, mistakes, e.feedback)
    ensures ViewOf(r) == FeedbackView && e.NewMistakeClicked? ==> o == Outcome(ResetForm(r), mistakes)
  {
    match ViewOf(r)
    case FormView =>
      (match e
        case ProblemTyped(p) => Outcome(r.(form := r.form.(problem := p)), mistakes)
        case CauseTyped(c) => Outcome(r.(form := r.form.(cause := c)), mistakes)
        case ImageLoaded(uri) => Outcome(r.(form := r.form.(image := Some(uri))), mistakes)
        case ImageRemoved => Outcome(r.(form := r.form.(image := None)), mistakes)
        case GenerateClicked(reply, newId) => GenerateDrill(r, mistakes, reply, newId)
        case _ => Outcome(r, mistakes))
    case DrillView =>
      (match e
        case AnswerTyped(i, v) => Outcome(ChangeAnswer(r, i, v), mistakes)
        case SubmitClicked(reply) => SubmitAnswers(r, mistakes, reply)
        case _ => Outcome(r, mistakes))
    case FeedbackView =>
      (match e
        case NewMistakeClicked => Outcome(ResetForm(r), mistakes)
        case _ => Outcome(r, mistakes))
  }

  // ---------------------------------------------------------------------
  // Properties

  /** The drill guard refuses exactly the incomplete forms, and refusing
      records nothing. */
  lemma GuardRefusesIncompleteForms(r: ReviewState, mistakes: seq<Mistake>, reply: AiReply<seq<DrillProblem>>, newId: string)
    ensures GenerateDrill(r, mistakes, reply, newId).review.error == BothRequired <==> !CanGenerate(r.form)
    ensures !CanGenerate(r.form) ==> GenerateDrill(r, mistakes, reply, newId).mistakes == mistakes
  {
  }

  /** The invariant linking the tab to the shared list: in the drill and
      feedback views the current mistake is the last one in the list, no
      earlier entry shares its id, and there is one answer per question. */
  ghost predicate Linked(r: ReviewState, mistakes: seq<Mistake>) {
    ViewOf(r) != FormView ==>
      && |mistakes| > 0 && r.current == Some(mistakes[|mistakes| - 1])
      && (forall i :: 0 <= i < |mistakes| - 1 ==> mistakes[i].id != mistakes[|mistakes| - 1].id)
      && r.current.value.drill.Some? && |r.answers| == |r.current.value.drill.value|
  }

  /** Ids not used by any recorded mistake. */
  ghost predicate FreshId(mistakes: seq<Mistake>, id: string) {
    forall i :: 0 <= i < |mistakes| ==> mistakes[i].id != id
  }

  /** Every step keeps the tab linked to the list, given a fresh id for a
      new mistake. */
  lemma StepKeepsLinked(r: ReviewState, mistakes: seq<Mistake>, e: ReviewEvent)
    requires Linked(r, mistakes)
    requires e.GenerateClicked? ==> FreshId(mistakes, e.newId)
    ensures Linked(Step(r, mistakes, e).review, Step(r, mistakes, e).mistakes)
  {
    match ViewOf(r)
    case FormView => FormStepKeepsLinked(r, mistakes, e);
    case DrillView => DrillStepKeepsLinked(r, mistakes, e);
    case FeedbackView => FeedbackStepKeepsLinked(r, mistakes, e);
  }

  /** In the form view only a generated drill links the tab, to the entry it
      appends; every other control leaves the tab in the form view. */
  lemma FormStepKeepsLinked(r: ReviewState, mistakes: seq<Mistake>, e: ReviewEvent)
    requires ViewOf(r) == FormView
    requires e.GenerateClicked? ==> FreshId(mistakes, e.newId)
    ensures Linked(Step(r, mistakes, e).review, Step(r, mistakes, e).mistakes)
  {
    match e
    case ProblemTyped(p) =>
      assert Step(r, mistakes, e) == Outcome(r.(form := r.form.(problem := p)), mistakes);
    case CauseTyped(c) =>
      assert Step(r, mistakes, e) == Outcome(r.(form := r.form.(cause := c)), mistakes);
    case ImageLoaded(uri) =>
      assert Step(r, mistakes, e) == Outcome(r.(form := r.form.(image := Some(uri))), mistakes);
    case ImageRemoved =>
      assert Step(r, mistakes, e) == Outcome(r.(form := r.form.(image := None)), mistakes);
    case GenerateClicked(reply, newId) =>
      assert Step(r, mistakes, e) == GenerateDrill(r, mistakes, reply, newId);
      GenerateKeepsLinked(r, mistakes, reply, newId);
    case _ =>
      assert Step(r, mistakes, e) == Outcome(r, mistakes);
  }

  /** Generating from the form view either stays in it or links the tab to
      the appended entry. */
  lemma GenerateKeepsLinked(r: ReviewState, mistakes: seq<Mistake>, reply: AiReply<seq<DrillProblem>>, newId: string)
    requires ViewOf(r) == FormView && FreshId(mistakes, newId)
    ensures Linked(GenerateDrill(r, mistakes, reply, newId).review, GenerateDrill(r, mistakes, reply, newId).mistakes)
  {
    if CanGenerate(r.form) && reply.Replied? {
      var drill := reply.answer;
      GenerateAppends(r, mistakes, drill, newId);
      var m := NewMistake(r.form, drill, newId);
      var ms := mistakes + [m];
      assert ms[|ms| - 1] == m;
      assert forall i :: 0 <= i < |ms| - 1 ==> ms[i] == mistakes[i];
      assert |Fill(|drill|, "")| == |drill|;
    }
  }

  /** In the drill view typing keeps the link and grading replaces the last
      entry in place. */
  lemma DrillStepKeepsLinked(r: ReviewState, mistakes: seq<Mistake>, e: ReviewEvent)
    requires Linked(r, mistakes) && ViewOf(r) == DrillView
    ensures Linked(Step(r, mistakes, e).review, Step(r, mistakes, e).mistakes)
  {
    match e
    case AnswerTyped(i, v) =>
      assert Step(r, mistakes, e) == Outcome(ChangeAnswer(r, i, v), mistakes);
      TypingKeepsLinked(r, mistakes, i, v);
    case SubmitClicked(reply) =>
      assert Step(r, mistakes, e) == SubmitAnswers(r, mistakes, reply);
      SubmitReplacesLast(r, mistakes, reply);
    case _ =>
      assert Step(r, mistakes, e) == Outcome(r, mistakes);
  }

  /** Typing an answer changes neither the current mistake nor the number
      of answers. */
  lemma TypingKeepsLinked(r: ReviewState, mistakes: seq<Mistake>, i: nat, v: string)
    requires Linked(r, mistakes) && ViewOf(r) == DrillView
    ensures ChangeAnswer(r, i, v).current == r.current && |ChangeAnswer(r, i, v).answers| == |r.answers|
    ensures Linked(ChangeAnswer(r, i, v), mistakes)
  {
    var s := ChangeAnswer(r, i, v);
    assert s.current == r.current && |s.answers| == |r.answers|;
    assert ViewOf(s) == DrillView;
  }

  /** In the feedback view only the reset leaves, back to the form. */
  lemma FeedbackStepKeepsLinked(r: ReviewState, mistakes: seq<Mistake>, e: ReviewEvent)
    requires Linked(r, mistakes) && ViewOf(r) == FeedbackView
    ensures Linked(Step(r, mistakes, e).review, Step(r, mistakes, e).mistakes)
  {
    if e.NewMistakeClicked? {
      assert Step(r, mistakes, e) == Outcome(InitialReview, mistakes);
    } else {
      assert Step(r, mistakes, e) == Outcome(r, mistakes);
    }
  }

  /** Grading the current drill replaces its entry at the end of the list
      rather than adding a second one. */
  lemma SubmitReplacesLast(r: ReviewState, mistakes: seq<Mistake>, reply: AiReply<string>)
    requires Linked(r, mistakes) && ViewOf(r) == DrillView
    ensures var o := SubmitAnswers(r, mistakes, reply);
            && |o.mistakes| == |mistakes| && o.mistakes[..|mistakes| - 1] == mistakes[..|mistakes| - 1]
            && o.review.current == Some(o.mistakes[|mistakes| - 1])
    ensures Linked(SubmitAnswers(r, mistakes, reply).review, SubmitAnswers(r, mistakes, reply).mistakes)
  {
    var n := |mistakes| - 1;
    var o := SubmitAnswers(r, mistakes, reply);
    if SomeBlank(r.answers) {
      assert o == Outcome(r.(error := AnswerEverything), mistakes);
    } else if reply.Failed? {
      assert o == Outcome(r.(error := FeedbackFailed), mistakes);
    } else {
      var m := r.current.value.(answers := Some(r.answers), feedback := Some(reply.answer));
      var l := mistakes[n := m];
      GradedInPlace(r, mistakes, reply.answer);
      assert o == Outcome(r.(current := Some(m), error := ""), l);
      assert l[..n] == mistakes[..n];
      assert forall j :: 0 <= j < n ==> l[j] == mistakes[j];
    }
  }

  /** Feedback on a complete drill overwrites the last entry, which holds
      the current mistake under its own id. */
  lemma GradedInPlace(r: ReviewState, mistakes: seq<Mistake>, feedback: string)
    requires Linked(r, mistakes) && ViewOf(r) == DrillView
    requires !SomeBlank(r.answers)
    ensures var m := r.current.value.(answers := Some(r.answers), feedback := Some(feedback));
            SubmitAnswers(r, mistakes, Replied(feedback)) ==
            Outcome(r.(current := Some(m), error := ""), mistakes[|mistakes| - 1 := m])
  {
    var n := |mistakes| - 1;
    var m := r.current.value.(answers := Some(r.answers), feedback := Some(feedback));
    assert mistakes[n].id == m.id;
    assert forall j :: 0 <= j < n ==> mistakes[j].id != m.id;
  }

  /** A full round from the empty tab: registering a complete form, answering
      every question and receiving feedback leaves the list with exactly one
      new entry, holding the form, the drill, the answers and the feedback. */
  lemma RegisterAndGrade(mistakes: seq<Mistake>, f: Form, drill: seq<DrillProblem>, newId: string,
                         answers: seq<string>, feedback: string)
    requires CanGenerate(f) && FreshId(mistakes, newId)
    requires |answers| == |drill| && !SomeBlank(answers)
    ensures var r1 := GenerateDrill(InitialReview.(form := f), mistakes, Replied(drill), newId);
            var r2 := SubmitAnswers(r1.review.(answers := answers), r1.mistakes, Replied(feedback));
            && r2.mistakes == mistakes + [NewMistake(f, drill, newId).(answers := Some(answers), feedback := Some(feedback))]
            && ViewOf(r2.review) == (if feedback == "" then DrillView else FeedbackView)
  {
    var m := NewMistake(f, drill, newId);
    var r0 := InitialReview.(form := f);
    GenerateAppends(r0, mistakes, drill, newId);
    var r1 := GenerateDrill(r0, mistakes, Replied(drill), newId);
    var s := r0.(current := Some(m), answers := answers, error := "");
    assert r1.review.(answers := answers) == s;
    assert r1.mistakes == mistakes + [m];
    assert ViewOf(s) == DrillView;
    GradeReplacesLast(s, mistakes, feedback);
    var graded := m.(answers := Some(answers), feedback := Some(feedback));
    var r2 := SubmitAnswers(s, mistakes + [m], Replied(feedback));
    assert r2 == Outcome(s.(current := Some(graded), error := ""), mistakes + [graded]);
    assert Truthy(graded.feedback) <==> feedback != "";
  }

  /** A drill under a fresh id is appended to the list and becomes current. */
  lemma GenerateAppends(r: ReviewState, mistakes: seq<Mistake>, drill: seq<DrillProblem>, newId: string)
    requires CanGenerate(r.form) && FreshId(mistakes, newId)
    ensures GenerateDrill(r, mistakes, Replied(drill), newId) ==
            Outcome(r.(current := Some(NewMistake(r.form, drill, newId)), answers := Fill(|drill|, ""), error := ""),
                    mistakes + [NewMistake(r.form, drill, newId)])
  {
  }

  /** Feedback on a complete drill whose mistake was appended last replaces
      that last entry. */
  lemma GradeReplacesLast(r: ReviewState, mistakes: seq<Mistake>, feedback: string)
    requires ViewOf(r) == DrillView && FreshId(mistakes, r.current.value.id)
    requires !SomeBlank(r.answers)
    ensures var m := r.current.value.(answers := Some(r.answers), feedback := Some(feedback));
            SubmitAnswers(r, mistakes + [r.current.value], Replied(feedback)) ==
            Outcome(r.(current := Some(m), error := ""), mistakes + [m])
  {
    var m := r.current.value.(answers := Some(r.answers), feedback := Some(feedback));
    var l := mistakes + [r.current.value];
    assert l[|mistakes|].id == m.id;
    assert l[|mistakes| := m] == mistakes + [m];
  }
}

=== FILE: seqs.dfy ===
/** The JavaScript array methods the components use (`findIndex`, `find`,
    `filter`, `some`, `Array(n).fill`), as functions on sequences. */
module Seqs {
  import opened Wrappers

  /** No value occurs twice. */
  ghost predicate Distinct<T>(s: seq<T>) {
    forall i, j :: 0 <= i < j < |s| ==> s[i] != s[j]
  }

  /** `s.findIndex(p)`, with `None` for the source's `-1`. */
  function FirstIndex<T>(s: seq<T>, p: T -> bool): (r: Option<nat>)
    ensures r.Some? ==> r.value < |s| && p(s[r.value])
    ensures r.Some? ==> forall j :: 0 <= j < r.value ==> !p(s[j])
    ensures r.None? ==> forall j :: 0 <= j < |s| ==> !p(s[j])
  {
    if |s| == 0 then None
    else if p(s[0]) then Some(0)
    else match FirstIndex(s[1..], p)
      case None => None
      case Some(i) => Some(i + 1)
  }

  /** `s.find(p)`: the first element satisfying `p`, if any. */
  function Find<T>(s: seq<T>, p: T -> bool): (r: Option<T>)
    ensures r.Some? <==> exists i :: 0 <= i < |s| && p(s[i])
    ensures r.Some? ==> exists i :: 0 <= i < |s| && s[i] == r.value && p(s[i]) &&
                          forall j :: 0 <= j < i ==> !p(s[j])
  {
    match FirstIndex(s, p)
    case None => None
    case Some(i) => Some(s[i])
  }

  /** `s.some(p)`. */
  predicate Any<T>(s: seq<T>, p: T -> bool) {
    FirstIndex(s, p).Some?
  }

  /** `s.filter(p)`: the elements satisfying `p`, in their original order. */
  function Filter<T>(s: seq<T>, p: T -> bool): (r: seq<T>)
    ensures |r| <= |s|
  {
    if |s| == 0 then []
    else if p(s[0]) then [s[0]] + Filter(s[1..], p)
    else Filter(s[1..], p)
  }

  /** The filter holds exactly the elements that pass. */
  lemma {:induction false} FilterMembers<T>(s: seq<T>, p: T -> bool)
    ensures forall x :: x in Filter(s, p) ==> x in s && p(x)
    ensures forall x :: x in s && p(x) ==> x in Filter(s, p)
    decreases |s|
  {
    if |s| > 0 {
      FilterMembers(s[1..], p);
      assert s == [s[0]] + s[1..];
    }
  }

  /** Filtering distributes over concatenation: this is what "keeps the rest
      in their original order" means. */
  lemma {:induction false} FilterConcat<T>(a: seq<T>, b: seq<T>, p: T -> bool)
    ensures Filter(a + b, p) == Filter(a, p) + Filter(b, p)
    decreases |a|
  {
    if |a| == 0 {
      assert a + b == b;
    } else {
      assert (a + b)[0] == a[0];
      assert (a + b)[1..] == a[1..] + b;
      FilterConcat(a[1..], b, p);
    }
  }

  /** A sequence whose every element passes is its own filter. */
  lemma {:induction false} FilterKeepsAll<T>(s: seq<T>, p: T -> bool)
    requires forall i :: 0 <= i < |s| ==> p(s[i])
    ensures Filter(s, p) == s
    decreases |s|
  {
    if |s| > 0 {
      FilterKeepsAll(s[1..], p);
    }
  }

  /** Filtering twice by the same predicate filters once. */
  lemma FilterIdempotent<T>(s: seq<T>, p: T -> bool)
    ensures Filter(Filter(s, p), p) == Filter(s, p)
  {
    var r := Filter(s, p);
    FilterMembers(s, p);
    forall i | 0 <= i < |r|
      ensures p(r[i])
    {
      assert r[i] in Filter(s, p);
    }
    FilterKeepsAll(r, p);
  }

  /** Removing the one element at `k` by filtering, when only it fails `p`. */
  lemma {:induction false} FilterDropsOne<T>(s: seq<T>, k: nat, p: T -> bool)
    requires k < |s| && !p(s[k])
    requires forall i :: 0 <= i < |s| && i != k ==> p(s[i])
    ensures Filter(s, p) == s[..k] + s[k + 1..]
    decreases k
  {
    var tail := s[1..];
    forall i | 0 <= i < |tail| && i + 1 != k
      ensures p(tail[i])
    {
      assert tail[i] == s[i + 1];
    }
    if k == 0 {
      assert Filter(s, p) == Filter(tail, p);
      FilterKeepsAll(tail, p);
    } else {
      assert Filter(s, p) == [s[0]] + Filter(tail, p);
      FilterDropsOne(tail, k - 1, p);
      assert s[..k] + s[k + 1..] == [s[0]] + (tail[..k - 1] + tail[k..]);
    }
  }

  /** `Array(n).fill(x)`. */
  function Fill<T>(n: nat, x: T): (r: seq<T>)
    ensures |r| == n
    ensures forall i :: 0 <= i < n ==> r[i] == x
  {
    seq(n, _ => x)
  }
}

=== FILE: settings.dfy ===
/** The settings tab (`tabs/SettingsTab.tsx`): local copies of the profile
    and the AI settings edited field by field, the learning-preference
    toggles, and a save that refuses names containing a listed word. The
    three-second timers that reset the save status are an explicit event. */
module Settings {
  import opened Wrappers
  import opened Types
  import opened Seqs
  import opened Text
  import opened Constants

  // ---------------------------------------------------------------------
  // The word filter

  /** Whether any word of `words`, lower-cased, occurs in `lowered`. */
  function AnyWordIn(lowered: string, words: seq<string>): (b: bool)
    ensures b <==> exists i :: 0 <= i < |words| && Contains(lowered, Lower(words[i]))
    decreases |words|
  {
    if |words| == 0 then false
    else Contains(lowered, Lower(words[0])) || AnyWordIn(lowered, words[1..])
  }

  /** `checkProfanity`: an empty text is never flagged; otherwise the text
      is flagged when, ignoring case, it contains a listed word. */
  function CheckProfanity(text: string): (b: bool)
    ensures b <==> text != "" && exists i :: 0 <= i < |ProfanityList| && Contains(Lower(text), Lower(ProfanityList[i]))
  {
    text != "" && AnyWordIn(Lower(text), ProfanityList)
  }

  /** Lower-casing distributes over concatenation. */
  lemma LowerConcat(a: string, b: string)
    ensures Lower(a + b) == Lower(a) + Lower(b)
  {
  }

  /** The filter ignores case. */
  lemma ProfanityIgnoresCase(text: string)
    ensures CheckProfanity(Lower(text)) == CheckProfanity(text)
  {
    LowerIdempotent(text);
  }

  /** Every listed word is itself flagged. */
  lemma ListedWordsFlagged(k: nat)
    requires k < |ProfanityList|
    ensures CheckProfanity(ProfanityList[k])
  {
    var w := ProfanityList[k];
    ProfanityListShape();
    assert w in ProfanityList;
    ContainsSelf(Lower(w));
  }

  /** Text around a flagged text does not hide it. */
  lemma ProfanityInContext(a: string, t: string, b: string)
    requires CheckProfanity(t)
    ensures CheckProfanity(a + t + b)
  {
    var i :| 0 <= i < |ProfanityList| && Contains(Lower(t), Lower(ProfanityList[i]));
    LowerConcat(a, t);
    LowerConcat(a + t, b);
    ContainsInContext(Lower(a), Lower(t), Lower(b), Lower(ProfanityList[i]));
  }

  // ---------------------------------------------------------------------
  // Editing

  /** The text fields of the profile form (`e.target.name`). */
  datatype UserField = NameField | GradeField | GenderField | MbtiField | BioField

  /** `handleUserInfoChange`: set the named field to the typed value. */
  function SetUserField(u: UserInfo, f: UserField, v: string): (r: UserInfo)
    ensures f == NameField ==> r == u.(name := v)
    ensures f == GradeField ==> r == u.(grade := v)
    ensures f == GenderField ==> r == u.(gender := v)
    ensures f == MbtiField ==> r == u.(mbti := v)
    ensures f == BioField ==> r == u.(bio := Some(v))
    ensures r.learningPreferences == u.learningPreferences
  {
    match f
    case NameField => u.(name := v)
    case GradeField => u.(grade := v)
    case GenderField => u.(gender := v)
    case MbtiField => u.(mbti := v)
    case BioField => u.(bio := Some(v))
  }

  /** What a profile field holds; the bio may be absent. */
  function UserFieldValue(u: UserInfo, f: UserField): Option<string> {
    match f
    case NameField => Some(u.name)
    case GradeField => Some(u.grade)
    case GenderField => Some(u.gender)
    case MbtiField => Some(u.mbti)
    case BioField => u.bio
  }

  /** Setting a field is read back from that field, leaves every other field
      as it was, and changes the profile exactly when the field held
      something else. */
  lemma UserFieldGetSet(u: UserInfo, f: UserField, g: UserField, v: string)
    ensures UserFieldValue(SetUserField(u, f, v), f) == Some(v)
    ensures g != f ==> UserFieldValue(SetUserField(u, f, v), g) == UserFieldValue(u, g)
    ensures SetUserField(u, f, v) == u <==> UserFieldValue(u, f) == Some(v)
  {
  }

  /** The fields of the AI form (`e.target.name`). */
  datatype AiField = AiNameField | FirstPersonField | PersonalityField | CustomPromptField

  /** `handleAiSettingsChange`: set the named field. */
  function SetAiField(a: AiSettings, f: AiField, v: string): (r: AiSettings)
    ensures f == AiNameField ==> r == a.(name := v)
    ensures f == FirstPersonField ==> r == a.(firstPerson := v)
    ensures f == PersonalityField ==> r == a.(personality := v)
    ensures f == CustomPromptField ==> r == a.(customPrompt := v)
  {
    match f
    case AiNameField => a.(name := v)
    case FirstPersonField => a.(firstPerson := v)
    case PersonalityField => a.(personality := v)
    case CustomPromptField => a.(customPrompt := v)
  }

  /** What an AI field holds. */
  function AiFieldValue(a: AiSettings, f: AiField): string {
    match f
    case AiNameField => a.name
    case FirstPersonField => a.firstPerson
    case PersonalityField => a.personality
    case CustomPromptField => a.customPrompt
  }

  /** The same three facts for the AI form. */
  lemma AiFieldGetSet(a: AiSettings, f: AiField, g: AiField, v: string)
    ensures AiFieldValue(SetAiField(a, f, v), f) == v
    ensures g != f ==> AiFieldValue(SetAiField(a, f, v), g) == AiFieldValue(a, g)
    ensures SetAiField(a, f, v) == a <==> AiFieldValue(a, f) == v
  {
  }

  /** `handlePreferenceChange`: remove the key when it is chosen (every copy
      of it), add it at the end otherwise. A missing list counts as empty. */
  function TogglePreference(u: UserInfo, key: string): (r: UserInfo)
    ensures r.learningPreferences.Some?
    ensures key in r.learningPreferences.value <==> key !in u.learningPreferences.GetOr([])
    ensures forall k :: k != key ==> (k in r.learningPreferences.value <==> k in u.learningPreferences.GetOr([]))
    ensures r.(learningPreferences := u.learningPreferences) == u
    ensures key !in u.learningPreferences.GetOr([]) ==>
              r.learningPreferences == Some(u.learningPreferences.GetOr([]) + [key])
    ensures key in u.learningPreferences.GetOr([]) ==>
              r.learningPreferences == Some(Filter(u.learningPreferences.GetOr([]), OtherThan(key)))
  {
    var prefs := u.learningPreferences.GetOr([]);
    FilterMembers(prefs, OtherThan(key));
    var next := if key in prefs then Filter(prefs, OtherThan(key)) else prefs + [key];
    u.(learningPreferences := Some(next))
  }

  /** The filter that drops one key. */
  function OtherThan(key: string): string -> bool {
    (p: string) => p != key
  }

  /** Toggling an unchosen key on and off again restores the list (a
      missing list comes back as an empty one). */
  lemma ToggleTwiceRestores(u: UserInfo, key: string)
    requires key !in u.learningPreferences.GetOr([])
    ensures TogglePreference(TogglePreference(u, key), key) ==
            u.(learningPreferences := Some(u.learningPreferences.GetOr([])))
  {
    var prefs := u.learningPreferences.GetOr([]);
    var p := OtherThan(key);
    assert TogglePreference(u, key).learningPreferences == Some(prefs + [key]);
    assert key in prefs + [key] by {
      assert (prefs + [key])[|prefs|] == key;
    }
    FilterConcat(prefs, [key], p);
    forall i | 0 <= i < |prefs|
      ensures p(prefs[i])
    {
      assert prefs[i] in prefs;
    }
    FilterKeepsAll(prefs, p);
    assert Filter([key], p) == [] by {
      assert [key][1..] == [];
    }
    var t := TogglePreference(u, key);
    assert t.learningPreferences.GetOr([]) == prefs + [key];
    assert Filter(prefs + [key], p) == prefs;
    assert TogglePreference(t, key) == t.(learningPreferences := Some(prefs));
  }

  /** Toggling keeps the chosen keys free of duplicates. */
  lemma ToggleKeepsDistinct(u: UserInfo, key: string)
    requires Distinct(u.learningPreferences.GetOr([]))
    ensures Distinct(TogglePreference(u, key).learningPreferences.value)
  {
    var prefs := u.learningPreferences.GetOr([]);
    if key in prefs {
      FilterKeepsDistinct(prefs, OtherThan(key));
    }
  }

  lemma {:induction false} FilterKeepsDistinct<T>(s: seq<T>, p: T -> bool)
    requires Distinct(s)
    ensures Distinct(Filter(s, p))
    decreases |s|
  {
    if |s| > 0 {
      assert Distinct(s[1..]) by {
        forall i, j | 0 <= i < j < |s[1..]|
          ensures s[1..][i] != s[1..][j]
        {
          assert s[1..][i] == s[i + 1] && s[1..][j] == s[j + 1];
        }
      }
      FilterKeepsDistinct(s[1..], p);
      FilterMembers(s[1..], p);
      if p(s[0]) {
        assert s[0] !in s[1..] by {
          forall k | 0 <= k < |s[1..]|
            ensures s[1..][k] != s[0]
          {
            assert s[1..][k] == s[k + 1];
          }
        }
      }
    }
  }

  // ---------------------------------------------------------------------
  // Saving

  datatype SaveStatus = Idle | Success | Error

  /** The tab: the local copies, the save status and the error line. */
  datatype SettingsState = SettingsState(user: UserInfo, ai: AiSettings, status: SaveStatus, errorMessage: string)

  const Inappropriate: string := "ニックネーム、AI名、または一人称に不適切な単語が含まれています。"

  /** The tab as opened, and after either prop changes (the two effects
      copy the stored values over the local ones). */
  function Open(user: UserInfo, ai: AiSettings): (s: SettingsState)
    ensures s.user == user && s.ai == ai && s.status == Idle && s.errorMessage == ""
  {
    SettingsState(user, ai, Idle, "")
  }

  /** `isChanged`: a local copy differs from the stored one. */
  predicate IsChanged(user: UserInfo, ai: AiSettings, s: SettingsState) {
    s.user != user || s.ai != ai
  }

  /** Whether a save is refused for a listed word in the nickname, the AI's
      name or its first person. */
  predicate Rejected(s: SettingsState) {
    CheckProfanity(s.user.name) || CheckProfanity(s.ai.name) || CheckProfanity(s.ai.firstPerson)
  }

  /** The save button, which is shown only while idle and enabled only when
      something changed: a refused save shows the message; an accepted one
      hands both local copies to the main screen. */
  function Save(user: UserInfo, ai: AiSettings, s: SettingsState): (r: (SettingsState, Option<(UserInfo, AiSettings)>))
    ensures s.status != Idle || !IsChanged(user, ai, s) ==> r == (s, None)
    ensures s.status == Idle && IsChanged(user, ai, s) && Rejected(s) ==>
              r == (s.(status := Error, errorMessage := Inappropriate), None)
    ensures s.status == Idle && IsChanged(user, ai, s) && !Rejected(s) ==>
              r == (s.(status := Success), Some((s.user, s.ai)))
  {
    if s.status != Idle || !IsChanged(user, ai, s) then (s, None)
    else if Rejected(s) then (s.(status := Error, errorMessage := Inappropriate), None)
    else (s.(status := Success), Some((s.user, s.ai)))
  }

  /** The three-second timer: back to idle, clearing the message after a
      refusal. */
  function TimerFired(s: SettingsState): (r: SettingsState)
    ensures r.status == Idle && r.user == s.user && r.ai == s.ai
    ensures s.status == Error ==> r.errorMessage == ""
    ensures s.status != Error ==> r.errorMessage == s.errorMessage
  {
    match s.status
    case Error => s.(status := Idle, errorMessage := "")
    case _ => s.(status := Idle)
  }

  /** Editing one field of a freshly opened tab enables the save button
      exactly when the field now holds something else than it stored. */
  lemma EditEnablesSave(user: UserInfo, ai: AiSettings, f: UserField, g: AiField, v: string)
    ensures IsChanged(user, ai, Open(user, ai).(user := SetUserField(user, f, v))) <==> UserFieldValue(user, f) != Some(v)
    ensures IsChanged(user, ai, Open(user, ai).(ai := SetAiField(ai, g, v))) <==> AiFieldValue(ai, g) != v
  {
    UserFieldGetSet(user, f, f, v);
    AiFieldGetSet(ai, g, g, v);
  }

  /** After a refused save the timer brings the tab back to idle with the
      copies kept and the message gone, so saving again is refused again
      in the same way. */
  lemma RefusedSaveRefusesAgain(user: UserInfo, ai: AiSettings, s: SettingsState)
    requires s.status == Idle && IsChanged(user, ai, s) && Rejected(s)
    ensures var t := TimerFired(Save(user, ai, s).0);
            t.status == Idle && t.errorMessage == "" && t.user == s.user && t.ai == s.ai &&
            Save(user, ai, t) == Save(user, ai, s)
  {
  }

  /** A save commits nothing that the word filter flags. */
  lemma CommittedNamesAreClean(user: UserInfo, ai: AiSettings, s: SettingsState)
    requires Save(user, ai, s).1.Some?
    ensures var (u, a) := Save(user, ai, s).1.value;
            !CheckProfanity(u.name) && !CheckProfanity(a.name) && !CheckProfanity(a.firstPerson)
  {
  }

  /** After an accepted save the main screen stores the copies and the
      effects copy them back, so nothing is left to save. */
  lemma SavedThenNothingChanged(user: UserInfo, ai: AiSettings, s: SettingsState)
    requires Save(user, ai, s).1.Some?
    ensures var (u, a) := Save(user, ai, s).1.value;
            !IsChanged(u, a, Save(user, ai, s).0) && !IsChanged(u, a, Open(u, a))
  {
  }

  /** A listed word typed into the nickname, wherever it appears, blocks
      the save and leaves the stored profile as it was. */
  lemma ListedWordBlocksSave(user: UserInfo, ai: AiSettings, s: SettingsState, before: string, k: nat, after: string)
    requires k < |ProfanityList| && s.status == Idle
    requires s.user.name == before + ProfanityList[k] + after
    ensures Save(user, ai, s).1.None?
  {
    ListedWordsFlagged(k);
    ProfanityInContext(before, ProfanityList[k], after);
  }
}

=== FILE: shared_state.dfy ===
/** The collections the main screen owns and hands to its tabs (`MainApp.tsx`):
    mistakes, goals and saved chats. The tabs change them only through the
    five operations below, each a pure function from the old sequence to the
    new one. */
module SharedState {
  import opened Wrappers
  import opened Types
  import opened Seqs

  // ---------------------------------------------------------------------
  // Mistakes: upsert by id

  /** `addOrUpdateMistake`: replace the first mistake with the same id, or
      append when the id is new. */
  function AddOrUpdateMistake(mistakes: seq<Mistake>, m: Mistake): (r: seq<Mistake>)
    ensures forall k :: (0 <= k < |mistakes| && mistakes[k].id == m.id &&
                         forall j :: 0 <= j < k ==> mistakes[j].id != m.id) ==> r == mistakes[k := m]
    ensures (forall k :: 0 <= k < |mistakes| ==> mistakes[k].id != m.id) ==> r == mistakes + [m]
  {
    match FirstIndex(mistakes, (x: Mistake) => x.id == m.id)
    case Some(k) => mistakes[k := m]
    case None => mistakes + [m]
  }

  /** The mistake ids, in list order. */
  function MistakeIds(mistakes: seq<Mistake>): seq<string> {
    seq(|mistakes|, i requires 0 <= i < |mistakes| => mistakes[i].id)
  }

  /** Read-your-write: afterwards, looking the id up finds exactly the
      mistake just saved. */
  lemma MistakeLookupAfterUpsert(mistakes: seq<Mistake>, m: Mistake)
    ensures Find(AddOrUpdateMistake(mistakes, m), (x: Mistake) => x.id == m.id) == Some(m)
  {
    var r := AddOrUpdateMistake(mistakes, m);
    var p := (x: Mistake) => x.id == m.id;
    match FirstIndex(mistakes, p)
    case Some(k) =>
      assert r == mistakes[k := m];
      assert FirstIndex(r, p) == Some(k) by {
        var f := FirstIndex(r, p);
        assert p(r[k]);
        assert f.Some? && f.value <= k;
      }
    case None =>
      assert r == mistakes + [m];
      assert FirstIndex(r, p) == Some(|mistakes|) by {
        assert p(r[|mistakes|]);
      }
  }

  /** Ids that start out unique stay unique, and the set of ids gains
      exactly the saved mistake's id. */
  lemma MistakeIdsStayDistinct(mistakes: seq<Mistake>, m: Mistake)
    requires Distinct(MistakeIds(mistakes))
    ensures Distinct(MistakeIds(AddOrUpdateMistake(mistakes, m)))
    ensures (set x | x in MistakeIds(AddOrUpdateMistake(mistakes, m))) ==
            (set x | x in MistakeIds(mistakes)) + {m.id}
  {
    var r := AddOrUpdateMistake(mistakes, m);
    var ids, ids' := MistakeIds(mistakes), MistakeIds(r);
    match FirstIndex(mistakes, (x: Mistake) => x.id == m.id)
    case Some(k) =>
      assert ids' == ids;
      assert m.id in ids by { assert ids[k] == m.id; }
    case None =>
      assert ids' == ids + [m.id];
      assert m.id !in ids;
  }

  /** Saving the same mistake twice is the same as saving it once. */
  lemma MistakeUpsertIdempotent(mistakes: seq<Mistake>, m: Mistake)
    ensures AddOrUpdateMistake(AddOrUpdateMistake(mistakes, m), m) == AddOrUpdateMistake(mistakes, m)
  {
    var r := AddOrUpdateMistake(mistakes, m);
    var p := (x: Mistake) => x.id == m.id;
    match FirstIndex(mistakes, p)
    case Some(k) =>
      assert FirstIndex(r, p) == Some(k) by {
        assert p(r[k]);
      }
    case None =>
      assert FirstIndex(r, p) == Some(|mistakes|) by {
        assert p(r[|mistakes|]);
      }
  }

  // ---------------------------------------------------------------------
  // Goals: upsert by id, then by type

  /** `addOrUpdateGoal`: replace the first goal with the same id; failing
      that, the first goal of the same type (completed or not); failing
      that, append. */
  function AddOrUpdateGoal(goals: seq<Goal>, g: Goal): (r: seq<Goal>)
    ensures forall k :: (0 <= k < |goals| && goals[k].id == g.id &&
                         forall j :: 0 <= j < k ==> goals[j].id != g.id) ==> r == goals[k := g]
    ensures (forall k :: 0 <= k < |goals| ==> goals[k].id != g.id) ==>
              forall k :: (0 <= k < |goals| && goals[k].goalType == g.goalType &&
                           forall j :: 0 <= j < k ==> goals[j].goalType != g.goalType) ==> r == goals[k := g]
    ensures (forall k :: 0 <= k < |goals| ==> goals[k].id != g.id && goals[k].goalType != g.goalType) ==>
              r == goals + [g]
  {
    match FirstIndex(goals, (x: Goal) => x.id == g.id)
    case Some(k) => goals[k := g]
    case None =>
      match FirstIndex(goals, (x: Goal) => x.goalType == g.goalType)
      case Some(k) => goals[k := g]
      case None => goals + [g]
  }

  /** At most one goal of each type. */
  ghost predicate TypesDistinct(goals: seq<Goal>) {
    forall i, j :: 0 <= i < j < |goals| ==> goals[i].goalType != goals[j].goalType
  }

  /** The goal being saved keeps the type of any stored goal with its id
      (the goal form always saves under the type it was opened for). */
  ghost predicate KeepsStoredType(goals: seq<Goal>, g: Goal) {
    forall k :: 0 <= k < |goals| && goals[k].id == g.id ==> goals[k].goalType == g.goalType
  }

  /** Upserting keeps goal types pairwise distinct. */
  lemma GoalTypesStayDistinct(goals: seq<Goal>, g: Goal)
    requires TypesDistinct(goals) && KeepsStoredType(goals, g)
    ensures TypesDistinct(AddOrUpdateGoal(goals, g))
  {
    var r := AddOrUpdateGoal(goals, g);
    match FirstIndex(goals, (x: Goal) => x.id == g.id)
    case Some(k) =>
      assert r == goals[k := g];
    case None =>
      match FirstIndex(goals, (x: Goal) => x.goalType == g.goalType)
      case Some(k) =>
        assert r == goals[k := g];
      case None =>
        assert r == goals + [g];
  }

  /** With distinct types there are never more than three goals. */
  lemma AtMostThreeGoals(goals: seq<Goal>)
    requires TypesDistinct(goals)
    ensures |goals| <= 3
  {
    if |goals| > 3 {
      FourTypesCollide(goals[0].goalType, goals[1].goalType, goals[2].goalType, goals[3].goalType);
    }
  }

  /** Pigeonhole on the three goal types. */
  lemma FourTypesCollide(a: GoalType, b: GoalType, c: GoalType, d: GoalType)
    ensures a == b || a == c || a == d || b == c || b == d || c == d
  {
  }

  /** Every save of the run keeps the type of any stored goal with its id,
      judged against the goals as they are when that save happens. */
  ghost predicate SavesKeepTypes(goals: seq<Goal>, saves: seq<Goal>)
    decreases |saves|
  {
    |saves| == 0 ||
    (KeepsStoredType(goals, saves[0]) && SavesKeepTypes(AddOrUpdateGoal(goals, saves[0]), saves[1..]))
  }

  /** The goal list after saving each of `saves` in turn. */
  function ApplyGoalSaves(goals: seq<Goal>, saves: seq<Goal>): seq<Goal>
    decreases |saves|
  {
    if |saves| == 0 then goals else ApplyGoalSaves(AddOrUpdateGoal(goals, saves[0]), saves[1..])
  }

  /** Upserting never adds a second goal of a type: the invariant and the
      bound together, for any run of type-keeping saves. */
  lemma {:induction false} GoalSavesKeepBound(goals: seq<Goal>, saves: seq<Goal>)
    requires TypesDistinct(goals) && SavesKeepTypes(goals, saves)
    ensures TypesDistinct(ApplyGoalSaves(goals, saves))
    ensures |ApplyGoalSaves(goals, saves)| <= 3
    decreases |saves|
  {
    if |saves| == 0 {
      AtMostThreeGoals(goals);
    } else {
      GoalTypesStayDistinct(goals, saves[0]);
      GoalSavesKeepBound(AddOrUpdateGoal(goals, saves[0]), saves[1..]);
    }
  }

  /** An upsert adds at most one goal, and every goal afterwards is the
      saved one or was stored before. */
  lemma GoalUpsertKeeps(goals: seq<Goal>, g: Goal)
    ensures |goals| <= |AddOrUpdateGoal(goals, g)| <= |goals| + 1
    ensures forall i :: 0 <= i < |AddOrUpdateGoal(goals, g)| ==>
              AddOrUpdateGoal(goals, g)[i] == g || AddOrUpdateGoal(goals, g)[i] in goals
  {
    var r := AddOrUpdateGoal(goals, g);
    match FirstIndex(goals, (x: Goal) => x.id == g.id)
    case Some(k) =>
      assert r == goals[k := g];
      assert forall i :: 0 <= i < |r| && i != k ==> r[i] == goals[i];
    case None =>
      match FirstIndex(goals, (x: Goal) => x.goalType == g.goalType)
      case Some(k) =>
        assert r == goals[k := g];
        assert forall i :: 0 <= i < |r| && i != k ==> r[i] == goals[i];
      case None =>
        assert r == goals + [g];
        assert forall i :: 0 <= i < |goals| ==> r[i] == goals[i];
  }

  /** A new goal (no id match) whose type already belongs to a COMPLETED goal
      replaces that completed goal in place: the source matches on type
      alone. */
  lemma NewGoalReplacesCompletedOfSameType(goals: seq<Goal>, k: nat, newer: Goal)
    requires TypesDistinct(goals) && k < |goals|
    requires goals[k].isCompleted && goals[k].goalType == newer.goalType
    requires forall i :: 0 <= i < |goals| ==> goals[i].id != newer.id
    ensures AddOrUpdateGoal(goals, newer) == goals[k := newer]
  {
    assert forall j :: 0 <= j < k ==> goals[j].goalType != newer.goalType;
  }

  /** `resetGoalByType`: drop every goal of the type, keep the others. */
  function ResetGoalByType(goals: seq<Goal>, t: GoalType): (r: seq<Goal>)
    ensures forall g :: g in r ==> g in goals && g.goalType != t
    ensures forall i :: 0 <= i < |goals| && goals[i].goalType != t ==> goals[i] in r
  {
    var other := (g: Goal) => g.goalType != t;
    FilterMembers(goals, other);
    Filter(goals, other)
  }

  /** Resetting keeps the survivors in their original order: resetting a
      concatenation resets each part, and a list without the type is left
      as it is. Resetting twice is resetting once. */
  lemma ResetKeepsOrder(a: seq<Goal>, b: seq<Goal>, t: GoalType)
    ensures ResetGoalByType(a + b, t) == ResetGoalByType(a, t) + ResetGoalByType(b, t)
    ensures (forall i :: 0 <= i < |a| ==> a[i].goalType != t) ==> ResetGoalByType(a, t) == a
    ensures ResetGoalByType(ResetGoalByType(a, t), t) == ResetGoalByType(a, t)
  {
    var p := (g: Goal) => g.goalType != t;
    FilterConcat(a, b, p);
    if forall i :: 0 <= i < |a| ==> a[i].goalType != t {
      FilterKeepsAll(a, p);
    }
    FilterIdempotent(a, p);
  }

  // ---------------------------------------------------------------------
  // Saved chats: prepend, delete by id

  /** `addSavedChat`: the newest chat goes first. */
  function AddSavedChat(chats: seq<SavedChat>, c: SavedChat): (r: seq<SavedChat>)
    ensures |r| == |chats| + 1 && r[0] == c
    ensures forall i :: 0 <= i < |chats| ==> r[i + 1] == chats[i]
  {
    [c] + chats
  }

  /** `deleteSavedChat`: drop every chat with the id, keep the others. */
  function DeleteSavedChat(chats: seq<SavedChat>, id: string): (r: seq<SavedChat>)
    ensures forall c :: c in r ==> c in chats && c.id != id
    ensures forall i :: 0 <= i < |chats| && chats[i].id != id ==> chats[i] in r
  {
    var other := (c: SavedChat) => c.id != id;
    FilterMembers(chats, other);
    Filter(chats, other)
  }

  /** With unique ids, deleting removes exactly the one entry and leaves the
      others in order. */
  lemma DeleteRemovesExactlyOne(chats: seq<SavedChat>, k: nat)
    requires k < |chats|
    requires forall i, j :: 0 <= i < j < |chats| ==> chats[i].id != chats[j].id
    ensures DeleteSavedChat(chats, chats[k].id) == chats[..k] + chats[k + 1..]
  {
    FilterDropsOne(chats, k, (c: SavedChat) => c.id != chats[k].id);
  }

  /** Deleting keeps the survivors' relative order. */
  lemma DeleteKeepsOrder(a: seq<SavedChat>, b: seq<SavedChat>, id: string)
    ensures DeleteSavedChat(a + b, id) == DeleteSavedChat(a, id) + DeleteSavedChat(b, id)
  {
    FilterConcat(a, b, (c: SavedChat) => c.id != id);
  }

  /** Saving a chat under a fresh id and then deleting that id restores the
      list exactly. */
  lemma DeleteUndoesAdd(chats: seq<SavedChat>, c: SavedChat)
    requires forall i :: 0 <= i < |chats| ==> chats[i].id != c.id
    ensures DeleteSavedChat(AddSavedChat(chats, c), c.id) == chats
  {
    var p := (x: SavedChat) => x.id != c.id;
    FilterConcat([c], chats, p);
    assert Filter([c], p) == [] by { assert [c][1..] == []; }
    FilterKeepsAll(chats, p);
  }
}

=== FILE: text.dfy ===
/** The handful of JavaScript string operations the components rely on:
    `trim()` as a blank test, `indexOf`/`includes`, `split` on a literal
    separator, `join`, and `toLowerCase`. Strings are sequences of Unicode
    scalar values. */
module Text {
  import opened Wrappers

  // ---------------------------------------------------------------------
  // Whitespace and trim()

  /** The characters `String.prototype.trim` removes: ECMAScript WhiteSpace
      (tab, vertical tab, form feed, space, no-break space, byte order mark
      and every space separator, including the ideographic space U+3000 a
      Japanese keyboard produces) and LineTerminator (LF, CR, U+2028, U+2029). */
  predicate IsWhitespace(c: char) {
    || c == '\t' || c == '\n' || c == '\U{000B}' || c == '\U{000C}' || c == '\r'
    || c == ' ' || c == '\U{00A0}' || c == '\U{1680}'
    || ('\U{2000}' <= c <= '\U{200A}')
    || c == '\U{2028}' || c == '\U{2029}' || c == '\U{202F}' || c == '\U{205F}'
    || c == '\U{3000}' || c == '\U{FEFF}'
  }

  /** `s.trim() === ''`, stated directly: every character is whitespace. */
  ghost predicate AllWhitespace(s: string) {
    forall i :: 0 <= i < |s| ==> IsWhitespace(s[i])
  }

  /** Leading whitespace removed. */
  function TrimStart(s: string): (r: string)
    ensures |r| <= |s| && r == s[|s| - |r|..]
    ensures r == [] || !IsWhitespace(r[0])
    ensures forall i :: 0 <= i < |s| - |r| ==> IsWhitespace(s[i])
  {
    if s == [] || !IsWhitespace(s[0]) then s else TrimStart(s[1..])
  }

  /** Trailing whitespace removed. */
  function TrimEnd(s: string): (r: string)
    ensures |r| <= |s| && r == s[..|r|]
    ensures r == [] || !IsWhitespace(r[|r| - 1])
    ensures forall i :: |r| <= i < |s| ==> IsWhitespace(s[i])
  {
    if s == [] || !IsWhitespace(s[|s| - 1]) then s else TrimEnd(s[..|s| - 1])
  }

  /** `s.trim()`. */
  function Trim(s: string): string {
    TrimEnd(TrimStart(s))
  }

  /** The source's blank test, `!s.trim()`: trimming leaves nothing. */
  predicate IsBlank(s: string) {
    Trim(s) == []
  }

  /** Some answer is empty after trimming (`some(a => !a.trim())`). */
  predicate SomeBlank(answers: seq<string>) {
    exists i :: 0 <= i < |answers| && IsBlank(answers[i])
  }

  /** `!s.trim()` holds exactly when every character of `s` is whitespace. */
  lemma BlankIffAllWhitespace(s: string)
    ensures IsBlank(s) <==> AllWhitespace(s)
  {
    var t := TrimStart(s);
    if IsBlank(s) {
      assert AllWhitespace(t);
      assert s == s[..|s| - |t|] + t;
    } else {
      var r := TrimEnd(t);
      assert r[0] == t[0] == s[|s| - |t|];
    }
  }

  // ---------------------------------------------------------------------
  // indexOf / includes

  /** `w` occurs in `s` starting at index `i`. */
  predicate OccursAt(s: string, w: string, i: nat) {
    i + |w| <= |s| && s[i..i + |w|] == w
  }

  /** `s.indexOf(w, k)`: the first occurrence at or after `k`, if any
      (that it is the first is `IndexFromFirst`). */
  function IndexFrom(s: string, w: string, k: nat): (r: Option<nat>)
    requires k <= |s|
    ensures r.Some? ==> k <= r.value && OccursAt(s, w, r.value)
    decreases |s| - k
  {
    if k + |w| > |s| then None
    else if s[k..k + |w|] == w then Some(k)
    else if k == |s| then None
    else IndexFrom(s, w, k + 1)
  }

  /** `IndexFrom` misses nothing: no occurrence lies between `k` and the one
      it finds, and there is none at or after `k` when it finds nothing. */
  lemma {:induction false} IndexFromFirst(s: string, w: string, k: nat)
    requires k <= |s|
    ensures IndexFrom(s, w, k).Some? ==> forall j :: k <= j < IndexFrom(s, w, k).value ==> !OccursAt(s, w, j)
    ensures IndexFrom(s, w, k).None? ==> forall j :: k <= j ==> !OccursAt(s, w, j)
    decreases |s| - k
  {
    if k + |w| <= |s| && s[k..k + |w|] != w && k < |s| {
      IndexFromFirst(s, w, k + 1);
    }
  }

  /** `s.includes(w)`. */
  predicate Contains(s: string, w: string) {
    IndexFrom(s, w, 0).Some?
  }

  /** `includes` means "occurs somewhere", in both directions. */
  lemma ContainsIffOccurs(s: string, w: string)
    ensures Contains(s, w) <==> exists i: nat :: OccursAt(s, w, i)
  {
    var r := IndexFrom(s, w, 0);
    IndexFromFirst(s, w, 0);
    if r.Some? {
      assert OccursAt(s, w, r.value);
    }
  }

  /** Every string contains itself. */
  lemma ContainsSelf(w: string)
    ensures Contains(w, w)
  {
    assert OccursAt(w, w, 0);
    ContainsIffOccurs(w, w);
  }

  /** An occurrence inside `t` is still an occurrence inside `a + t + b`. */
  lemma ContainsInContext(a: string, t: string, b: string, w: string)
    requires Contains(t, w)
    ensures Contains(a + t + b, w)
  {
    ContainsIffOccurs(t, w);
    var i: nat :| OccursAt(t, w, i);
    var s := a + t + b;
    forall k | 0 <= k < |w|
      ensures s[|a| + i + k] == w[k]
    {
      assert s[|a| + i + k] == t[i + k] == t[i..i + |w|][k];
    }
    assert s[|a| + i..|a| + i + |w|] == w;
    assert OccursAt(s, w, |a| + i);
    ContainsIffOccurs(s, w);
  }

  // ---------------------------------------------------------------------
  // split / join on a non-empty literal separator

  /** `s.split(sep)` for a non-empty separator: the pieces between the
      successive leftmost non-overlapping occurrences of `sep`. */
  function Split(s: string, sep: string): (r: seq<string>)
    requires |sep| > 0
    ensures |r| >= 1
    decreases |s|
  {
    match IndexFrom(s, sep, 0)
    case None => [s]
    case Some(i) => [s[..i]] + Split(s[i + |sep|..], sep)
  }

  /** `parts.join(sep)`. */
  function Join(parts: seq<string>, sep: string): string {
    if |parts| == 0 then []
    else if |parts| == 1 then parts[0]
    else parts[0] + sep + Join(parts[1..], sep)
  }

  /** Splitting loses nothing: joining the pieces with the separator gives
      back the original string. */
  lemma {:induction false} JoinSplit(s: string, sep: string)
    requires |sep| > 0
    ensures Join(Split(s, sep), sep) == s
    decreases |s|
  {
    var r := IndexFrom(s, sep, 0);
    if r.Some? {
      var i := r.value;
      var head, rest := s[..i], s[i + |sep|..];
      JoinSplit(rest, sep);
      SplitUnfold(s, sep, i);
      JoinCons(head, Split(rest, sep), sep);
      assert Join(Split(s, sep), sep) == head + sep + rest;
      assert s[i..i + |sep|] == sep;
      Around(s, i, i + |sep|);
    }
  }

  /** A string is the part before a slice, the slice and the part after. */
  lemma Around(s: string, i: nat, j: nat)
    requires i <= j <= |s|
    ensures s == s[..i] + s[i..j] + s[j..]
  {
    assert s[..j] == s[..i] + s[i..j];
  }

  /** One step of `Split` at the first occurrence `i`. */
  lemma SplitUnfold(s: string, sep: string, i: nat)
    requires |sep| > 0 && IndexFrom(s, sep, 0).Some? && IndexFrom(s, sep, 0).value == i
    ensures Split(s, sep) == [s[..i]] + Split(s[i + |sep|..], sep)
  {
  }

  /** Joining a non-empty tail puts one separator after the head. */
  lemma JoinCons(head: string, tail: seq<string>, sep: string)
    requires |tail| >= 1
    ensures Join([head] + tail, sep) == head + sep + Join(tail, sep)
  {
    assert ([head] + tail)[1..] == tail;
  }

  /** No piece of a split contains the separator. */
  lemma {:induction false} SplitPiecesFree(s: string, sep: string)
    requires |sep| > 0
    ensures forall k :: 0 <= k < |Split(s, sep)| ==> !Contains(Split(s, sep)[k], sep)
    decreases |s|
  {
    match IndexFrom(s, sep, 0)
    case None =>
    case Some(i) =>
      var rest := s[i + |sep|..];
      SplitPiecesFree(rest, sep);
      IndexFromFirst(s, sep, 0);
      var head := s[..i];
      if Contains(head, sep) {
        ContainsIffOccurs(head, sep);
        var j: nat :| OccursAt(head, sep, j);
        assert s[j..j + |sep|] == head[j..j + |sep|];
        assert OccursAt(s, sep, j);
        assert false;
      }
      SplitUnfold(s, sep, i);
  }

  /** A string without the separator splits into just itself. */
  lemma SplitWithout(s: string, sep: string)
    requires |sep| > 0 && !Contains(s, sep)
    ensures Split(s, sep) == [s]
  {
  }

  /** A separator that starts with a character it never repeats cannot
      overlap itself, so if `a` does not contain it, the first occurrence in
      `a + sep + b` is the one right after `a`. */
  lemma SplitAtFirst(a: string, sep: string, b: string)
    requires |sep| > 0 && !Contains(a, sep)
    requires forall k :: 0 < k < |sep| ==> sep[k] != sep[0]
    ensures Split(a + sep + b, sep) == [a] + Split(b, sep)
  {
    var s := a + sep + b;
    assert s[|a|..|a| + |sep|] == sep;
    assert OccursAt(s, sep, |a|);
    forall j: nat | j < |a|
      ensures !OccursAt(s, sep, j)
    {
      if j + |sep| <= |a| {
        if OccursAt(s, sep, j) {
          assert a[j..j + |sep|] == s[j..j + |sep|];
          assert OccursAt(a, sep, j);
          ContainsIffOccurs(a, sep);
        }
      } else {
        var k := |a| - j;
        assert s[j + k] == sep[0] != sep[k];
        assert s[j..j + |sep|][k] != sep[k];
      }
    }
    var r := IndexFrom(s, sep, 0);
    IndexFromFirst(s, sep, 0);
    assert r == Some(|a|);
    assert s[..|a|] == a;
    assert s[|a| + |sep|..] == b;
  }

  // ---------------------------------------------------------------------
  // toLowerCase

  /** `toLowerCase` on one character, for the letters that occur in this
      application: ASCII A-Z and the fullwidth Ａ-Ｚ a Japanese input method
      produces. Every other character is its own lower case here. */
  function LowerChar(c: char): (r: char)
    ensures 'A' <= c <= 'Z' ==> r as int == c as int + 32
    ensures '\U{FF21}' <= c <= '\U{FF3A}' ==> r as int == c as int + 32
    ensures !('A' <= c <= 'Z') && !('\U{FF21}' <= c <= '\U{FF3A}') ==> r == c
  {
    if 'A' <= c <= 'Z' then (c as int + 32) as char
    else if '\U{FF21}' <= c <= '\U{FF3A}' then (c as int + 32) as char
    else c
  }

  /** `s.toLowerCase()`, character by character. */
  function Lower(s: string): (r: string)
    ensures |r| == |s|
    ensures forall i :: 0 <= i < |s| ==> r[i] == LowerChar(s[i])
  {
    seq(|s|, i requires 0 <= i < |s| => LowerChar(s[i]))
  }

  /** Lower-casing twice is lower-casing once. */
  lemma LowerIdempotent(s: string)
    ensures Lower(Lower(s)) == Lower(s)
  {
  }
}

=== FILE: tutorial.dfy ===
/** The five-slide introduction shown between the MBTI question and the
    main screen (`components/Tutorial.tsx`). Its only state is the index of
    the slide on screen, starting at 0. */
module Tutorial {

  datatype Slide = Slide(icon: string, title: string, description: string)

  const TutorialSlides: seq<Slide> := [
    Slide("👋", "Bye Mistakesへようこそ！",
      "あなたの情報を基に、学習体験をパーソナライズします。"),
    Slide("🌱", "復習タブ: ミスを\"学びの種\"に",
      "間違えた問題と原因を登録すると、AIがあなた専用の克服ドリルを5問作成します。"),
    Slide("💖", "AIによる採点 & フィードバック",
      "ドリルを解くとAIが採点。あなたの性格に合わせた、心に響く励ましのフィードバックを提供します。"),
    Slide("🧭", "演習タブ: 弱点を徹底分析",
      "これまでのミス傾向をAIが分析し根本的な弱点を特定。トレーニングモードで反復練習もできます。"),
    Slide("🚀", "さあ、始めましょう！",
      "準備は完了です！下のボタンを押して、AIの初期設定を行いましょう。")
  ]

  /** `TUTORIAL_SLIDES.length`. */
  const SlideCount: nat := |TutorialSlides|

  /** The index of the last slide. */
  const LastSlide: nat := SlideCount - 1

  /** What one press of the button does: the slide shown afterwards, and
      whether `onComplete` was called. */
  datatype NextResult = NextResult(slide: nat, completed: bool)

  /** `handleNext`: advance one slide, or on the last slide complete and stay. */
  function HandleNext(current: nat): (r: NextResult)
    requires current < SlideCount
    ensures r.slide < SlideCount
    ensures current < LastSlide ==> r.slide == current + 1 && !r.completed
    ensures current == LastSlide ==> r.slide == current && r.completed
  {
    if current < SlideCount - 1 then NextResult(current + 1, false)
    else NextResult(current, true)
  }

  /** The button caption: '完了' exactly on the last slide, '次へ' before it. */
  function ButtonLabel(current: nat): (r: string)
    requires current < SlideCount
    ensures r == "完了" <==> current == LastSlide
    ensures r == "次へ" <==> current != LastSlide
  {
    if current < SlideCount - 1 then "次へ" else "完了"
  }

  /** The caption names what the press does: '完了' exactly when pressing
      calls `onComplete`, '次へ' exactly when it moves to the next slide. */
  lemma LabelMatchesPress(current: nat)
    requires current < SlideCount
    ensures ButtonLabel(current) == "完了" <==> HandleNext(current).completed
    ensures ButtonLabel(current) == "次へ" <==> HandleNext(current).slide == current + 1
  {
  }

  /** `n` presses from slide `current`: the slide then shown and whether
      `onComplete` was called. */
  function Presses(current: nat, n: nat): (r: NextResult)
    requires current < SlideCount
    ensures r.slide < SlideCount
    ensures r.completed ==> n > 0
    decreases n
  {
    if n == 0 then NextResult(current, false)
    else
      var step := HandleNext(current);
      var rest := Presses(step.slide, n - 1);
      NextResult(rest.slide, step.completed || rest.completed)
  }

  /** From the first slide, the first four presses only advance, and
      `onComplete` is first called on exactly the fifth press, with the last
      slide still on screen. */
  lemma {:induction false} CompletesOnFifthPress(n: nat)
    ensures n < SlideCount ==> Presses(0, n) == NextResult(n, false)
    ensures n == SlideCount ==> Presses(0, n) == NextResult(LastSlide, true)
  {
    if n <= SlideCount {
      PressesBeforeEnd(0, n);
    }
  }

  /** Presses that stay short of the last slide's press only advance. */
  lemma {:induction false} PressesBeforeEnd(current: nat, n: nat)
    requires current + n <= SlideCount
    ensures current + n < SlideCount ==> Presses(current, n) == NextResult(current + n, false)
    ensures current + n == SlideCount && n > 0 ==> Presses(current, n) == NextResult(LastSlide, true)
    decreases n
  {
    if n > 0 {
      if current < LastSlide {
        PressesBeforeEnd(current + 1, n - 1);
      } else {
        assert Presses(current, 0) == NextResult(current, false);
      }
    }
  }
}

=== FILE: types.dfy ===
/** The records every component exchanges (the application's `types.ts`).
    Optional TypeScript fields are `Option`s; ids are strings supplied by the
    caller (the source derives them from `Date.now()`). */
module Types {
  import opened Wrappers

  datatype Sender = User | Bot

  /** One selectable answer under a bot message (`label` is a Dafny keyword, hence `labelText`). */
  datatype MessageOption = MessageOption(labelText: string, value: string)

  datatype Message = Message(id: string, text: string, sender: Sender, options: Option<seq<MessageOption>>)

  /** The onboarding steps, in the order the conversation visits them. */
  datatype OnboardingStep = Initial | Name | Grade | Gender | Mbti | Tutorial | MainApp

  datatype UserInfo = UserInfo(
    name: string,
    grade: string,
    gender: string,
    mbti: string,
    learningPreferences: Option<seq<string>>,
    bio: Option<string>)

  datatype AiSettings = AiSettings(name: string, firstPerson: string, personality: string, customPrompt: string)

  datatype DrillProblem = DrillProblem(question: string)

  datatype Mistake = Mistake(
    id: string,
    problem: string,
    problemImage: Option<string>,
    cause: string,
    drill: Option<seq<DrillProblem>>,
    answers: Option<seq<string>>,
    feedback: Option<string>,
    memo: Option<string>)

  datatype GoalType = Long | Medium | Short

  datatype BackgroundKind = Color | Preset | Custom

  /** A colour code, a preset picture's address, or an uploaded picture as a data URI. */
  datatype GoalBackground = GoalBackground(kind: BackgroundKind, value: string)

  datatype Reflection = Reflection(rating: int, text: string)

  /** A recorded audio clip is an opaque browser object; the model keeps only
      a handle to it so that it can say the clip is carried along unchanged. */
  type AudioHandle = nat

  datatype Goal = Goal(
    id: string,
    goalType: GoalType,
    title: string,
    deadline: string,
    reward: string,
    background: GoalBackground,
    audioUrl: Option<string>,
    audioBlob: Option<AudioHandle>,
    isCompleted: bool,
    reflection: Option<Reflection>)

  datatype SavedChat = SavedChat(id: string, title: string, messages: seq<Message>, savedAt: string)

  /** JavaScript truthiness of an optional string: present and non-empty. */
  predicate Truthy(s: Option<string>) {
    s.Some? && s.value != []
  }

  /** A bot or user message without options. */
  function Plain(id: string, text: string, sender: Sender): Message {
    Message(id, text, sender, None)
  }
}

=== FILE: wrappers.dfy ===
/** Small failure-carrying datatypes shared by every component of the model. */
module Wrappers {

  /** An optional value; stands for the source's `T | undefined` and `T | null`. */
  datatype Option<+T> = None | Some(value: T) {

    /** The value, or `default` when absent (the source's `x ?? default`). */
    function GetOr(default: T): (r: T)
      ensures Some? ==> r == value
      ensures None? ==> r == default
    {
      match this
      case Some(v) => v
      case None => default
    }
  }

  /** What a call to the hosted language model produced. The model never looks
      inside the service: each call site receives one of these as a parameter,
      so every property proved holds for every possible answer. A thrown
      exception, a network error and a response the caller could not parse
      are all `Failed`. */
  datatype AiReply<+T> = Replied(answer: T) | Failed

  /** The outcome of a validated user action: accepted with a value, or
      refused with the message the source shows (inline or via `alert`). */
  datatype Checked<+T> = Accepted(value: T) | Refused(message: string)
}
